=== FILE: README.md ===
# A Dafny model of pupRepo's mesh query class and pipeline helpers

This project models two parts of a Maya rigging and pipeline toolkit written in Python 2.

**The `Mesh` query class (`pup/library/apiMesh.py`).** The Maya mesh it wraps is immutable host data (`MeshHost.Host`):

- the triangle count of every polygon;
- the flat list of triangle vertex ids;
- the connected vertices of every vertex;
- the shared UV of every vertex, per UV set;
- the vertex positions in object and world space.

The object itself (`ApiMesh.Mesh`) holds the host, a record of `Option`-valued caches and the position of the shared vertex iterator `_vert_it`. Each query is a function or method from one mesh state to the next state plus its answer. The invariant `ApiMesh.Coherent` says a filled cache holds what the host data says it should, and every query keeps it. The modelled parts are:

- `clear_cache`;
- the triangle queries;
- one-ring neighbours and the vertex connectivity matrix;
- the breadth-first ring march;
- the UV bounds and UDIM tile;
- the barycentric lookups of `get_closest_at_uv` and `point_on_mesh`.

scipy's Delaunay triangulation, its `find_simplex`, and Maya's closest-point intersector are function parameters. The model takes what they return, under the constraints stated on them.

**The pipeline helpers.** These are pure string, path and dictionary functions:

- latest-file choice and version bumping, guide namespaces, dictionary merge and name filtering (`utilsLib.py`);
- follow and connect attribute parsing and version-folder naming (`coreLib.py`);
- the GUI's project dictionary (`mayaGUI/projectinfo.py`);
- the asset folder layouts of `shelf/info.py` and `pipeline/pipeinfoplatform.py`;
- offset-group naming, chaining and `top_parent` (`transformLib.py`), with the Maya scene as a parent map.

Python's string semantics are written out in `Strings`:

- `split`, `join`, `replace`, `zfill`, `str(int)`, `int(str)` and `strip`;
- `sorted`'s order, which is code-point lexicographic as Python 2 compares `str`.

Files and modules:

| file | module | models |
|---|---|---|
| wrappers.dfy | Wrappers | `Option` and `Result` |
| strings.dfy | Strings | the Python `str` operations the helpers use |
| geometry.dfy | Geometry | vectors, barycentric weights, the Delaunay transform |
| mesh_host.dfy | MeshHost | the host mesh, reshaping, edge vectors, adjacency |
| api_mesh.dfy | ApiMesh | the cache record, `clear_cache`, triangle queries |
| mesh_topology.dfy | MeshTopology | neighbours, connectivity matrix, ring march |
| mesh_uv.dfy | MeshUV | vertex UVs, bounds, UDIM, closest-at-UV, point-on-mesh |
| utils_lib.dfy | UtilsLib | `utilsLib.py` helpers |
| core_lib.dfy | CoreLib | `coreLib.py` attribute parsing and `save_to_path` |
| project_info.dfy | ProjectInfo | `projectinfo.py` |
| asset_folders.dfy | AssetFolders | the folder layout shared by the shelf and the pipeline |
| shelf_info.dfy | ShelfInfo | `shelf/info.py` |
| pipe_info_platform.dfy | PipeInfoPlatform | `pipeline/pipeinfoplatform.py` |
| transform_lib.dfy | TransformLib | `null_grps` and `top_parent` |

Behaviours of the code that a caller might not expect, which the model keeps:

- `clear_cache` keeps the per-vertex UV list and the UV triangulation, so those are not recomputed after a clear.
- `get_uv_udim` tests only the u axis.
- `vert_connectivity_matrix` starts wherever the vertex iterator stands.
- `march_vert_array` counts the seed list with its duplicates on its first loop test. If the seed list has at least as many entries as the mesh has vertices, it returns only ring 0 without visiting everything.
- `triangle_points` keeps what it computed. A later `points()` in another space does not change its answer until the cache is cleared (`ApiMesh.TrianglePointsKept`).

The last four are listed under Findings or stated in the contracts.

## Model

| member | source | states |
|---|---|---|
| ApiMesh.Init | pup/library/apiMesh.py:15-57 | A new object has every modelled cache empty and the iterator at the start, and satisfies the cache invariant. |
| ApiMesh.ClearCache | pup/library/apiMesh.py:59-83 | Triangle, point, edge-vector and connectivity caches become empty. The vertex UV list and the UV triangulation are kept. Host and iterator are unchanged, and the invariant holds. |
| ApiMesh.ClearCacheIdempotent | pup/library/apiMesh.py:59-83 | Clearing twice is the same as clearing once. |
| ApiMesh.Triangles | pup/library/apiMesh.py:383-398 | Returns the host's per-face counts and id list. Caches the id list and the triangle count, which is the sum of the per-face counts. There are three ids per triangle, and nothing else changes. |
| ApiMesh.NumTriangles | pup/library/apiMesh.py:633-646 | The reported count is a third of the id list's length and is left in the cache. A missing or zero count is recomputed; a non-zero cached count is returned with the object unchanged. Only the triangle id list and count caches may change; the iterator and every other cache stay. |
| ApiMesh.TriangleVerts | pup/library/apiMesh.py:400-416 | Has one row per triangle (the sum of the per-face counts). Corner i of row t is id 3t+i, and the rows are cached. Cached rows are returned with the object unchanged; otherwise only the row, id list and count caches may change, and the iterator stays. |
| ApiMesh.TriangleVertsFlatten | pup/library/apiMesh.py:409-416 | Reading the rows back in order gives the host's id list: the reshape loses nothing. |
| ApiMesh.Points | pup/library/apiMesh.py:132-144 | Returns the host's positions in the space asked for, object or world, re-read on every call. They replace the cached points. Nothing else about the object changes. |
| ApiMesh.TrianglePoints | pup/library/apiMesh.py:418-436 | Fails with "run .points() first" exactly when neither triangle points nor points are cached. Stored triangle points are returned as they are, with the object unchanged. When computed, row k is the position of vertex id k of the id list, and the result is stored; only the triangle point, id list and count caches may change, and the iterator stays. |
| ApiMesh.TrianglePointsKept | pup/library/apiMesh.py:418-436 | Once triangle points were computed from one space, a later `points()` in another space leaves `triangle_points()` returning the old rows. |
| ApiMesh.TrianglePointsCorners | pup/library/apiMesh.py:400-436 | After `points()`, corner i of triangle t in `triangle_points` is the position of the vertex `triangle_verts` lists there. |
| ApiMesh.ClearedNeedsPoints | pup/library/apiMesh.py:59-83 | After `clear_cache`, `triangle_points` raises until points are fetched again. |
| ApiMesh.TriangleEdgeVectors | pup/library/apiMesh.py:454-468 | Fails exactly as `triangle_points` does. Otherwise returns and caches the edge vectors of the cached triangle points, one per corner. Only the edge vector, triangle point, id list and count caches may change, just the edge vectors when triangle points were stored, and the iterator stays. |
| MeshHost.Reshape | pup/library/apiMesh.py:414 | `reshape(-1, 3)`: a third as many rows; corner i of row t is entry 3t+i. |
| MeshHost.FlattenReshape | pup/library/apiMesh.py:414 | Flattening the reshaped rows gives back the id list. |
| MeshHost.EdgeVectorsOfTriangle | pup/library/apiMesh.py:466 | Rows 3t, 3t+1 and 3t+2 are corner 0 minus corner 1, corner 1 minus corner 2 and corner 2 minus corner 0 of triangle t (the `[1, 2, 0]` column order). |
| MeshHost.EdgeVectorsClose | pup/library/apiMesh.py:466 | A triangle's three edge vectors sum to zero. |
| MeshHost.FaceTriangle | pup/library/apiMesh.py:364-366 | The vertex ids of triangle `triangle` of face `face` are vertices of the mesh. |
| MeshHost.RowsPairsCount | pup/library/apiMesh.py:595-605 | In the entries appended for rows lo..hi, entry (i, j) is the number of times j is listed among i's connected vertices. It is zero outside those rows. |
| MeshHost.ConnectivitySymmetric | pup/library/apiMesh.py:595-605 | With distinct, symmetric adjacency lists, the full matrix is symmetric and every entry is 0 or 1. |
| MeshTopology.GetNeighbourVerts | pup/library/apiMesh.py:521-539 | The result has no duplicates and holds exactly the vertices connected to an input id that are not themselves inputs. The iterator is left on the last id, and no cache changes. |
| MeshTopology.RowEntries | pup/library/apiMesh.py:598-601 | The inner loop appends one (vertex, neighbour) entry per listed neighbour. |
| MeshTopology.ConnectivityRows | pup/library/apiMesh.py:596-603 | The outer loop appends the entries of every row from the iterator position to the last vertex. |
| MeshTopology.VertConnectivityMatrix | pup/library/apiMesh.py:583-607 | Computed once, it counts j among i's connected vertices only for rows at or after the iterator's position. It is cached, the iterator is left at the end, and no other cache changes. A cached matrix is returned with the object unchanged. |
| MeshTopology.VertConnectivityMatrixReset | pup/library/apiMesh.py:583-607 | Corrected: counts j among i's connected vertices for every vertex. On a manifold mesh the matrix is symmetric 0/1 adjacency. It caches and moves the iterator as the as-written query does. |
| MeshTopology.MatrixAfterTriangleQueries | pup/library/apiMesh.py:583-608 | On a fresh object, `points()`, `triangle_points()` and `triangle_edge_vectors()` leave the iterator at the start, so `vert_connectivity_matrix()` then has one entry per connected pair. |
| MeshTopology.MatrixAfterClosestAtUV | pup/library/apiMesh.py:595-605 | On a fresh object, `get_closest_at_uv()` followed by `vert_connectivity_matrix()` gives an empty matrix, unless the first call fails. |
| MeshTopology.MatrixAfterUVsIsEmpty | pup/library/apiMesh.py:184-204 | Calling `get_vert_uvs` and then `vert_connectivity_matrix` on a fresh object gives an empty matrix. The reset query on the same state has an entry for every listed neighbour. |
| MeshTopology.Unfound | pup/library/apiMesh.py:707 | The next ring is the one-ring minus the vertices already found, without duplicates. |
| MeshTopology.MarchStep | pup/library/apiMesh.py:704-712 | One pass of the loop: the new ring is the neighbours of the last ring not found yet. Every neighbour of the found set is found or in the new ring. Only the iterator moves, and it ends on the last id of the last ring, or stays put when that ring is empty. |
| MeshTopology.AdvanceMarch | pup/library/apiMesh.py:707-712 | A non-empty new ring keeps the loop invariant and strictly grows the found set, which stays within the mesh, so the loop ends. |
| MeshTopology.MarchVertArray | pup/library/apiMesh.py:690-714 | Ring 0 is the seeds. Each later ring is non-empty, has no duplicates and is the previous ring's neighbours minus every earlier ring. When the loop ends, every vertex was found, or the seed list alone was long enough. A seed list at least as long as the mesh's vertex count, duplicates counted, returns just `[seeds]`, leaving the object unchanged. The `Stuck` stop happens only on a closed region smaller than the mesh. On a connected mesh with at least one seed the march ends `Done`, and with fewer seeds than vertices every vertex is in some ring. The iterator is left where the last pass put it: on the last id of the ring before the newest one, or of the last ring when stuck, and unmoved when no pass ran. |
| MeshTopology.MarchLoop | pup/library/apiMesh.py:704-712 | The loop alone: its invariant holds at exit, a stop finds a closed region smaller than the mesh, and a normal exit has found every vertex unless the seed list alone was long enough. It also says where the iterator rests. |
| MeshTopology.StuckMeansDisconnected | pup/library/apiMesh.py:704-712 | A march that stops on a closed region smaller than the mesh had no seeds or ran on a disconnected mesh. |
| MeshTopology.UnionHasRing | pup/library/apiMesh.py:707-712 | Every ring, and the union of the rings before it, lies within the union of all rings. |
| MeshTopology.ConnectedMarchNeverStuck | pup/library/apiMesh.py:704-714 | On a connected mesh, a found set closed under adjacency that holds a seed is the whole mesh. So the march cannot get stuck there. |
| MeshUV.GetVertUVs | pup/library/apiMesh.py:184-204 | Fails exactly when nothing is cached, the set is unknown and the mesh has a vertex to read. A mesh without vertices caches the empty list. Otherwise the list is filled once with the set's UV per vertex, the iterator is left at the end, and no other cache changes. A cached list is returned with the object unchanged. |
| MeshUV.VertUVsSticky | pup/library/apiMesh.py:192-204 | After one set's UVs are cached, asking for another set returns the first set's UVs. |
| MeshUV.VertUVsSurviveClear | pup/library/apiMesh.py:59-83 | The cached UV list survives `clear_cache` unchanged. |
| MeshUV.MinOf | pup/library/apiMesh.py:216-218 | `np.amin` of a non-empty column is an element no greater than any other. |
| MeshUV.MaxOf | pup/library/apiMesh.py:230-232 | `np.amax` of a non-empty column is an element no less than any other. |
| MeshUV.UVBound | pup/library/apiMesh.py:206-260 | Each bound is a UV coordinate of the list that bounds all of them. It fails when UVs cannot be read or the mesh is empty. |
| MeshUV.TruncMonotone | pup/library/apiMesh.py:332 | Python's `int()` truncation of a float is monotone. |
| MeshUV.UdimAsWritten | pup/library/apiMesh.py:318-336 | As written, a tile is reported exactly when min u and max u truncate alike. The v axis is not checked. |
| MeshUV.UdimAsWrittenMissesV | pup/library/apiMesh.py:332 | UVs (0.5, 0.5) and (0.5, 1.5) give tile (0, 0) as written. The corrected test rejects them, and they do not share a tile. |
| MeshUV.UdimIffSharedTile | pup/library/apiMesh.py:327-336 | Corrected: tile t is reported exactly when every UV lies in tile t. |
| MeshUV.AxisTile | pup/library/apiMesh.py:329-332 | Along one axis, the least and greatest values truncate to t exactly when every value does. |
| MeshUV.GetUvUdim | pup/library/apiMesh.py:318-336 | On the mesh, it fails when UVs cannot be read or the mesh is empty. Otherwise it returns (int(min u), int(min v)) exactly when int(min u) == int(max u). |
| MeshUV.UvTriangulation | pup/library/apiMesh.py:262-277 | The triangulation of the cached vertex UVs, computed once and cached. It fails when the UVs cannot be read or qhull raises, which it always does for fewer than three vertices. A stored triangulation is returned with the object unchanged. Otherwise only the UV list and triangulation caches may change, and the iterator ends on the last vertex exactly when the UV list had to be read. |
| MeshUV.GetClosestAtUV | pup/library/apiMesh.py:279-316 | Returns None exactly when no simplex holds the point. On a hit, it returns the simplex's corner ids and barycentric weights that sum to one. The point is the weighted sum of the corners' world positions, and the world points are cached. The returned object is the one `uv_triangulation` left, with the points replaced by world positions on a hit and nothing else changed. |
| MeshUV.ClosestAtUVExhaustsIterator | pup/library/apiMesh.py:184-204 | On an object whose UVs were never read, `get_closest_at_uv` leaves the vertex iterator at the end and changes no cache besides the UV list, triangulation and points. |
| MeshUV.ClosestAtUVInverse | pup/library/apiMesh.py:302-303 | With an exact barycentric transform, weighting the corners' UVs by the returned weights gives back the queried UV. |
| MeshUV.AsList | pup/library/apiMesh.py:352-353 | A single point becomes a one-element list, and a list is kept. |
| MeshUV.HitAtFlatTriangle | pup/library/apiMesh.py:361-377 | When a triangle's corners share one UV, that UV is reported whatever the barycentric coordinates. |
| MeshUV.PointOnMesh | pup/library/apiMesh.py:338-381 | Returns one entry per input point, in order. Each entry is the intersector's answer and the corner UVs weighted by (b_u, b_v, 1 - (b_u + b_v)). Reading an unknown UV set fails as soon as there is a point. An empty list leaves the object as it was. Otherwise the vertex iterator ends on the third corner of the last point's triangle. |
| Geometry.Complete | pup/library/apiMesh.py:303 | The completed weights sum to one and keep the two given weights. |
| Geometry.Barycentric | pup/library/apiMesh.py:302-303 | The transform's weights always sum to one. |
| Geometry.BarycentricInverse | pup/library/apiMesh.py:302-303 | With an exact transform of the UV triangle, interpolating the corners' UVs with the weights gives back the point. |
| Geometry.InterpolateConstant | pup/library/apiMesh.py:308-312 | Weights summing to one reproduce a position shared by all three corners. |
| Geometry.InterpolateScalarConstant | pup/library/apiMesh.py:368-377 | Weights summing to one reproduce a UV coordinate shared by all three corners. |
| Strings.Split | pup/library/coreLib.py:33 | `split` on one character gives one more piece than there are separators. No piece holds the separator, and joining the pieces gives back the string. |
| Strings.SplitJoin | pup/library/coreLib.py:33 | Splitting a join of separator-free pieces gives the pieces back. |
| Strings.BeforeFirst | pup/library/coreLib.py:35 | `split(sep)[0]` is the longest separator-free prefix. |
| Strings.AfterLast | pup/library/coreLib.py:31 | `split(sep)[-1]` is the longest separator-free suffix. |
| Strings.BeforeLastAfterLast | pup/library/utilsLib.py:146 | The text before the last separator, the separator and the text after it make up the string. |
| Strings.BeforeOccurrence | pup/shelf/info.py:17 | `split(pat)[0]` is a prefix with no earlier occurrence of `pat`, followed by `pat` or ending the string. |
| Strings.ReplaceAbsent | pup/library/transformLib.py:42 | Replacing a string that does not occur changes nothing. |
| Strings.ReplaceSelf | pup/library/utilsLib.py:56 | Replacing a string by itself changes nothing. |
| Strings.ReplaceDeletes | pup/library/coreLib.py:44 | Replacing a character by nothing removes every copy of it and keeps the other characters in order: a subsequence with the same count of every other character. |
| Strings.ReplaceUniqueBlock | pup/library/transformLib.py:42 | A block that is the only run of its character is replaced in place. |
| Strings.ZFill | pup/library/utilsLib.py:54 | `zfill(w)` has length max(len, w). |
| Strings.ParseZFill | pup/library/utilsLib.py:54 | `int(str(n).zfill(w)) == n` for every integer, negative ones included. |
| Strings.ZFillOwnWidth | pup/library/utilsLib.py:51-54 | Re-rendering a digit run's value at the run's own width gives the run back. |
| Strings.PyStrInjective | pup/library/transformLib.py:42-55 | `str` of different integers differ. |
| Strings.Greatest | pup/library/utilsLib.py:24 | `sorted(xs)[-1]` is a member of the list no smaller than any other. |
| Strings.LexLeTotal | pup/library/utilsLib.py:24 | Python's string order is total. |
| Strings.LexLeTransitive | pup/library/utilsLib.py:24 | Python's string order is transitive. |
| Strings.LexLeAntisymmetric | pup/library/utilsLib.py:24 | Python's string order is antisymmetric, so the greatest string is unique. |
| UtilsLib.WithSlash | pup/library/utilsLib.py:17-18 | The folder gets a "/" only when it is missing. The result ends with "/" and extends the folder. |
| UtilsLib.BaseName | pup/library/utilsLib.py:24-27 | The glob result's name after its last "/" and then after a remaining "\\". It holds neither separator and is a suffix preceded by one. |
| UtilsLib.ImportLatest | pup/library/utilsLib.py:9-33 | None exactly when nothing matched. Otherwise the folder with "/" plus the base name of a greatest match. |
| UtilsLib.LatestIsUnique | pup/library/utilsLib.py:24 | Any two greatest matches are the same string, so the choice is well defined. |
| UtilsLib.FirstDigitRun | pup/library/utilsLib.py:51 | `re.findall(r'\d+', name)[0]` is the first maximal digit run. None (where the source raises) exactly when the name has no digit. |
| UtilsLib.NewNumberValue | pup/library/utilsLib.py:51-54 | The new number reads back as the old value plus the offset. It keeps the run's width unless it needs more digits. |
| UtilsLib.NewNumberWidens | pup/library/utilsLib.py:54 | Bumping "999" gives "1000". |
| UtilsLib.NewNumberZero | pup/library/utilsLib.py:85-88 | An offset of zero reproduces the run. |
| UtilsLib.VersionUpPath | pup/library/utilsLib.py:35-63 | Fails with "no file" exactly when nothing matched. |
| UtilsLib.VersionByInteger | pup/library/utilsLib.py:66-100 | Fails with "no file" exactly when nothing matched. |
| UtilsLib.VersionUpIsByOne | pup/library/utilsLib.py:35-100 | Versioning up is versioning by one. |
| UtilsLib.BumpKeepsFolder | pup/library/utilsLib.py:47-58 | The new path is the latest file's folder plus its name with every copy of the first digit run replaced by the new number. |
| UtilsLib.VersionUpPathShape | pup/library/utilsLib.py:45-60 | With digits in the latest name, version up gives that folder and name with the run replaced by the run plus one. |
| UtilsLib.VersionByZeroIsLatest | pup/library/utilsLib.py:76-97 | Offset zero returns the latest file's own path. |
| UtilsLib.GuideNamespaces | pup/library/utilsLib.py:136-153 | Keeps, in order, exactly the namespaces with two underscores, each as often as in the input. Prefix and part are parallel, and rejoining them with "_" gives the namespace. |
| UtilsLib.GuideNamespaceSplit | pup/library/utilsLib.py:145-146 | A guide namespace splits into a prefix holding one "_" and a part holding none, which rejoin to it. |
| UtilsLib.MergeTwoDicts | pup/library/utilsLib.py:171-174 | The keys of both, with y's value on a shared key and x's otherwise. |
| UtilsLib.RemoveItemsWith | pup/library/utilsLib.py:187-195 | Keeps, in order, exactly the items made only of letters and digits (the empty string among them), each as often as in the input. |
| CoreLib.FollowKey | pup/library/coreLib.py:31 | The key is the longest suffix of the attribute name free of "_": all of the name, or the text after its last "_". |
| CoreLib.NoSpaces | pup/library/coreLib.py:44 | `replace(" ", "")` drops every space and keeps the other characters in order. |
| CoreLib.FollowPair | pup/library/coreLib.py:35-36 | The name is the text before the item's first "=" (or all of it) with its spaces dropped. The constraint is the text after the last "=" (or all of the item). |
| CoreLib.Numbered | pup/library/coreLib.py:39-44 | The inner dictionary is keyed 1..n, and key i+1 holds item i. |
| CoreLib.Follows | pup/library/coreLib.py:18-45 | The only failure is a follow attribute without a string value. |
| CoreLib.FollowsFails | pup/library/coreLib.py:28-33 | Fails exactly when some follow attribute holds no string. |
| CoreLib.FollowsKeys | pup/library/coreLib.py:28-31 | The keys are exactly the follow keys of the follow attributes. |
| CoreLib.FollowsLastWins | pup/library/coreLib.py:28-44 | A key's dictionary is parsed from the last follow attribute with that key. |
| CoreLib.FollowPairDecode | pup/library/coreLib.py:35-36 | An item `name=constraint` decodes to the name without spaces and the constraint. |
| CoreLib.FollowEntriesDecode | pup/library/coreLib.py:33-44 | A value of comma-separated `name=constraint` items decodes to those pairs numbered from one. |
| CoreLib.ConnectPair | pup/library/coreLib.py:166-167 | The output is the text before the value's first "=" and the input the text after its last "=" (each all of the value when there is none). |
| CoreLib.Connects | pup/library/coreLib.py:150-172 | Every output and input is free of "=". |
| CoreLib.ConnectsKeys | pup/library/coreLib.py:160-170 | The outputs are exactly those of connect attributes with a non-empty value. |
| CoreLib.ConnectsLastWins | pup/library/coreLib.py:160-170 | An output's input is taken from the last connect attribute naming it. |
| CoreLib.ConnectPairDecode | pup/library/coreLib.py:166-167 | A value `out=in` decodes to that pair. |
| CoreLib.NextVersionName | pup/library/coreLib.py:208-209 | "v" followed by a number that reads back as the version plus one. |
| CoreLib.SaveToPath | pup/library/coreLib.py:192-218 | With no version folder, creates and returns "v001". Otherwise it fails exactly when the latest name is not "v" and a number. With versionUp it creates and returns the next folder. Without it, it returns the latest folder and creates nothing. |
| CoreLib.FreshFolderIsLatest | pup/library/coreLib.py:214-216 | Once "v001" is the only version folder, the lookup finds it. |
| CoreLib.SaveToPathLatestName | pup/library/coreLib.py:205-208 | The latest folder's name is the base name of a greatest listed entry. |
| CoreLib.SaveToPathAdvances | pup/library/coreLib.py:207-212 | Versioning up creates and returns a folder whose version is one more than the latest. |
| ProjectInfo.GetProjectPath | pup/mayaGUI/projectinfo.py:15-17 | Always the same root, a folder path. |
| ProjectInfo.FolderStep | pup/mayaGUI/projectinfo.py:24-29 | "guides" uses the rigging folder, and any other step uses itself. |
| ProjectInfo.Info | pup/mayaGUI/projectinfo.py:19-73 | The step key keeps "guides". The project and asset paths nest under the root. The rigging keys exist exactly for the rigging folder step, sculpt keys for "model" and painter keys for "texture". |
| ProjectInfo.InfoStepFolders | pup/mayaGUI/projectinfo.py:31-46 | Scene, publish and data are the asset path, the folder step and a fixed suffix. |
| ProjectInfo.InfoRiggingFolders | pup/mayaGUI/projectinfo.py:50-57 | The rigging keys are data sub-folders, plus the guide library under the root. |
| ProjectInfo.InfoToolFolders | pup/mayaGUI/projectinfo.py:61-68 | The sculpt and painter folders are in the step's work folder, inside the asset path. |
| ProjectInfo.InfoPathsAreFolders | pup/mayaGUI/projectinfo.py:39-68 | Every path in the dictionary ends with "/". |
| ProjectInfo.GuidesUseRigging | pup/mayaGUI/projectinfo.py:24-37 | The guides dictionary is the rigging one except for the step it reports. |
| AssetFolders.Layout | pup/shelf/info.py:30-59 | anim and render are under model publish, and the six data folders are under rigging data. |
| AssetFolders.LayoutRelative | pup/shelf/info.py:35-59 | Every folder is the asset folder plus a fixed relative path, so it lies inside the asset folder and ends with "/". |
| AssetFolders.LayoutInjective | pup/shelf/info.py:35 | Different asset folders give different layouts. |
| ShelfInfo.GetPaths | pup/shelf/info.py:30-59 | The recorded projects path is the module constant whatever the argument. The stream names are fixed, and every folder is inside the given folder. |
| ShelfInfo.ProjectLoad | pup/shelf/info.py:20-23 | The asset name is the last path segment. The folder is the path with "/" added only when missing. |
| ShelfInfo.ProjectLoadFolder | pup/shelf/info.py:20-23 | A path ending with "/" reads no asset name, and loading the produced folder again changes nothing else. |
| ShelfInfo.ProjectLoadAsset | pup/shelf/info.py:20-23 | Loading `dir + name` gives that name and the folder `dir + name + "/"`. |
| ShelfInfo.SceneAssetName | pup/shelf/info.py:16 | The asset name has no "/" and no "_". |
| ShelfInfo.ProjectFromScene | pup/shelf/info.py:15-18 | Fails (empty separator) exactly when the name is empty. Otherwise the folder is the path up to the asset name's first occurrence, then the name and "/". |
| ShelfInfo.ProjectFromSceneFindsAsset | pup/shelf/info.py:15-18 | A scene saved under `root + asset + "/"` reads back that asset and folder when the root holds no copy of the name. |
| ShelfInfo.FileAssetName | pup/shelf/info.py:16 | A file `asset_rest` in a folder gives the asset name. |
| ShelfInfo.FirstOccurrenceAfterRoot | pup/shelf/info.py:17 | The asset name first occurs right after a root that holds no copy of it. |
| PipeInfoPlatform.New | pup/pipeline/pipeinfoplatform.py:15-17 | The constructor records the projects root and no folders. |
| PipeInfoPlatform.GetPaths | pup/pipeline/pipeinfoplatform.py:32-61 | Records the argument as the projects path. The stream names are fixed, and every folder is inside the argument. |
| PipeInfoPlatform.SameFoldersAsShelf | pup/pipeline/pipeinfoplatform.py:32-61 | The same folders as the shelf's layout of the same folder; only the recorded path differs. |
| PipeInfoPlatform.GetPathsOverrides | pup/pipeline/pipeinfoplatform.py:32-33 | A second call replaces the first call's folders. |
| TransformLib.HashBlockName | pup/library/transformLib.py:39-42 | A name whose "#" form one block gets the group number zero-padded to the block's width in its place. |
| TransformLib.HashScatteredName | pup/library/transformLib.py:39-42 | A name whose "#" are scattered is used unchanged. |
| TransformLib.GroupNamesDistinct | pup/library/transformLib.py:36-55 | The groups of one call get pairwise different names unless the "#" are scattered. |
| TransformLib.Chain | pup/library/transformLib.py:61-64 | Group k sits under group k+1, and earlier nodes keep their parents. |
| TransformLib.NullGrps | pup/library/transformLib.py:13-84 | As written: exactly `amount` groups, named in order. It fails for zero groups, where `grps[-1]` raises, and otherwise exactly when neither a node nor a reference node is given, where `match` is pointed at "None". |
| TransformLib.NullGrpsIntended | pup/library/transformLib.py:36-81 | Corrected: the same groups and hierarchy, failing only for zero groups. |
| TransformLib.NullGrpsAgree | pup/library/transformLib.py:66-69 | Where the as-written call succeeds it equals the corrected one. It succeeds exactly when the corrected one does and there is a match target. |
| TransformLib.NullGrpsWithoutTarget | pup/library/transformLib.py:53-55 | With no node, name or reference node, the as-written call fails, while the corrected one succeeds with a first group named "null_1_GRP". |
| TransformLib.NullGrpsKeepsOthers | pup/library/transformLib.py:61-83 | In the corrected call, every other node keeps its parent. |
| TransformLib.NullGrpsChain | pup/library/transformLib.py:61-64 | After the corrected call, group k sits under group k+1. |
| TransformLib.ChainUp | pup/library/transformLib.py:61-64 | Walking up from group j passes the later groups in order. |
| TransformLib.NullGrpsStack | pup/library/transformLib.py:61-81 | In the corrected call, above a grouped node come its groups, innermost first, and then the node's former parent. |
| TransformLib.TopParent | pup/library/transformLib.py:284-292 | The result is the node itself or some node's parent. |
| TransformLib.TopParentIsRoot | pup/library/transformLib.py:284-292 | On a hierarchy without cycles, it is the root above the node, which has no parent. |

## Left out

- Floating point: positions, UVs and barycentric weights are reals, so rounding in numpy and Maya is not modelled. `int()` of a float is truncation of a real.
- Normals, edge normals, edge lengths, triangle centres and the bounding box (apiMesh.py:146-181 and 438-519) are floating-point geometry over the modelled triangle data. Their caches are not in the cache record.
- `edge_vert_list` and `edge_connectivity_matrix` (apiMesh.py:541-581) are not modelled. The edge matrix is declared numEdges by numEdges but indexed by vertex ids, so its meaning is unclear.
- Selection helpers, `ids_from_selection`, `set_points`, `dag` and `mesh_fn` (apiMesh.py:85-130, 648-730) are Maya editor calls. The polygon and edge iterators are not modelled; the vertex iterator's position is.
- qhull's Delaunay triangulation, `find_simplex` and Maya's `MMeshIntersector` are parameters. The inverse lemma assumes the transform is exact.
- Errors carry no object state. An error is a `Failure` without the mesh object, so what the source leaves in its caches after raising is not modelled.
- MeshUV.GetVertUVs: after `getUV` raises, the source keeps the `[]` it stored before the loop (apiMesh.py:195), and later calls return it. The model treats the object as unusable after that error.
- MeshUV.UvTriangulation: qhull's failures other than for fewer than three points (all UVs collinear, say) are left to the `delaunay` parameter. It may return `None` for any input.
- MeshHost.FaceTriangle: `MItMeshPolygon.getTriangle(face, t)` (apiMesh.py:364-366) is taken as triangle t of that face in the `getTriangles` list, that is entry `sum(counts[:face]) + t`. This is an assumption about Maya, and `point_on_mesh`'s UVs rest on it.
- MeshTopology.GetNeighbourVerts: an id that is not a vertex makes `setIndex` raise (apiMesh.py:534). The model requires every id to be a vertex instead of modelling that error.
- MeshUV.PointOnMesh: `getUVs` returns every UV of a vertex and the source takes the first. The model has one shared UV per vertex. The intersector is required to report a triangle of the mesh for every point, so a mesh without faces is outside the model.
- MeshTopology.MarchVertArray: when the next ring comes out empty the model stops with `Stuck`. The source loops forever there. Seeds that are not vertices, for which `setIndex` raises, are excluded by the requires rather than modelled as an error.
- TransformLib.TopParent: on a cycle of parent links, which a Maya hierarchy cannot hold, the model stops while the source would loop. Its own contract says only that the result is the node or a parent. The root it finds on an acyclic hierarchy is stated by TopParentIsRoot.
- TransformLib.NullGrps: only whether `match` has a target is modelled, not the transforms it and `freeze` change. Nor are Maya's renaming of a clashing group name, a node actually named "None", or the PyNode-versus-string return type (transformLib.py:18). A node missing from the parent map counts as a top-level node.
- ShelfInfo.ProjectFromScene: the open scene's path is an argument.
- CoreLib.Follows: `getAttr` values other than a string or nothing are not modelled.
- CoreLib.Connects: a connect attribute holding a non-string value, for which `.split` raises (coreLib.py:166), is not modelled. Values are strings or nothing.
- CoreLib.SaveToPath: the created folder is reported, not made. `os.makedirs` failing on an existing folder is not modelled.
- UtilsLib.VersionUpPath: the error print and the `None` result become a `Failure`, as do the prints of `import_latest` and `version_by_integer`.
- File-system, plugin and history helpers of `utilsLib.py` (`saveJson`, `loadJson`, `check_create_dir`, `print_*`, `load_plugin`, `get_history`, `ad_from_SEL`) are side effects with no logic of their own.
- `flatlist` and `aslist` are not modelled, because they refer to names the module never defines or imports.
- The `print` in the constructors of `scene_info` and `PipeInfoPlatform` is not modelled.
- Strings.IsAlnum: `isalnum` and `\d` are taken as ASCII, as for a Python 2 byte string.

## Findings

| source | as written | input that shows it | evidently intended | confidence | as-written member | corrected member |
|---|---|---|---|---|---|---|
| pup/library/apiMesh.py:332 | `int(max_[1]) == int(max_[1])` compares the v bound with itself, so UVs spanning v tiles pass | vertex UVs (0.5, 0.5) and (0.5, 1.5) report tile (0, 0) | `int(min_[1]) == int(max_[1])`, reporting a tile only when all UVs share it | high; not executed | MeshUV.UdimAsWritten, MeshUV.UdimAsWrittenMissesV | MeshUV.Udim, MeshUV.UdimIffSharedTile |
| pup/library/apiMesh.py:595-605 | the loop walks `_vert_it` from wherever it stands without `reset()`, and `get_vert_uvs` leaves it at the end | `get_vert_uvs()` then `vert_connectivity_matrix()` on any mesh with an edge: the matrix has no entries | reset the iterator first, as `get_vert_uvs` does (apiMesh.py:193), giving the full adjacency | medium; not executed | MeshTopology.VertConnectivityMatrix, MeshTopology.MatrixAfterUVsIsEmpty, MeshTopology.MatrixAfterClosestAtUV | MeshTopology.VertConnectivityMatrixReset |
| pup/library/transformLib.py:66-69 | without `referenceNode` the outermost group is matched to `str(node)`, which is "None" when no node is given | `null_grps()` with no arguments: the `null_1_GRP` group is created, then `match` queries the missing node "None" and raises | match only when there is a node or a reference node, so that the empty `null_#_GRP` groups of lines 53-55 can be made | medium; not executed | TransformLib.NullGrps, TransformLib.NullGrpsWithoutTarget | TransformLib.NullGrpsIntended, TransformLib.NullGrpsAgree |

=== FILE: api_mesh.dfy ===
/** `apiMesh.Mesh`: the host mesh plus the lazily filled caches of the query
    class. Every query is a function from the mesh state to the next state
    and its answer; `Coherent` is the invariant all of them keep: a filled
    cache holds what the host data says it should. */
module ApiMesh {
  import opened Wrappers
  import opened Geometry
  import opened MeshHost

  /** What `scipy.spatial.Delaunay` returns, as far as the class reads it:
      the corner vertex ids of each simplex and its barycentric transform. */
  datatype Triangulation = Triangulation(simplices: seq<Tri>, transforms: seq<Affine>)

  predicate ValidTriangulation(tri: Triangulation, n: nat) {
    && |tri.transforms| == |tri.simplices|
    && forall s :: 0 <= s < |tri.simplices| ==>
         tri.simplices[s].v0 < n && tri.simplices[s].v1 < n && tri.simplices[s].v2 < n
  }

  /** What the class relies on of `scipy.spatial.Delaunay`, given as a
      function that is `None` where qhull raises: it raises for fewer than
      three points, and a triangulation it returns indexes only the given
      points. */
  ghost predicate ValidDelaunay(delaunay: seq<UV> -> Option<Triangulation>) {
    forall uvs ::
      && (|uvs| < 3 ==> delaunay(uvs).None?)
      && (delaunay(uvs).Some? ==> ValidTriangulation(delaunay(uvs).value, |uvs|))
  }

  /** The cached fields of the class that the model covers; `None` is the
      Python `None` the constructor and `clear_cache` store. */
  datatype Cache = Cache(
    tris: Option<seq<nat>>,
    triangleVerts: Option<seq<Tri>>,
    numTriangles: Option<nat>,
    triEdgeVectors: Option<seq<Vec3>>,
    triPoints: Option<seq<Vec3>>,
    vertConMatrix: Option<multiset<(nat, nat)>>,
    vertUVs: Option<seq<UV>>,
    uvTriangulation: Option<Triangulation>,
    points: Option<seq<Vec3>>)

  /** The mesh object: host data, caches, and the position of the shared
      vertex iterator `_vert_it` (the number of vertices when it is done). */
  datatype Mesh = Mesh(host: Host, cache: Cache, vertIt: nat)

  datatype MeshError =
    | PointsNotFetched    // RuntimeError("Please run .points() first")
    | UnknownUVSet        // Maya cannot read a UV set the mesh does not have
    | EmptyUVs            // numpy's amin/amax of an empty array
    | QhullFailed         // scipy's Delaunay raises QhullError

  const EmptyCache := Cache(None, None, None, None, None, None, None, None, None)

  predicate Coherent(m: Mesh) {
    var h := m.host;
    var c := m.cache;
    && h.Valid()
    && m.vertIt <= h.NumVerts()
    && (c.tris.Some? ==> c.tris.value == h.triangleVertices)
    && (c.numTriangles.Some? ==> c.numTriangles.value == Sum(h.faceTriangleCounts))
    && (c.triangleVerts.Some? ==> c.triangleVerts.value == Reshape(h.triangleVertices))
    && (c.points.Some? ==> c.points.value == h.objectPoints || c.points.value == h.worldPoints)
    && (c.triPoints.Some? ==>
          c.triPoints.value == Gather(h.objectPoints, h.triangleVertices)
          || c.triPoints.value == Gather(h.worldPoints, h.triangleVertices))
    && (c.triEdgeVectors.Some? ==>
          c.triPoints.Some? && c.triEdgeVectors.value == EdgeVectors(c.triPoints.value))
    && (c.vertUVs.Some? ==> c.vertUVs.value in h.uvSets.Values || (c.vertUVs.value == [] && h.NumVerts() == 0))
    && (c.uvTriangulation.Some? ==> ValidTriangulation(c.uvTriangulation.value, h.NumVerts()))
    && (c.vertConMatrix.Some? ==>
          exists lo | 0 <= lo <= h.NumVerts() :: c.vertConMatrix.value == RowsPairs(h, lo, h.NumVerts()))
  }

  /** `Mesh(obj)`: every cache empty, the iterators fresh. */
  function Init(h: Host): (m: Mesh)
    requires h.Valid()
    ensures Coherent(m)
    ensures m.host == h && m.cache == EmptyCache && m.vertIt == 0
  {
    Mesh(h, EmptyCache, 0)
  }

  /** `clear_cache()`: forgets the triangle, connectivity, point and normal
      data, but keeps the per-vertex UV list and the UV triangulation. */
  function ClearCache(m: Mesh): (r: Mesh)
    requires Coherent(m)
    ensures Coherent(r)
    ensures r.host == m.host && r.vertIt == m.vertIt
    ensures r.cache.vertUVs == m.cache.vertUVs
    ensures r.cache.uvTriangulation == m.cache.uvTriangulation
    ensures r.cache.(vertUVs := None, uvTriangulation := None) == EmptyCache
  {
    m.(cache := EmptyCache.(vertUVs := m.cache.vertUVs, uvTriangulation := m.cache.uvTriangulation))
  }

  /** Clearing twice is clearing once. */
  lemma ClearCacheIdempotent(m: Mesh)
    requires Coherent(m)
    ensures ClearCache(ClearCache(m)) == ClearCache(m)
  {
  }

  // ---------------------------------------------------------------- triangles

  /** `triangles()`: asks the host for the triangulation and caches the id
      list and the triangle count. */
  function Triangles(m: Mesh): (r: (Mesh, (seq<nat>, seq<nat>)))
    requires Coherent(m)
    ensures Coherent(r.0)
    ensures r.1 == (m.host.faceTriangleCounts, m.host.triangleVertices)
    ensures r.0.cache.numTriangles.Some? && |r.1.1| == 3 * r.0.cache.numTriangles.value
    ensures r.0 == m.(cache := m.cache.(tris := Some(m.host.triangleVertices),
                                        numTriangles := Some(Sum(m.host.faceTriangleCounts))))
  {
    var h := m.host;
    (m.(cache := m.cache.(tris := Some(h.triangleVertices), numTriangles := Some(Sum(h.faceTriangleCounts)))),
     (h.faceTriangleCounts, h.triangleVertices))
  }

  /** `num_triangles`: the cached count, recomputed when it is missing or
      zero (`if not self._num_triangles`). */
  function NumTriangles(m: Mesh): (r: (Mesh, nat))
    requires Coherent(m)
    ensures Coherent(r.0)
    ensures 3 * r.1 == |m.host.triangleVertices|
    ensures r.0.cache.numTriangles == Some(r.1)
    ensures m.cache.numTriangles.Some? && m.cache.numTriangles.value != 0 ==> r.0 == m
    ensures r.0.(cache := m.cache) == m
    ensures r.0.cache.(tris := m.cache.tris, numTriangles := m.cache.numTriangles) == m.cache
  {
    if m.cache.numTriangles.None? || m.cache.numTriangles == Some(0) then
      var (m1, _) := Triangles(m);
      (m1, m1.cache.numTriangles.value)
    else (m, m.cache.numTriangles.value)
  }

  /** `triangle_verts()`: the id list as rows of three, computed once. */
  function TriangleVerts(m: Mesh): (r: (Mesh, seq<Tri>))
    requires Coherent(m)
    ensures Coherent(r.0)
    ensures |r.1| == Sum(m.host.faceTriangleCounts)
    ensures forall t, i :: 0 <= t < |r.1| && 0 <= i < 3 ==> r.1[t].Corner(i) == m.host.triangleVertices[3 * t + i]
    ensures r.0.cache.triangleVerts == Some(r.1)
    ensures m.cache.triangleVerts.Some? ==> r.0 == m
    ensures r.0.(cache := m.cache) == m
    ensures r.0.cache.(tris := m.cache.tris, numTriangles := m.cache.numTriangles,
                       triangleVerts := m.cache.triangleVerts) == m.cache
  {
    if m.cache.triangleVerts.Some? then (m, m.cache.triangleVerts.value)
    else
      var m1 := if m.cache.tris.None? then Triangles(m).0 else m;
      var rows := Reshape(m1.cache.tris.value);
      (m1.(cache := m1.cache.(triangleVerts := Some(rows))), rows)
  }

  /** The rows of `triangle_verts` read back in order are the host's id list. */
  lemma TriangleVertsFlatten(m: Mesh)
    requires Coherent(m)
    ensures Flatten(TriangleVerts(m).1) == m.host.triangleVertices
  {
    FlattenReshape(m.host.triangleVertices);
  }

  /** `points(space)`: reads the positions and caches them, whichever space
      was asked for. */
  function Points(m: Mesh, space: Space): (r: (Mesh, seq<Vec3>))
    requires Coherent(m)
    ensures Coherent(r.0)
    ensures |r.1| == m.host.NumVerts()
    ensures r.1 == if space == ObjectSpace then m.host.objectPoints else m.host.worldPoints
    ensures r.0.cache.points == Some(r.1)
    ensures r.0.(cache := m.cache) == m && r.0.cache.(points := m.cache.points) == m.cache
  {
    var p := m.host.Points(space);
    (m.(cache := m.cache.(points := Some(p))), p)
  }

  /** `triangle_points()`: the position of every triangle corner, taken
      from the cached points; an error when no points were fetched. */
  function TrianglePoints(m: Mesh): (r: Result<(Mesh, seq<Vec3>), MeshError>)
    requires Coherent(m)
    ensures r.Failure? <==> m.cache.triPoints.None? && m.cache.points.None?
    ensures r.Failure? ==> r.error == PointsNotFetched
    ensures m.cache.triPoints.Some? ==> r == Success((m, m.cache.triPoints.value))
    ensures r.Success? ==> Coherent(r.value.0) && r.value.0.cache.triPoints == Some(r.value.1)
    ensures r.Success? ==> |r.value.1| == |m.host.triangleVertices|
    ensures r.Success? && m.cache.triPoints.None? ==>
      forall k :: 0 <= k < |r.value.1| ==> r.value.1[k] == m.cache.points.value[m.host.triangleVertices[k]]
    ensures r.Success? ==> r.value.0.(cache := m.cache) == m
    ensures r.Success? ==>
      r.value.0.cache.(tris := m.cache.tris, numTriangles := m.cache.numTriangles,
                       triPoints := m.cache.triPoints) == m.cache
  {
    if m.cache.triPoints.Some? then Success((m, m.cache.triPoints.value))
    else if m.cache.points.None? then Failure(PointsNotFetched)
    else
      var m1 := if m.cache.tris.None? then Triangles(m).0 else m;
      var rows := Gather(m1.cache.points.value, m1.cache.tris.value);
      Success((m1.(cache := m1.cache.(triPoints := Some(rows))), rows))
  }

  /** Corner `i` of triangle `t` in `triangle_points` is the position of
      the vertex `triangle_verts` lists there. */
  lemma TrianglePointsCorners(m: Mesh, space: Space, t: nat, i: nat)
    requires Coherent(m) && m.cache.triPoints.None?
    requires t < Sum(m.host.faceTriangleCounts) && i < 3
    ensures var (m1, p) := Points(m, space);
      var (_, rows) := TriangleVerts(m1);
      TrianglePoints(m1).Success?
      && TrianglePoints(m1).value.1[3 * t + i] == p[rows[t].Corner(i)]
  {
  }

  /** Once computed, triangle points are kept: a later `points()` in another
      space does not change what `triangle_points()` returns. */
  lemma TrianglePointsKept(m: Mesh, first: Space, later: Space)
    requires Coherent(m) && m.cache.triPoints.None?
    ensures var t := TrianglePoints(Points(m, first).0);
      && t.Success?
      && t.value.1 == Gather(m.host.Points(first), m.host.triangleVertices)
      && var m2 := Points(t.value.0, later).0;
         TrianglePoints(m2) == Success((m2, t.value.1))
  {
  }

  /** With the caches cleared, triangle points need a fresh `points()`. */
  lemma ClearedNeedsPoints(m: Mesh)
    requires Coherent(m)
    ensures TrianglePoints(ClearCache(m)) == Failure(PointsNotFetched)
  {
  }

  /** `triangle_edge_vectors()`: recomputed from the triangle points on every
      call; it fails like `triangle_points` when those are missing. */
  function TriangleEdgeVectors(m: Mesh): (r: Result<(Mesh, seq<Vec3>), MeshError>)
    requires Coherent(m)
    ensures r.Failure? <==> m.cache.triPoints.None? && m.cache.points.None?
    ensures r.Success? ==>
      var (m1, e) := r.value;
      Coherent(m1) && m1.cache.triPoints.Some? && m1.cache.triEdgeVectors == Some(e)
      && |e| == |m.host.triangleVertices|
      && e == EdgeVectors(m1.cache.triPoints.value)
    ensures r.Success? ==> r.value.0.(cache := m.cache) == m
    ensures r.Success? ==>
      r.value.0.cache.(tris := m.cache.tris, numTriangles := m.cache.numTriangles,
                       triPoints := m.cache.triPoints, triEdgeVectors := m.cache.triEdgeVectors) == m.cache
    ensures r.Success? && m.cache.triPoints.Some? ==>
      r.value.0 == m.(cache := m.cache.(triEdgeVectors := Some(r.value.1)))
  {
    var m1 :- if m.cache.triPoints.None? then TrianglePoints(m) else Success((m, m.cache.triPoints.value));
    var p := m1.0.cache.triPoints.value;
    var e := EdgeVectors(p);
    Success((m1.0.(cache := m1.0.cache.(triEdgeVectors := Some(e))), e))
  }
}

=== FILE: asset_folders.dfy ===
/** The folder layout of one asset, as both the shelf's `scene_info` and the
    pipeline's `PipeInfoPlatform` lay it out in `get_paths`: a fixed tree of
    step folders under the asset folder. */
module AssetFolders {
  import opened Strings

  /** `streams_names`: the cache streams a model publishes. */
  const StreamsNames: seq<String> := ["proxy", "anim", "render", "blendshape"]

  /** The attributes `get_paths` sets. */
  datatype Folders = Folders(
    allProjectsPath: String,
    streamsNames: seq<String>,
    modelScene: String, modelPublish: String, modelAnim: String, modelRender: String,
    riggingScene: String, riggingData: String, riggingPublish: String,
    skinWeights: String, controlShapes: String, shaders: String,
    blendShapes: String, extraGeo: String, code: String,
    lookDevScene: String, lightingScene: String)

  /** Every folder of the layout, in the order `get_paths` sets them. */
  function FolderList(f: Folders): seq<String> {
    [f.modelScene, f.modelPublish, f.modelAnim, f.modelRender,
     f.riggingScene, f.riggingData, f.riggingPublish,
     f.skinWeights, f.controlShapes, f.shaders, f.blendShapes, f.extraGeo, f.code,
     f.lookDevScene, f.lightingScene]
  }

  const ModelPublish: String := "model/publish/"
  const RiggingData: String := "rigging/work/data/"

  /** Where each folder of `FolderList` sits relative to the asset folder. */
  const RelativeFolders: seq<String> := [
    "model/work/scene/", ModelPublish, ModelPublish + "anim/", ModelPublish + "render/",
    "rigging/work/scene/", RiggingData, "rigging/publish/",
    RiggingData + "skinweights/", RiggingData + "controlShapes/",
    RiggingData + "shaders/", RiggingData + "blendShapes/",
    RiggingData + "extraGeo/", RiggingData + "code/",
    "lookDev/work/scene/", "lighting/work/scene/"]

  /** `get_paths(folder_project)`, with the recorded projects path given:
      the publish sub-folders are built from the model publish folder and
      the data sub-folders from the rigging data folder. */
  function Layout(allProjectsPath: String, asset: String): (f: Folders)
    ensures f.allProjectsPath == allProjectsPath && f.streamsNames == StreamsNames
    ensures f.modelAnim == f.modelPublish + "anim/" && f.modelRender == f.modelPublish + "render/"
    ensures f.skinWeights == f.riggingData + "skinweights/"
    ensures f.controlShapes == f.riggingData + "controlShapes/"
    ensures f.shaders == f.riggingData + "shaders/"
    ensures f.blendShapes == f.riggingData + "blendShapes/"
    ensures f.extraGeo == f.riggingData + "extraGeo/"
    ensures f.code == f.riggingData + "code/"
  {
    var modelPublish := asset + ModelPublish;
    var riggingData := asset + RiggingData;
    Folders(
      allProjectsPath, StreamsNames,
      asset + "model/work/scene/", modelPublish, modelPublish + "anim/", modelPublish + "render/",
      asset + "rigging/work/scene/", riggingData, asset + "rigging/publish/",
      riggingData + "skinweights/", riggingData + "controlShapes/", riggingData + "shaders/",
      riggingData + "blendShapes/", riggingData + "extraGeo/", riggingData + "code/",
      asset + "lookDev/work/scene/", asset + "lighting/work/scene/")
  }

  /** Every folder is the asset folder followed by its fixed relative path,
      so each lies inside the asset folder and names a folder. */
  lemma LayoutRelative(allProjectsPath: String, asset: String)
    ensures var l := FolderList(Layout(allProjectsPath, asset));
      && |l| == |RelativeFolders|
      && forall i :: 0 <= i < |l| ==>
           l[i] == asset + RelativeFolders[i] && StartsWith(l[i], asset) && EndsWith(l[i], "/")
  {
    var l := FolderList(Layout(allProjectsPath, asset));
    forall i | 0 <= i < |l|
      ensures l[i] == asset + RelativeFolders[i] && StartsWith(l[i], asset) && EndsWith(l[i], "/")
    {
      LayoutFolder(allProjectsPath, asset, i);
      RelativeIsFolder(i);
      InsideFolder(asset, RelativeFolders[i]);
    }
  }

  lemma LayoutFolder(allProjectsPath: String, asset: String, i: nat)
    requires i < |RelativeFolders|
    ensures FolderList(Layout(allProjectsPath, asset))[i] == asset + RelativeFolders[i]
  {
    var rel := RelativeFolders[i];
    if 2 <= i <= 3 {
      ConcatAssoc(asset, ModelPublish, rel[|ModelPublish|..]);
    } else if 7 <= i <= 12 {
      ConcatAssoc(asset, RiggingData, rel[|RiggingData|..]);
    }
  }

  lemma RelativeIsFolder(i: nat)
    requires i < |RelativeFolders|
    ensures EndsWith(RelativeFolders[i], "/")
  {
    var rel := RelativeFolders[i];
    assert rel[|rel| - 1] == '/';
  }

  lemma InsideFolder(asset: String, rel: String)
    requires EndsWith(rel, "/")
    ensures StartsWith(asset + rel, asset) && EndsWith(asset + rel, "/")
  {
    assert (asset + rel)[..|asset|] == asset;
    assert (asset + rel)[|asset + rel| - 1] == rel[|rel| - 1];
  }

  lemma ConcatAssoc(a: String, b: String, c: String)
    ensures a + b + c == a + (b + c)
  {
  }

  /** Different asset folders give different layouts: the model scene folder
      determines the asset folder. */
  lemma LayoutInjective(allProjectsPath: String, a: String, b: String)
    requires Layout(allProjectsPath, a).modelScene == Layout(allProjectsPath, b).modelScene
    ensures a == b
  {
    var s := "model/work/scene/";
    assert |a| == |b|;
    assert a == (a + s)[..|a|] && b == (b + s)[..|b|];
  }
}

=== FILE: core_lib.dfy ===
/** The rig-building helpers of the core library that read data off a part
    group: the follow and connect attributes, parsed from their string
    values, and the choice of a versioned folder to save into. Maya's
    attribute listing and the file system are inputs. */
module CoreLib {
  import opened Wrappers
  import opened Strings
  import opened UtilsLib

  /** A channel-box attribute of the node: its name and its string value,
      `None` when the attribute holds no string. */
  datatype Attr = Attr(name: String, value: Option<String>)

  datatype CoreError =
    | UnsetFollowValue   // `None.split(",")` raises AttributeError
    | BadVersionFolder   // `int(...)` of a folder name that is not `v` and a number

  // ---------------------------------------------------------------- follow attributes

  predicate IsFollow(a: Attr) {
    StartsWith(a.name, "follow")
  }

  /** The dictionary key of a follow attribute: the text after its last "_"
      (`followParent_IK` gives `IK`). */
  function FollowKey(a: Attr): (k: String)
    ensures '_' !in k && EndsWith(a.name, k)
    ensures k == a.name || (|k| < |a.name| && a.name[|a.name| - |k| - 1] == '_')
  {
    AfterLast(a.name, '_')
  }

  /** `name.replace(" ", "")`: every space dropped, the other characters
      kept in order. */
  function NoSpaces(s: String): (r: String)
    ensures ' ' !in r
    ensures Subsequence(r, s) && multiset(r) == multiset(s)[' ' := 0]
  {
    ReplaceDeletes(s, ' ');
    Replace(s, " ", "")
  }

  /** One comma-separated item `name=constraint`: the UI name is the text
      before the first "=" without spaces, the constraint group the text
      after the last "=". */
  function FollowPair(item: String): (r: (String, String))
    ensures exists j :: 0 <= j <= |item| && '=' !in item[..j] && (j == |item| || item[j] == '=')
                        && r.0 == NoSpaces(item[..j])
    ensures '=' !in r.1 && EndsWith(item, r.1)
    ensures r.1 == item || (|r.1| < |item| && item[|item| - |r.1| - 1] == '=')
  {
    var b := BeforeFirst(item, '=');
    FirstPrefix(item, b);
    (NoSpaces(b), AfterLast(item, '='))
  }

  lemma FirstPrefix(item: String, b: String)
    requires b == BeforeFirst(item, '=')
    ensures exists j :: 0 <= j <= |item| && '=' !in item[..j] && (j == |item| || item[j] == '=')
                        && NoSpaces(b) == NoSpaces(item[..j])
  {
    assert b == item[..|b|];
  }

  /** A list as a dictionary keyed by position counted from one, as the
      source's `count = count + 1` numbering builds it. */
  function Numbered<T>(xs: seq<T>): (r: map<nat, T>)
    ensures forall k :: k in r <==> 1 <= k <= |xs|
    ensures forall i :: 0 <= i < |xs| ==> r[i + 1] == xs[i]
  {
    if |xs| == 0 then map[]
    else Numbered(xs[..|xs| - 1])[|xs| := xs[|xs| - 1]]
  }

  function FollowPairs(items: seq<String>): (r: seq<(String, String)>)
    ensures |r| == |items|
    ensures forall i :: 0 <= i < |items| ==> r[i] == FollowPair(items[i])
  {
    if |items| == 0 then [] else [FollowPair(items[0])] + FollowPairs(items[1..])
  }

  /** The inner dictionary of one follow attribute: the items of its value,
      numbered from one. */
  function FollowEntries(value: String): map<nat, (String, String)>
  {
    Numbered(FollowPairs(Split(value, ',')))
  }

  /** `attrs[i]` is a follow attribute no later follow attribute overrides. */
  predicate LastFollow(attrs: seq<Attr>, i: int) {
    && 0 <= i < |attrs| && IsFollow(attrs[i])
    && forall j :: i < j < |attrs| && IsFollow(attrs[j]) ==> FollowKey(attrs[j]) != FollowKey(attrs[i])
  }

  predicate HasUnsetFollow(attrs: seq<Attr>) {
    exists i :: 0 <= i < |attrs| && IsFollow(attrs[i]) && attrs[i].value.None?
  }

  /** The key a follow attribute files its dictionary under; `None` for
      the other attributes. */
  function KeyOf(a: Attr): Option<String> {
    if IsFollow(a) then Some(FollowKey(a)) else None
  }

  function FollowKeys(attrs: seq<Attr>): (r: seq<Option<String>>)
    ensures |r| == |attrs|
    ensures forall i :: 0 <= i < |attrs| ==> r[i] == KeyOf(attrs[i])
  {
    if |attrs| == 0 then [] else FollowKeys(attrs[..|attrs| - 1]) + [KeyOf(attrs[|attrs| - 1])]
  }

  /** `get_partGRP_follows(node)`: one inner dictionary per follow key, the
      later attribute winning when two share a key; it fails as soon as a
      follow attribute holds no string. */
  function Follows(attrs: seq<Attr>): (r: Result<map<String, map<nat, (String, String)>>, CoreError>)
    ensures r.Failure? ==> r.error == UnsetFollowValue
    decreases |attrs|
  {
    if |attrs| == 0 then Success(map[])
    else
      var a := attrs[|attrs| - 1];
      var d :- Follows(attrs[..|attrs| - 1]);
      if !IsFollow(a) then Success(d)
      else if a.value.None? then Failure(UnsetFollowValue)
      else Success(d[FollowKey(a) := FollowEntries(a.value.value)])
  }

  /** The listing fails exactly when some follow attribute holds no string. */
  lemma {:induction false} FollowsFails(attrs: seq<Attr>)
    ensures Follows(attrs).Failure? <==> HasUnsetFollow(attrs)
    decreases |attrs|
  {
    if |attrs| > 0 {
      var init := attrs[..|attrs| - 1];
      FollowsFails(init);
      if HasUnsetFollow(init) {
        var i :| 0 <= i < |init| && IsFollow(init[i]) && init[i].value.None?;
        assert attrs[i] == init[i];
      }
      if HasUnsetFollow(attrs) {
        var i :| 0 <= i < |attrs| && IsFollow(attrs[i]) && attrs[i].value.None?;
        if i < |init| { assert init[i] == attrs[i]; }
      }
    }
  }

  /** A successful listing has one key per follow key in the attributes. */
  lemma {:induction false} FollowsKeys(attrs: seq<Attr>, key: String)
    requires Follows(attrs).Success?
    ensures key in Follows(attrs).value <==> Some(key) in FollowKeys(attrs)
    decreases |attrs|
  {
    if |attrs| > 0 {
      var init := attrs[..|attrs| - 1];
      assert Follows(init).Success?;
      FollowsKeys(init, key);
    }
  }

  /** The dictionary of a key is read from the last attribute with that key. */
  lemma {:induction false} FollowsLastWins(attrs: seq<Attr>, i: int)
    requires Follows(attrs).Success? && LastFollow(attrs, i)
    ensures attrs[i].value.Some?
    ensures FollowKey(attrs[i]) in Follows(attrs).value
    ensures Follows(attrs).value[FollowKey(attrs[i])] == FollowEntries(attrs[i].value.value)
    decreases |attrs|
  {
    var init := attrs[..|attrs| - 1];
    FollowsStep(attrs);
    if i < |init| {
      LastFollowInit(attrs, i);
      FollowsLastWins(init, i);
      var a := attrs[|attrs| - 1];
      if IsFollow(a) {
        UpdateOther(Follows(init).value, FollowKey(a), FollowEntries(a.value.value), FollowKey(attrs[i]));
      }
    }
  }

  lemma UpdateOther<V>(m: map<String, V>, k: String, v: V, key: String)
    requires key in m && k != key
    ensures key in m[k := v] && m[k := v][key] == m[key]
  {
  }

  /** What the last attribute adds to the listing of the ones before it. */
  lemma FollowsStep(attrs: seq<Attr>)
    requires |attrs| > 0 && Follows(attrs).Success?
    ensures var init, a := attrs[..|attrs| - 1], attrs[|attrs| - 1];
      && Follows(init).Success?
      && (!IsFollow(a) ==> Follows(attrs).value == Follows(init).value)
      && (IsFollow(a) ==>
            && a.value.Some?
            && Follows(attrs).value == Follows(init).value[FollowKey(a) := FollowEntries(a.value.value)])
  {
  }

  lemma LastFollowInit(attrs: seq<Attr>, i: int)
    requires LastFollow(attrs, i) && i < |attrs| - 1
    ensures var init, a := attrs[..|attrs| - 1], attrs[|attrs| - 1];
      && LastFollow(init, i) && init[i] == attrs[i]
      && (IsFollow(a) ==> FollowKey(a) != FollowKey(attrs[i]))
  {
    var init := attrs[..|attrs| - 1];
    forall j | i < j < |init| && IsFollow(init[j]) ensures FollowKey(init[j]) != FollowKey(init[i]) {
      assert init[j] == attrs[j];
    }
  }

  /** The items of a follow value, each a UI name and a constraint group
      joined by "=". */
  function EncodeItems(pairs: seq<(String, String)>): (items: seq<String>)
    ensures |items| == |pairs|
    ensures forall k :: 0 <= k < |pairs| ==> items[k] == pairs[k].0 + "=" + pairs[k].1
  {
    if |pairs| == 0 then [] else [pairs[0].0 + "=" + pairs[0].1] + EncodeItems(pairs[1..])
  }

  /** One item decodes to its name without spaces and its constraint. */
  lemma FollowPairDecode(name: String, constraint: String)
    requires '=' !in name && '=' !in constraint
    ensures FollowPair(name + "=" + constraint) == (NoSpaces(name), constraint)
  {
    var item := name + "=" + constraint;
    assert item[|name|] == '=';
    assert StartsWith(item, name);
    BeforeFirstUnique(item, '=', name);
    assert item[|item| - |constraint| - 1] == '=';
    assert EndsWith(item, constraint);
    AfterLastUnique(item, '=', constraint);
  }

  /** A follow value written as comma-separated `name=constraint` items
      reads back as the numbered pairs, names without their spaces. */
  lemma FollowEntriesDecode(pairs: seq<(String, String)>)
    requires |pairs| >= 1
    requires forall k :: 0 <= k < |pairs| ==>
      ',' !in pairs[k].0 && '=' !in pairs[k].0 && ',' !in pairs[k].1 && '=' !in pairs[k].1
    ensures var r := FollowEntries(Join(EncodeItems(pairs), ","));
      (forall k :: k in r <==> 1 <= k <= |pairs|)
      && forall k :: 0 <= k < |pairs| ==> r[k + 1] == (NoSpaces(pairs[k].0), pairs[k].1)
  {
    DecodedPairs(pairs);
  }

  lemma DecodedPairs(pairs: seq<(String, String)>)
    requires |pairs| >= 1
    requires forall k :: 0 <= k < |pairs| ==>
      ',' !in pairs[k].0 && '=' !in pairs[k].0 && ',' !in pairs[k].1 && '=' !in pairs[k].1
    ensures var ps := FollowPairs(Split(Join(EncodeItems(pairs), ","), ','));
      |ps| == |pairs| && forall k :: 0 <= k < |pairs| ==> ps[k] == (NoSpaces(pairs[k].0), pairs[k].1)
  {
    var items := EncodeItems(pairs);
    forall k | 0 <= k < |items| ensures ',' !in items[k] {
      assert items[k] == pairs[k].0 + "=" + pairs[k].1;
    }
    SplitJoin(items, ',');
    forall k | 0 <= k < |pairs| ensures FollowPair(items[k]) == (NoSpaces(pairs[k].0), pairs[k].1) {
      FollowPairDecode(pairs[k].0, pairs[k].1);
    }
  }

  // ---------------------------------------------------------------- connect attributes

  /** A connect attribute with a non-empty value (`if input_list:`). */
  predicate IsConnect(a: Attr) {
    StartsWith(a.name, "connect") && a.value.Some? && a.value.value != ""
  }

  /** `value.split("=")[0]` and `value.split("=")[-1]`: the output and the
      input attribute of a connection. */
  function ConnectPair(value: String): (r: (String, String))
    ensures '=' !in r.0 && '=' !in r.1
    ensures StartsWith(value, r.0) && EndsWith(value, r.1)
    ensures r.0 == value || (|r.0| < |value| && value[|r.0|] == '=')
    ensures r.1 == value || (|r.1| < |value| && value[|value| - |r.1| - 1] == '=')
  {
    (BeforeFirst(value, '='), AfterLast(value, '='))
  }

  /** `attrs[i]` is a connect attribute whose output no later connect
      attribute overrides. */
  predicate LastConnect(attrs: seq<Attr>, i: int) {
    && 0 <= i < |attrs| && IsConnect(attrs[i])
    && forall j :: i < j < |attrs| && IsConnect(attrs[j]) ==>
         ConnectPair(attrs[j].value.value).0 != ConnectPair(attrs[i].value.value).0
  }

  /** The output a connect attribute names; `None` for the other
      attributes and for an empty value. */
  function OutOf(a: Attr): Option<String> {
    if IsConnect(a) then Some(ConnectPair(a.value.value).0) else None
  }

  function ConnectOuts(attrs: seq<Attr>): (r: seq<Option<String>>)
    ensures |r| == |attrs|
    ensures forall i :: 0 <= i < |attrs| ==> r[i] == OutOf(attrs[i])
  {
    if |attrs| == 0 then [] else ConnectOuts(attrs[..|attrs| - 1]) + [OutOf(attrs[|attrs| - 1])]
  }

  /** `get_partGRP_connects(node)`: output attribute to input attribute,
      from every connect attribute that holds text; later ones win. */
  function Connects(attrs: seq<Attr>): (r: map<String, String>)
    ensures forall out :: out in r ==> '=' !in out && '=' !in r[out]
    decreases |attrs|
  {
    if |attrs| == 0 then map[]
    else
      var a := attrs[|attrs| - 1];
      var d := Connects(attrs[..|attrs| - 1]);
      if !IsConnect(a) then d
      else
        var (out, inp) := ConnectPair(a.value.value);
        d[out := inp]
  }

  /** The outputs are those of the connect attributes that hold text. */
  lemma {:induction false} ConnectsKeys(attrs: seq<Attr>, out: String)
    ensures out in Connects(attrs) <==> Some(out) in ConnectOuts(attrs)
    decreases |attrs|
  {
    if |attrs| > 0 {
      ConnectsKeys(attrs[..|attrs| - 1], out);
    }
  }

  /** The input of an output is read from the last attribute naming it. */
  lemma {:induction false} ConnectsLastWins(attrs: seq<Attr>, i: int)
    requires LastConnect(attrs, i)
    ensures ConnectPair(attrs[i].value.value).0 in Connects(attrs)
    ensures Connects(attrs)[ConnectPair(attrs[i].value.value).0] == ConnectPair(attrs[i].value.value).1
    decreases |attrs|
  {
    var init := attrs[..|attrs| - 1];
    if i < |init| {
      assert init[i] == attrs[i];
      forall j | i < j < |init| && IsConnect(init[j])
        ensures ConnectPair(init[j].value.value).0 != ConnectPair(init[i].value.value).0
      {
        assert init[j] == attrs[j];
      }
      ConnectsLastWins(init, i);
    }
  }

  /** A connection written as `out=in` reads back as that pair. */
  lemma ConnectPairDecode(out: String, inp: String)
    requires '=' !in out && '=' !in inp
    ensures ConnectPair(out + "=" + inp) == (out, inp)
  {
    var value := out + "=" + inp;
    assert value[|out|] == '=';
    assert StartsWith(value, out);
    BeforeFirstUnique(value, '=', out);
    assert value[|value| - |inp| - 1] == '=';
    assert EndsWith(value, inp);
    AfterLastUnique(value, '=', inp);
  }

  // ---------------------------------------------------------------- save folders

  /** What `save_to_path` does: the folder it creates, if any, and the path
      it returns. */
  datatype SavePlan = SavePlan(makeDir: Option<String>, result: String)

  /** `"v" + str(version + 1).zfill(3)`. */
  function NextVersionName(version: int): (name: String)
    ensures |name| >= 4 && name[0] == 'v' && '/' !in name
    ensures ParseInt(name[1..]) == Some(version + 1)
  {
    ParseZFill(version + 1, 3);
    ZFillNumberChars(version + 1, 3);
    var name := "v" + ZFill(PyStr(version + 1), 3);
    assert name[1..] == ZFill(PyStr(version + 1), 3);
    name
  }

  /** `int(name[1:])` for the base name of a version folder; the slice of
      an empty name is empty. */
  function VersionOf(name: String): Option<int> {
    ParseInt(if |name| == 0 then "" else name[1..])
  }

  /** `save_to_path(folder, asset_folder, versionUp)`, where `listing` is
      what the glob `v*` of `asset_folder + folder + "/"` returns. With no
      version folder it creates `v001` and returns it; otherwise it returns
      the latest one, or creates and returns the next when asked to. */
  function SaveToPath(folder: String, assetFolder: String, versionUp: bool, listing: seq<String>)
    : (r: Result<SavePlan, CoreError>)
    ensures var dir := assetFolder + folder + "/";
      && (|listing| == 0 ==> r == Success(SavePlan(Some(dir + "v001"), dir + "v001")))
      && (|listing| > 0 ==>
            var latest := ImportLatest(dir, listing).value;
            var v := VersionOf(AfterLast(latest, '/'));
            && (r.Failure? <==> v.None?)
            && (v.Some? && versionUp ==> r == Success(SavePlan(Some(dir + NextVersionName(v.value)), dir + NextVersionName(v.value))))
            && (v.Some? && !versionUp ==> r == Success(SavePlan(None, latest))))
  {
    var dir := assetFolder + folder + "/";
    match ImportLatest(dir, listing)
    case None =>
      var made := dir + "v001";
      var again := ImportLatest(dir, [made]);
      FreshFolderIsLatest(dir);
      Success(SavePlan(Some(made), again.value))
    case Some(latest) =>
      match VersionOf(AfterLast(latest, '/'))
      case None => Failure(BadVersionFolder)
      case Some(version) =>
        var num := NextVersionName(version);
        if versionUp then Success(SavePlan(Some(dir + num), dir + num))
        else Success(SavePlan(None, latest))
  }

  /** Once `v001` is the only version folder, the glob finds it. */
  lemma FreshFolderIsLatest(dir: String)
    requires EndsWith(dir, "/")
    ensures ImportLatest(dir, [dir + "v001"]) == Some(dir + "v001")
  {
    var made := dir + "v001";
    OnlyIsLatest(made);
    BaseNameInFolder(dir, "v001");
  }

  /** A one-entry listing's latest entry is that entry. */
  lemma OnlyIsLatest(f: String)
    ensures forall i :: IsLatest([f], i) <==> i == 0
  {
    LexLeTotal(f, f);
  }

  /** The base name of a file in a folder is its name. */
  lemma BaseNameInFolder(dir: String, name: String)
    requires EndsWith(dir, "/") && '/' !in name && '\\' !in name
    ensures BaseName(dir + name) == name
  {
    BumpKeepsFolderName(dir, name);
  }

  /** The latest folder is in the asset folder: its base name is the name
      of the latest listed entry. */
  lemma SaveToPathLatestName(folder: String, assetFolder: String, listing: seq<String>)
    requires |listing| > 0
    ensures var dir := assetFolder + folder + "/";
      exists i :: IsLatest(listing, i)
        && AfterLast(ImportLatest(dir, listing).value, '/') == BaseName(listing[i])
  {
    var dir := assetFolder + folder + "/";
    assert ImportLatest(dir, listing).Some?;
    var i :| IsLatest(listing, i) && ImportLatest(dir, listing).value == WithSlash(dir) + BaseName(listing[i]);
    BumpKeepsFolderName(dir, BaseName(listing[i]));
  }

  /** Versioning up twice from the same listing would name the same folder;
      after the new folder is listed, the next call names the one after it. */
  lemma SaveToPathAdvances(folder: String, assetFolder: String, listing: seq<String>, version: int)
    requires var dir := assetFolder + folder + "/";
      |listing| > 0 && VersionOf(AfterLast(ImportLatest(dir, listing).value, '/')) == Some(version)
    ensures var dir := assetFolder + folder + "/";
      var r := SaveToPath(folder, assetFolder, true, listing);
      && r.Success? && r.value.makeDir == Some(r.value.result)
      && VersionOf(AfterLast(r.value.result, '/')) == Some(version + 1)
  {
    var dir := assetFolder + folder + "/";
    var num := NextVersionName(version);
    BumpKeepsFolderName(dir, num);
    assert SaveToPath(folder, assetFolder, true, listing) == Success(SavePlan(Some(dir + num), dir + num));
    assert VersionOf(num) == Some(version + 1);
  }
}

=== FILE: geometry.dfy ===
/** Real-valued points, UV coordinates and barycentric weights, as the mesh
    queries use them. numpy's float arrays are modelled as exact reals. */
module Geometry {

  datatype Vec3 = Vec3(x: real, y: real, z: real)

  datatype UV = UV(u: real, v: real)

  /** Three barycentric weights, one per triangle corner. */
  datatype Weights = Weights(w0: real, w1: real, w2: real)

  const Zero := Vec3(0.0, 0.0, 0.0)

  function Add(a: Vec3, b: Vec3): Vec3 {
    Vec3(a.x + b.x, a.y + b.y, a.z + b.z)
  }

  function Sub(a: Vec3, b: Vec3): Vec3 {
    Vec3(a.x - b.x, a.y - b.y, a.z - b.z)
  }

  function Scale(a: Vec3, k: real): Vec3 {
    Vec3(a.x * k, a.y * k, a.z * k)
  }

  /** The weights from the first two: the third is one minus their sum, as
      both `get_closest_at_uv` (`1 - b.sum()`) and `point_on_mesh`
      (`1.0 - (b_u + b_v)`) compute it. */
  function Complete(b0: real, b1: real): (w: Weights)
    ensures w.w0 + w.w1 + w.w2 == 1.0
    ensures w.w0 == b0 && w.w1 == b1
  {
    Weights(b0, b1, 1.0 - (b0 + b1))
  }

  /** `p0 * w0 + p1 * w1 + p2 * w2`, summed left to right. */
  function Interpolate(p0: Vec3, p1: Vec3, p2: Vec3, w: Weights): Vec3 {
    Add(Add(Scale(p0, w.w0), Scale(p1, w.w1)), Scale(p2, w.w2))
  }

  /** The same sum for scalars, as `point_on_mesh` accumulates `final_u` and
      `final_v` starting from zero. */
  function InterpolateScalar(a0: real, a1: real, a2: real, w: Weights): real {
    0.0 + a0 * w.w0 + a1 * w.w1 + a2 * w.w2
  }

  /** Weights that sum to one reproduce a point shared by all three corners. */
  lemma InterpolateConstant(p: Vec3, w: Weights)
    requires w.w0 + w.w1 + w.w2 == 1.0
    ensures Interpolate(p, p, p, w) == p
  {
    assert p.x * w.w0 + p.x * w.w1 + p.x * w.w2 == p.x * (w.w0 + w.w1 + w.w2);
    assert p.y * w.w0 + p.y * w.w1 + p.y * w.w2 == p.y * (w.w0 + w.w1 + w.w2);
    assert p.z * w.w0 + p.z * w.w1 + p.z * w.w2 == p.z * (w.w0 + w.w1 + w.w2);
  }

  lemma InterpolateScalarConstant(a: real, w: Weights)
    requires w.w0 + w.w1 + w.w2 == 1.0
    ensures InterpolateScalar(a, a, a, w) == a
  {
    assert a * w.w0 + a * w.w1 + a * w.w2 == a * (w.w0 + w.w1 + w.w2);
  }

  // ---------------------------------------------------------------- barycentric transform

  /** One row of scipy's `Delaunay.transform`: the 2x2 matrix `T` and the
      reference vertex `r`, so that the first two barycentric coordinates of
      `x` are `T (x - r)`. */
  datatype Affine = Affine(t00: real, t01: real, t10: real, t11: real, r: UV)

  /** `transform[s, :2].dot(x - transform[s, 2])` followed by
      `1 - b.sum()`. */
  function Barycentric(a: Affine, p: UV): (w: Weights)
    ensures w.w0 + w.w1 + w.w2 == 1.0
  {
    var du := p.u - a.r.u;
    var dv := p.v - a.r.v;
    Complete(a.t00 * du + a.t01 * dv, a.t10 * du + a.t11 * dv)
  }

  /** `a` is the exact barycentric transform of the triangle with UV corners
      `c0`, `c1`, `c2`: the reference vertex is the last corner and `T` is the
      inverse of the matrix whose columns are `c0 - c2` and `c1 - c2`. */
  predicate ExactTransform(a: Affine, c0: UV, c1: UV, c2: UV) {
    var m00 := c0.u - c2.u;
    var m01 := c1.u - c2.u;
    var m10 := c0.v - c2.v;
    var m11 := c1.v - c2.v;
    a.r == c2
    && m00 * a.t00 + m01 * a.t10 == 1.0 && m00 * a.t01 + m01 * a.t11 == 0.0
    && m10 * a.t00 + m11 * a.t10 == 0.0 && m10 * a.t01 + m11 * a.t11 == 1.0
  }

  /** With an exact transform the barycentric weights are an inverse of
      interpolation: interpolating the corners' UVs gives back the point. */
  lemma BarycentricInverse(a: Affine, c0: UV, c1: UV, c2: UV, p: UV)
    requires ExactTransform(a, c0, c1, c2)
    ensures var w := Barycentric(a, p);
      InterpolateScalar(c0.u, c1.u, c2.u, w) == p.u
      && InterpolateScalar(c0.v, c1.v, c2.v, w) == p.v
  {
    BarycentricInverseU(a, c0, c1, c2, p);
    BarycentricInverseV(a, c0, c1, c2, p);
  }

  lemma BarycentricInverseU(a: Affine, c0: UV, c1: UV, c2: UV, p: UV)
    requires ExactTransform(a, c0, c1, c2)
    ensures InterpolateScalar(c0.u, c1.u, c2.u, Barycentric(a, p)) == p.u
  {
    var du := p.u - c2.u;
    var dv := p.v - c2.v;
    CoordinateInverse(c0.u, c1.u, c2.u, a.t00, a.t01, a.t10, a.t11, du, dv, 1.0, 0.0, du);
  }

  lemma BarycentricInverseV(a: Affine, c0: UV, c1: UV, c2: UV, p: UV)
    requires ExactTransform(a, c0, c1, c2)
    ensures InterpolateScalar(c0.v, c1.v, c2.v, Barycentric(a, p)) == p.v
  {
    var du := p.u - c2.u;
    var dv := p.v - c2.v;
    CoordinateInverse(c0.v, c1.v, c2.v, a.t00, a.t01, a.t10, a.t11, du, dv, 0.0, 1.0, dv);
  }

  /** Interpolating one coordinate with the weights `T d`, when that
      coordinate's row of `M T` is `(e0, e1)` and `x` is `e0 du + e1 dv`. */
  lemma CoordinateInverse(a0: real, a1: real, a2: real, t00: real, t01: real, t10: real, t11: real,
                          du: real, dv: real, e0: real, e1: real, x: real)
    requires (a0 - a2) * t00 + (a1 - a2) * t10 == e0 && (a0 - a2) * t01 + (a1 - a2) * t11 == e1
    requires (e0 == 1.0 && e1 == 0.0 && x == du) || (e0 == 0.0 && e1 == 1.0 && x == dv)
    ensures InterpolateScalar(a0, a1, a2, Complete(t00 * du + t01 * dv, t10 * du + t11 * dv)) == a2 + x
  {
    AffineRow(a0 - a2, a1 - a2, t00, t01, t10, t11, du, dv, e0, e1);
    RecentredSum(a0, a1, a2, t00 * du + t01 * dv, t10 * du + t11 * dv);
  }

  /** One row of `M (T d)` when that row of `M T` is `(e0, e1)`. */
  lemma AffineRow(m0: real, m1: real, t00: real, t01: real, t10: real, t11: real,
                  du: real, dv: real, e0: real, e1: real)
    requires m0 * t00 + m1 * t10 == e0 && m0 * t01 + m1 * t11 == e1
    ensures m0 * (t00 * du + t01 * dv) + m1 * (t10 * du + t11 * dv) == e0 * du + e1 * dv
  {
    calc {
      m0 * (t00 * du + t01 * dv) + m1 * (t10 * du + t11 * dv);
      (m0 * t00 + m1 * t10) * du + (m0 * t01 + m1 * t11) * dv;
    }
  }

  /** An interpolation with weights summing to one, measured from the last
      corner. */
  lemma RecentredSum(a0: real, a1: real, a2: real, b0: real, b1: real)
    ensures InterpolateScalar(a0, a1, a2, Complete(b0, b1)) == a2 + (a0 - a2) * b0 + (a1 - a2) * b1
  {
    calc {
      0.0 + a0 * b0 + a1 * b1 + a2 * (1.0 - (b0 + b1));
      a2 + (a0 - a2) * b0 + (a1 - a2) * b1;
    }
  }
}

=== FILE: mesh_host.dfy ===
/** The Maya mesh that `apiMesh.Mesh` queries, as immutable data: what
    `MFnMesh.getTriangles`, `getPoints`, `MItMeshVertex.getConnectedVertices`
    and `getUV` would report. Everything the query class derives from it is a
    function of these fields. */
module MeshHost {
  import opened Wrappers
  import opened Strings
  import opened Geometry

  /** The space `points()` reads positions in. */
  datatype Space = ObjectSpace | WorldSpace

  /** A UV set name; `None` is the mesh's current set (`uv_set=None`). */
  type UVSetName = Option<String>

  datatype Host = Host(
    faceTriangleCounts: seq<nat>,      // triangles per polygon (first result of getTriangles)
    triangleVertices: seq<nat>,        // three vertex ids per triangle, face by face
    connected: seq<seq<nat>>,          // getConnectedVertices of each vertex
    uvSets: map<UVSetName, seq<UV>>,   // the shared UV of each vertex, per set
    objectPoints: seq<Vec3>,
    worldPoints: seq<Vec3>)
  {
    function NumVerts(): nat {
      |connected|
    }

    function Points(space: Space): seq<Vec3> {
      if space == ObjectSpace then objectPoints else worldPoints
    }

    /** What Maya guarantees of a mesh: every id is a vertex, and there are
        three ids per triangle. */
    predicate Valid() {
      && |objectPoints| == |connected|
      && |worldPoints| == |connected|
      && |triangleVertices| == 3 * Sum(faceTriangleCounts)
      && (forall k :: 0 <= k < |triangleVertices| ==> triangleVertices[k] < |connected|)
      && (forall v, k :: 0 <= v < |connected| && 0 <= k < |connected[v]| ==> connected[v][k] < |connected|)
      && (forall s :: s in uvSets ==> |uvSets[s]| == |connected|)
    }

    /** Adjacency as a manifold mesh reports it: no vertex is listed twice
        and the relation is symmetric. */
    predicate SymmetricAdjacency() {
      && (forall v :: 0 <= v < |connected| ==> Distinct(connected[v]))
      && (forall v, w :: 0 <= v < |connected| && 0 <= w < |connected| ==> (w in connected[v] <==> v in connected[w]))
    }
  }

  predicate Distinct(s: seq<nat>) {
    forall i, j :: 0 <= i < j < |s| ==> s[i] != s[j]
  }

  /** `sum(n_counts)`. */
  function Sum(s: seq<nat>): nat {
    if |s| == 0 then 0 else Sum(s[..|s| - 1]) + s[|s| - 1]
  }

  lemma {:induction false} SumPrefix(s: seq<nat>, f: nat)
    requires f < |s|
    ensures Sum(s[..f]) + s[f] <= Sum(s)
    decreases |s|
  {
    assert s[..f + 1][..f] == s[..f];
    if f + 1 < |s| {
      SumPrefix(s[..|s| - 1], f);
      assert s[..|s| - 1][..f] == s[..f];
      assert s[..|s| - 1][f] == s[f];
    } else {
      assert s[..f + 1] == s;
    }
  }

  // ---------------------------------------------------------------- triangles

  /** One row of `triangle_verts`: the vertex ids of one triangle. */
  datatype Tri = Tri(v0: nat, v1: nat, v2: nat) {
    function Corner(i: nat): nat
      requires i < 3
    {
      if i == 0 then v0 else if i == 1 then v1 else v2
    }
  }

  /** `np.array(tris).reshape(-1, 3)`. */
  function Reshape(tris: seq<nat>): (rows: seq<Tri>)
    requires |tris| % 3 == 0
    ensures |rows| == |tris| / 3
    ensures forall t, i :: 0 <= t < |rows| && 0 <= i < 3 ==> rows[t].Corner(i) == tris[3 * t + i]
  {
    seq(|tris| / 3, t requires 0 <= t < |tris| / 3 => Tri(tris[3 * t], tris[3 * t + 1], tris[3 * t + 2]))
  }

  /** The rows read back in order, as `reshape(-1)` would. */
  function Flatten(rows: seq<Tri>): (tris: seq<nat>)
    ensures |tris| == 3 * |rows|
  {
    if |rows| == 0 then []
    else Flatten(rows[..|rows| - 1]) + [rows[|rows| - 1].v0, rows[|rows| - 1].v1, rows[|rows| - 1].v2]
  }

  /** Reshaping loses nothing: flattening the rows gives back the id list. */
  lemma {:induction false} FlattenReshape(tris: seq<nat>)
    requires |tris| % 3 == 0
    ensures Flatten(Reshape(tris)) == tris
    decreases |tris|
  {
    if |tris| > 0 {
      var n := |tris| - 3;
      var front := tris[..n];
      FlattenReshape(front);
      assert Reshape(tris)[..|Reshape(tris)| - 1] == Reshape(front);
      assert tris == front + [tris[n], tris[n + 1], tris[n + 2]];
    }
  }

  /** `points[ids]`: numpy fancy indexing, one point per id. */
  function Gather(points: seq<Vec3>, ids: seq<nat>): (r: seq<Vec3>)
    requires forall k :: 0 <= k < |ids| ==> ids[k] < |points|
    ensures |r| == |ids|
  {
    seq(|ids|, k requires 0 <= k < |ids| => points[ids[k]])
  }

  /** `P - P.reshape(-1, 3, 3)[:, [1, 2, 0]].reshape(-1, 3)`: each corner of
      each triangle minus the next corner of the same triangle, taken in the
      column order `[1, 2, 0]`. */
  function EdgeVectors(p: seq<Vec3>): (e: seq<Vec3>)
    requires |p| % 3 == 0
    ensures |e| == |p|
    decreases |p|
  {
    if |p| == 0 then []
    else
      var n := |p| - 3;
      EdgeVectors(p[..n]) + [Sub(p[n], p[n + 1]), Sub(p[n + 1], p[n + 2]), Sub(p[n + 2], p[n])]
  }

  /** Rows `3t`, `3t + 1` and `3t + 2` are the vectors from the second
      corner of triangle `t` to the first, from the third to the second and
      from the first to the third. */
  lemma {:induction false} EdgeVectorsOfTriangle(p: seq<Vec3>, t: nat)
    requires |p| % 3 == 0 && 3 * t + 3 <= |p|
    ensures var e := EdgeVectors(p);
      && e[3 * t] == Sub(p[3 * t], p[3 * t + 1])
      && e[3 * t + 1] == Sub(p[3 * t + 1], p[3 * t + 2])
      && e[3 * t + 2] == Sub(p[3 * t + 2], p[3 * t])
    decreases |p|
  {
    var n := |p| - 3;
    if 3 * t + 3 < |p| {
      var q := p[..n];
      EdgeVectorsOfTriangle(q, t);
      assert q[3 * t] == p[3 * t] && q[3 * t + 1] == p[3 * t + 1] && q[3 * t + 2] == p[3 * t + 2];
    }
  }

  /** A triangle's three edge vectors close up: they sum to zero. */
  lemma EdgeVectorsClose(p: seq<Vec3>, t: nat)
    requires |p| % 3 == 0 && 3 * t + 3 <= |p|
    ensures var e := EdgeVectors(p); Add(Add(e[3 * t], e[3 * t + 1]), e[3 * t + 2]) == Zero
  {
    EdgeVectorsOfTriangle(p, t);
    SubCycle(p[3 * t], p[3 * t + 1], p[3 * t + 2]);
  }

  lemma SubCycle(a: Vec3, b: Vec3, c: Vec3)
    ensures Add(Add(Sub(a, b), Sub(b, c)), Sub(c, a)) == Zero
  {
  }

  /** The vertex ids `MItMeshPolygon.getTriangle` reports for triangle
      `triangle` of face `face`: the face's triangles come in order in the
      flat list. */
  predicate ValidFaceTriangle(h: Host, face: nat, triangle: nat) {
    face < |h.faceTriangleCounts| && triangle < h.faceTriangleCounts[face]
  }

  function FaceTriangle(h: Host, face: nat, triangle: nat): (t: Tri)
    requires h.Valid() && ValidFaceTriangle(h, face, triangle)
    ensures t.v0 < h.NumVerts() && t.v1 < h.NumVerts() && t.v2 < h.NumVerts()
  {
    var g := Sum(h.faceTriangleCounts[..face]) + triangle;
    SumPrefix(h.faceTriangleCounts, face);
    Tri(h.triangleVertices[3 * g], h.triangleVertices[3 * g + 1], h.triangleVertices[3 * g + 2])
  }

  // ---------------------------------------------------------------- adjacency

  /** Every vertex connected to some vertex of `s`. */
  function Nbrs(h: Host, s: set<nat>): set<nat>
  {
    set v, k | v in s && v < |h.connected| && 0 <= k < |h.connected[v]| :: h.connected[v][k]
  }

  lemma NbrsMember(h: Host, s: set<nat>, v: nat, k: nat)
    requires v in s && v < |h.connected| && k < |h.connected[v]|
    ensures h.connected[v][k] in Nbrs(h, s)
  {
  }

  lemma NbrsUnion(h: Host, a: set<nat>, b: set<nat>)
    ensures Nbrs(h, a + b) == Nbrs(h, a) + Nbrs(h, b)
  {
  }

  /** The one-ring of `ids`: their neighbours that are not themselves in
      `ids`. */
  function OneRing(h: Host, ids: seq<nat>): set<nat>
  {
    Nbrs(h, set v | v in ids) - set v | v in ids
  }

  /** The ids below `n`. */
  function Range(n: nat): (r: set<nat>)
    ensures forall v: nat :: v in r <==> v < n
    ensures |r| == n
  {
    if n == 0 then {} else Range(n - 1) + {n - 1}
  }

  /** All vertex ids. */
  function AllVerts(h: Host): set<nat>
  {
    Range(h.NumVerts())
  }

  lemma {:induction false} SubsetCardLe(a: set<nat>, b: set<nat>)
    requires a <= b
    ensures |a| <= |b|
    ensures |a| == |b| ==> a == b
    decreases |a|
  {
    if a != {} {
      var x :| x in a;
      SubsetCardLe(a - {x}, b - {x});
      assert a == (a - {x}) + {x} && b == (b - {x}) + {x};
    } else if |b| == 0 {
      assert b == {};
    }
  }

  lemma SubsetCard(h: Host, s: set<nat>)
    requires forall v :: v in s ==> v < h.NumVerts()
    ensures |s| <= h.NumVerts()
    ensures |s| == h.NumVerts() ==> s == AllVerts(h)
  {
    SubsetCardLe(s, AllVerts(h));
  }

  /** The mesh is connected: the only non-empty vertex set closed under
      adjacency is the whole mesh. */
  predicate Connected(h: Host) {
    forall s: set<nat> ::
      (s != {} && s <= AllVerts(h) && Nbrs(h, s) <= s) ==> s == AllVerts(h)
  }

  // ---------------------------------------------------------------- connectivity matrix

  /** The `(row, col)` entries `vert_connectivity_matrix` appends for one
      vertex `v` with connected vertices `row`, one per listed neighbour. A
      sparse matrix that sums duplicate entries is exactly a multiset of
      coordinates. */
  function RowPairs(v: nat, row: seq<nat>): multiset<(nat, nat)>
  {
    if |row| == 0 then multiset{}
    else RowPairs(v, row[..|row| - 1]) + multiset{(v, row[|row| - 1])}
  }

  /** The entries for vertices `lo` up to (not including) `hi`. */
  function RowsPairs(h: Host, lo: nat, hi: nat): multiset<(nat, nat)>
    requires lo <= hi <= h.NumVerts()
    decreases hi
  {
    if hi == lo then multiset{}
    else RowsPairs(h, lo, hi - 1) + RowPairs(hi - 1, h.connected[hi - 1])
  }

  lemma {:induction false} RowPairsCount(v: nat, row: seq<nat>, i: nat, j: nat)
    ensures RowPairs(v, row)[(i, j)] == if i == v then multiset(row)[j] else 0
    decreases |row|
  {
    if |row| > 0 {
      RowPairsCount(v, row[..|row| - 1], i, j);
      assert row == row[..|row| - 1] + [row[|row| - 1]];
    }
  }

  /** Entry `(i, j)` counts how often `j` is listed among `i`'s connected
      vertices, for rows the iterator visited. */
  lemma {:induction false} RowsPairsCount(h: Host, lo: nat, hi: nat, i: nat, j: nat)
    requires lo <= hi <= h.NumVerts()
    ensures RowsPairs(h, lo, hi)[(i, j)] == if lo <= i < hi then multiset(h.connected[i])[j] else 0
    decreases hi
  {
    if hi > lo {
      RowsPairsCount(h, lo, hi - 1, i, j);
      RowPairsCount(hi - 1, h.connected[hi - 1], i, j);
    }
  }

  lemma DistinctCount(s: seq<nat>, x: nat)
    requires Distinct(s)
    ensures multiset(s)[x] == if x in s then 1 else 0
  {
    if |s| > 0 {
      var t := s[..|s| - 1];
      assert s == t + [s[|s| - 1]];
      assert Distinct(t);
      DistinctCount(t, x);
    }
  }

  /** On a mesh with symmetric adjacency the full matrix is symmetric, and
      its entries are 0 or 1. */
  lemma ConnectivitySymmetric(h: Host, i: nat, j: nat)
    requires h.Valid() && h.SymmetricAdjacency()
    ensures RowsPairs(h, 0, h.NumVerts())[(i, j)] == RowsPairs(h, 0, h.NumVerts())[(j, i)]
    ensures RowsPairs(h, 0, h.NumVerts())[(i, j)] <= 1
  {
    var n := h.NumVerts();
    RowsPairsCount(h, 0, n, i, j);
    RowsPairsCount(h, 0, n, j, i);
    if i < n {
      DistinctCount(h.connected[i], j);
      if j >= n {
        assert j !in h.connected[i];
      }
    }
    if j < n {
      DistinctCount(h.connected[j], i);
      if i >= n {
        assert i !in h.connected[j];
      }
    }
  }
}

=== FILE: mesh_topology.dfy ===
/** The connectivity queries of `apiMesh.Mesh`: one-ring neighbours, the
    vertex connectivity matrix and the breadth-first ring march. They walk
    the shared vertex iterator, whose position is part of the mesh state. */
module MeshTopology {
  import opened Wrappers
  import opened MeshHost
  import opened ApiMesh
  import MeshUV
  import Geometry

  function Elems(s: seq<nat>): set<nat> {
    set v | v in s
  }

  lemma {:induction false} ElemsCard(s: seq<nat>)
    ensures |Elems(s)| <= |s|
  {
    if |s| > 0 {
      ElemsCard(s[..|s| - 1]);
      assert Elems(s) == Elems(s[..|s| - 1]) + {s[|s| - 1]} by {
        assert s == s[..|s| - 1] + [s[|s| - 1]];
      }
    }
  }

  // ---------------------------------------------------------------- neighbours

  lemma NbrsOfOne(h: Host, v: nat)
    requires v < h.NumVerts()
    ensures Nbrs(h, {v}) == Elems(h.connected[v])
  {
    forall x | x in Elems(h.connected[v]) ensures x in Nbrs(h, {v}) {
      var k :| 0 <= k < |h.connected[v]| && h.connected[v][k] == x;
      NbrsMember(h, {v}, v, k);
    }
  }

  lemma NbrsPrefixStep(h: Host, ids: seq<nat>, i: nat)
    requires i < |ids| && ids[i] < h.NumVerts()
    ensures Nbrs(h, Elems(ids[..i + 1])) == Nbrs(h, Elems(ids[..i])) + Elems(h.connected[ids[i]])
  {
    assert Elems(ids[..i + 1]) == Elems(ids[..i]) + {ids[i]} by {
      assert ids[..i + 1] == ids[..i] + [ids[i]];
    }
    NbrsUnion(h, Elems(ids[..i]), {ids[i]});
    NbrsOfOne(h, ids[i]);
  }

  /** `get_neighbour_verts(vert_ids)`: every vertex connected to one of the
      ids and not itself among them, each once (in the arbitrary order of a
      Python set). The iterator is left on the last id. */
  method GetNeighbourVerts(m: Mesh, ids: seq<nat>) returns (r: (Mesh, seq<nat>))
    requires Coherent(m)
    requires forall k :: 0 <= k < |ids| ==> ids[k] < m.host.NumVerts()
    ensures Coherent(r.0) && r.0.host == m.host && r.0.cache == m.cache
    ensures r.0.vertIt == if |ids| == 0 then m.vertIt else ids[|ids| - 1]
    ensures Distinct(r.1)
    ensures forall x :: x in r.1 <==> x in OneRing(m.host, ids)
  {
    var h := m.host;
    var all: seq<nat> := [];
    var i := 0;
    while i < |ids|
      invariant 0 <= i <= |ids|
      invariant Elems(all) == Nbrs(h, Elems(ids[..i]))
    {
      NbrsPrefixStep(h, ids, i);
      all := all + h.connected[ids[i]];
      i := i + 1;
    }
    assert ids[..|ids|] == ids;
    var out: seq<nat> := [];
    var j := 0;
    while j < |all|
      invariant 0 <= j <= |all|
      invariant Distinct(out)
      invariant forall x :: x in out <==> x in all[..j] && x !in ids
    {
      assert all[..j + 1] == all[..j] + [all[j]];
      if all[j] !in ids && all[j] !in out {
        out := out + [all[j]];
      }
      j := j + 1;
    }
    assert all[..|all|] == all;
    var it: nat := if |ids| == 0 then m.vertIt else ids[|ids| - 1];
    r := (m.(vertIt := it), out);
  }

  // ---------------------------------------------------------------- connectivity matrix

  /** The entries the matrix loop appends, walking the vertex iterator from
      `lo` to the end. */
  method ConnectivityRows(h: Host, lo: nat) returns (coords: multiset<(nat, nat)>)
    requires h.Valid() && lo <= h.NumVerts()
    ensures coords == RowsPairs(h, lo, h.NumVerts())
  {
    var v := lo;
    coords := multiset{};
    while v < h.NumVerts()
      invariant lo <= v <= h.NumVerts()
      invariant coords == RowsPairs(h, lo, v)
    {
      var row := RowEntries(v, h.connected[v]);
      coords := coords + row;
      v := v + 1;
    }
  }

  /** The inner loop: one entry per listed neighbour of vertex `v`. */
  method RowEntries(v: nat, row: seq<nat>) returns (entries: multiset<(nat, nat)>)
    ensures entries == RowPairs(v, row)
  {
    entries := multiset{};
    var k := 0;
    while k < |row|
      invariant 0 <= k <= |row|
      invariant entries == RowPairs(v, row[..k])
    {
      assert row[..k + 1][..k] == row[..k];
      entries := entries + multiset{(v, row[k])};
      k := k + 1;
    }
    assert row[..|row|] == row;
  }


  /** `vert_connectivity_matrix()` as written: the iterator is not reset, so
      only the rows from its current position on are filled; the result is
      cached and the iterator left at the end. A cached matrix is returned
      as it is. */
  method VertConnectivityMatrix(m: Mesh) returns (r: (Mesh, multiset<(nat, nat)>))
    requires Coherent(m)
    ensures Coherent(r.0) && r.0.host == m.host && r.0.cache.vertConMatrix == Some(r.1)
    ensures m.cache.vertConMatrix.Some? ==> r.0 == m
    ensures m.cache.vertConMatrix.None? ==>
      && r.0.vertIt == m.host.NumVerts()
      && r.0.cache.(vertConMatrix := m.cache.vertConMatrix) == m.cache
      && forall i: nat, j: nat :: r.1[(i, j)] == if m.vertIt <= i < m.host.NumVerts() then multiset(m.host.connected[i])[j] else 0
  {
    if m.cache.vertConMatrix.Some? {
      return (m, m.cache.vertConMatrix.value);
    }
    var coords := ConnectivityRows(m.host, m.vertIt);
    forall i: nat, j: nat ensures coords[(i, j)] == if m.vertIt <= i < m.host.NumVerts() then multiset(m.host.connected[i])[j] else 0 {
      RowsPairsCount(m.host, m.vertIt, m.host.NumVerts(), i, j);
    }
    r := (m.(cache := m.cache.(vertConMatrix := Some(coords)), vertIt := m.host.NumVerts()), coords);
  }

  /** The same query with the iterator reset before the walk, as
      `get_vert_uvs` does: entry `(i, j)` counts `j` among `i`'s connected
      vertices for every vertex, so on a manifold mesh the matrix is
      symmetric 0/1 adjacency. */
  method VertConnectivityMatrixReset(m: Mesh) returns (r: (Mesh, multiset<(nat, nat)>))
    requires Coherent(m)
    ensures Coherent(r.0) && r.0.host == m.host && r.0.cache.vertConMatrix == Some(r.1)
    ensures m.cache.vertConMatrix.Some? ==> r.0 == m
    ensures m.cache.vertConMatrix.None? ==>
      && r.0.vertIt == m.host.NumVerts()
      && r.0.cache.(vertConMatrix := m.cache.vertConMatrix) == m.cache
      && forall i: nat, j: nat :: r.1[(i, j)] == if i < m.host.NumVerts() then multiset(m.host.connected[i])[j] else 0
    ensures m.cache.vertConMatrix.None? && m.host.SymmetricAdjacency() ==>
      forall i: nat, j: nat :: r.1[(i, j)] == r.1[(j, i)] && r.1[(i, j)] <= 1
  {
    if m.cache.vertConMatrix.Some? {
      return (m, m.cache.vertConMatrix.value);
    }
    r := VertConnectivityMatrix(m.(vertIt := 0));
    if m.host.SymmetricAdjacency() {
      forall i: nat, j: nat ensures r.1[(i, j)] == r.1[(j, i)] && r.1[(i, j)] <= 1 {
        ConnectivitySymmetric(m.host, i, j);
        RowsPairsCount(m.host, 0, m.host.NumVerts(), i, j);
        RowsPairsCount(m.host, 0, m.host.NumVerts(), j, i);
      }
    }
  }

  /** `get_vert_uvs()` followed by `vert_connectivity_matrix()` on a fresh
      object: the UV walk leaves the iterator at the end, so the as-written
      matrix comes out empty, while the reset query on the same state has an
      entry for every listed neighbour. */
  method MatrixAfterUVsIsEmpty(m: Mesh, uvSet: UVSetName)
    returns (r: Result<(multiset<(nat, nat)>, multiset<(nat, nat)>), MeshError>)
    requires Coherent(m) && m.cache.vertUVs.None? && m.cache.vertConMatrix.None?
    ensures r.Failure? <==> MeshUV.GetVertUVs(m, uvSet).Failure?
    ensures r.Success? ==>
      var (asWritten, reset) := r.value;
      && asWritten == multiset{}
      && forall v, k :: 0 <= v < m.host.NumVerts() && 0 <= k < |m.host.connected[v]| ==>
           reset[(v, m.host.connected[v][k])] > 0
  {
    var uvs := MeshUV.GetVertUVs(m, uvSet);
    if uvs.Failure? {
      return Failure(uvs.error);
    }
    var m1 := uvs.value.0;
    var asWritten := VertConnectivityMatrix(m1);
    var reset := VertConnectivityMatrixReset(m1);
    forall v, k | 0 <= v < m.host.NumVerts() && 0 <= k < |m.host.connected[v]|
      ensures reset.1[(v, m.host.connected[v][k])] > 0
    {
      assert m.host.connected[v][k] in m.host.connected[v];
    }
    assert asWritten.1 == multiset{} by {
      forall p: (nat, nat) ensures asWritten.1[p] == 0 {
        assert p == (p.0, p.1);
      }
    }
    return Success((asWritten.1, reset.1));
  }

  /** The triangle queries leave the iterator alone, so on a fresh object
      `points()`, `triangle_points()`, `triangle_edge_vectors()` and then
      `vert_connectivity_matrix()` give the full adjacency. */
  method MatrixAfterTriangleQueries(h: Host, space: Space) returns (r: multiset<(nat, nat)>)
    requires h.Valid()
    ensures forall i: nat, j: nat :: r[(i, j)] == if i < h.NumVerts() then multiset(h.connected[i])[j] else 0
  {
    var m1 := Points(Init(h), space).0;
    var m2 := TrianglePoints(m1).value.0;
    var m3 := TriangleEdgeVectors(m2).value.0;
    var matrix := VertConnectivityMatrix(m3);
    return matrix.1;
  }

  /** On a fresh object, `get_closest_at_uv()` leaves the iterator at the end
      through `get_vert_uvs`, so a following `vert_connectivity_matrix()`
      has no entries. */
  method MatrixAfterClosestAtUV(h: Host, p: Geometry.UV, uvSet: UVSetName,
                                delaunay: seq<Geometry.UV> -> Option<Triangulation>,
                                findSimplex: (Triangulation, Geometry.UV) -> int)
    returns (r: Result<multiset<(nat, nat)>, MeshError>)
    requires h.Valid() && ValidDelaunay(delaunay)
    requires forall t, q :: -1 <= findSimplex(t, q) < |t.simplices|
    ensures r.Failure? <==> MeshUV.GetClosestAtUV(Init(h), p, uvSet, delaunay, findSimplex).Failure?
    ensures r.Success? ==> r.value == multiset{}
  {
    var closest := MeshUV.GetClosestAtUV(Init(h), p, uvSet, delaunay, findSimplex);
    if closest.Failure? {
      return Failure(closest.error);
    }
    MeshUV.ClosestAtUVExhaustsIterator(Init(h), p, uvSet, delaunay, findSimplex);
    var matrix := VertConnectivityMatrix(closest.value.0);
    assert matrix.1 == multiset{} by {
      forall q: (nat, nat) ensures matrix.1[q] == 0 {
        assert q == (q.0, q.1);
      }
    }
    return Success(matrix.1);
  }

  // ---------------------------------------------------------------- ring march

  /** How `march_vert_array` ends: `Done` when the loop exits, `Stuck` when
      the next ring came out empty, where the source would loop for ever. */
  datatype March = Done(rings: seq<seq<nat>>) | Stuck(rings: seq<seq<nat>>)

  /** All vertices in the given rings. */
  function Union(rings: seq<seq<nat>>): set<nat> {
    if |rings| == 0 then {} else Union(rings[..|rings| - 1]) + Elems(rings[|rings| - 1])
  }

  /** Ring `k` of a march: the neighbours of ring `k - 1` that no earlier
      ring holds, each once. */
  predicate RingStep(h: Host, rings: seq<seq<nat>>, k: nat)
    requires 1 <= k < |rings|
  {
    && Distinct(rings[k])
    && rings[k] != []
    && Elems(rings[k]) == Nbrs(h, Elems(rings[k - 1])) - Union(rings[..k])
  }

  lemma UnionPrefix(rings: seq<seq<nat>>, ring: seq<nat>)
    ensures Union(rings + [ring]) == Union(rings) + Elems(ring)
    ensures (rings + [ring])[..|rings|] == rings
  {
    assert (rings + [ring])[..|rings|] == rings;
  }

  /** A ring of the march is disjoint from every earlier ring. */
  lemma {:induction false} UnionHasRing(rings: seq<seq<nat>>, k: nat)
    requires k < |rings|
    ensures Elems(rings[k]) <= Union(rings)
    ensures Union(rings[..k]) <= Union(rings)
    decreases |rings|
  {
    if k < |rings| - 1 {
      UnionHasRing(rings[..|rings| - 1], k);
      assert rings[..|rings| - 1][..k] == rings[..k];
    } else {
      assert rings[..|rings| - 1] == rings[..k];
    }
  }

  /** The vertices of `these` outside `found`, in order. */
  method Unfound(these: seq<nat>, found: set<nat>) returns (next: seq<nat>)
    requires Distinct(these)
    ensures Distinct(next)
    ensures Elems(next) == Elems(these) - found
  {
    next := [];
    var j := 0;
    while j < |these|
      invariant 0 <= j <= |these|
      invariant Distinct(next)
      invariant forall x :: x in next ==> x in these[..j]
      invariant forall x :: x in next <==> x in these[..j] && x !in found
    {
      assert these[..j + 1] == these[..j] + [these[j]];
      if these[j] !in found {
        next := next + [these[j]];
      }
      j := j + 1;
    }
    assert these[..|these|] == these;
  }

  /** The invariant of the march loop. */
  predicate MarchInvariant(h: Host, seeds: seq<nat>, rings: seq<seq<nat>>, found: set<nat>)
  {
    && |rings| >= 1 && rings[0] == seeds
    && (forall k :: 1 <= k < |rings| ==> RingStep(h, rings, k))
    && found == Union(rings) && found <= AllVerts(h)
    && Nbrs(h, Union(rings[..|rings| - 1])) <= found
  }

  lemma NextRing(h: Host, seeds: seq<nat>, rings: seq<seq<nat>>, found: set<nat>, these: seq<nat>, next: seq<nat>)
    requires h.Valid() && MarchInvariant(h, seeds, rings, found)
    requires Elems(these) == OneRing(h, rings[|rings| - 1])
    requires Elems(next) == Elems(these) - found
    ensures Elems(next) == Nbrs(h, Elems(rings[|rings| - 1])) - found
    ensures Nbrs(h, found) <= found + Elems(next)
  {
    var last := rings[|rings| - 1];
    UnionHasRing(rings, |rings| - 1);
    assert rings == rings[..|rings| - 1] + [last];
    UnionPrefix(rings[..|rings| - 1], last);
    NbrsUnion(h, Union(rings[..|rings| - 1]), Elems(last));
  }

  lemma GrowMarch(h: Host, seeds: seq<nat>, rings: seq<seq<nat>>, found: set<nat>, next: seq<nat>)
    requires h.Valid() && MarchInvariant(h, seeds, rings, found)
    requires Distinct(next) && next != []
    requires Elems(next) == Nbrs(h, Elems(rings[|rings| - 1])) - found
    requires Nbrs(h, found) <= found + Elems(next)
    requires Elems(next) <= AllVerts(h)
    ensures MarchInvariant(h, seeds, rings + [next], found + Elems(next))
  {
    var rings' := rings + [next];
    UnionPrefix(rings, next);
    assert rings'[..|rings'| - 1] == rings;
    forall k | 1 <= k < |rings'| ensures RingStep(h, rings', k) {
      if k < |rings| {
        assert rings'[..k] == rings[..k];
        assert RingStep(h, rings, k);
      }
    }
  }

  /** Adding a non-empty ring of new vertices keeps the invariant and
      finds more vertices, never more than the mesh has. */
  lemma AdvanceMarch(h: Host, seeds: seq<nat>, rings: seq<seq<nat>>, found: set<nat>, next: seq<nat>)
    requires h.Valid() && MarchInvariant(h, seeds, rings, found)
    requires Distinct(next) && next != []
    requires Elems(next) == Nbrs(h, Elems(rings[|rings| - 1])) - found
    requires Nbrs(h, found) <= found + Elems(next)
    requires Elems(next) <= AllVerts(h)
    ensures MarchInvariant(h, seeds, rings + [next], found + Elems(next))
    ensures |found| < |found + Elems(next)| <= h.NumVerts()
  {
    GrowMarch(h, seeds, rings, found, next);
    assert next[0] in Elems(next) && next[0] !in found;
    SubsetCardLe(found + {next[0]}, found + Elems(next));
    SubsetCard(h, found + Elems(next));
  }

  /** The id an iterator walked over `ids` is left on: the last one, or
      `d` when there is none. */
  function LastIdOr(ids: seq<nat>, d: nat): nat {
    if |ids| == 0 then d else ids[|ids| - 1]
  }

  /** Where the march loop has left the iterator: on its start `d` before
      the first pass, and afterwards on the last id of the ring before the
      newest one, every ring after the seeds being non-empty. */
  predicate IteratorAfter(rings: seq<seq<nat>>, it: nat, d: nat) {
    |rings| >= 1 &&
    if |rings| == 1 then it == d
    else rings[|rings| - 1] != [] && it == LastIdOr(rings[|rings| - 2], d)
  }

  /** A pass walks the newest ring, so the iterator ends on its last id. */
  lemma IteratorStep(rings: seq<seq<nat>>, next: seq<nat>, it: nat, it': nat, d: nat)
    requires IteratorAfter(rings, it, d)
    requires it' == LastIdOr(rings[|rings| - 1], it)
    ensures it' == LastIdOr(rings[|rings| - 1], d)
    ensures next != [] ==> IteratorAfter(rings + [next], it', d)
  {
  }

  /** One pass of the march loop: the one-ring of the last ring, and the
      part of it not found yet. */
  method MarchStep(m: Mesh, it: nat, seeds: seq<nat>, rings: seq<seq<nat>>, found: set<nat>)
    returns (next: (Mesh, seq<nat>))
    requires Coherent(m) && it <= m.host.NumVerts() && MarchInvariant(m.host, seeds, rings, found)
    ensures next.0 == m.(vertIt := next.0.vertIt) && next.0.vertIt <= m.host.NumVerts()
    ensures Distinct(next.1)
    ensures Elems(next.1) == Nbrs(m.host, Elems(rings[|rings| - 1])) - found
    ensures Nbrs(m.host, found) <= found + Elems(next.1)
    ensures Elems(next.1) <= AllVerts(m.host)
    ensures next.0.vertIt == LastIdOr(rings[|rings| - 1], it)
  {
    var cur := m.(vertIt := it);
    CoherentAtIterator(m, it);
    var h := cur.host;
    var last := rings[|rings| - 1];
    UnionHasRing(rings, |rings| - 1);
    assert forall k :: 0 <= k < |last| ==> last[k] in Elems(last);
    var step := GetNeighbourVerts(cur, last);
    var unfound := Unfound(step.1, found);
    NextRing(h, seeds, rings, found, step.1, unfound);
    forall x | x in Elems(unfound) ensures x in AllVerts(h) {
      var v, k :| v in Elems(last) && v < |h.connected| && 0 <= k < |h.connected[v]| && h.connected[v][k] == x;
    }
    next := (step.0, unfound);
  }

  /** `march_vert_array(start_vert_ids)`. Ring 0 is the seeds; each later
      ring is the one-ring of the previous ring minus every vertex found so
      far. The loop runs while fewer vertices than the mesh has were found,
      counting the seed list with its duplicates on the first test. */
  method MarchVertArray(m: Mesh, seeds: seq<nat>) returns (r: (Mesh, March))
    requires Coherent(m)
    requires forall k :: 0 <= k < |seeds| ==> seeds[k] < m.host.NumVerts()
    ensures r.0 == m.(vertIt := r.0.vertIt) && r.0.vertIt <= m.host.NumVerts()
    ensures var rings := r.1.rings;
      && |rings| >= 1 && rings[0] == seeds
      && (forall k :: 1 <= k < |rings| ==> RingStep(m.host, rings, k))
      && Union(rings) <= AllVerts(m.host)
    ensures r.1.Done? ==> |Union(r.1.rings)| == m.host.NumVerts() || (|r.1.rings| == 1 && |seeds| >= m.host.NumVerts())
    ensures |seeds| >= m.host.NumVerts() ==> r == (m, Done([seeds]))
    ensures r.1.Stuck? ==>
      Nbrs(m.host, Union(r.1.rings)) <= Union(r.1.rings) && |Union(r.1.rings)| < m.host.NumVerts()
    ensures Connected(m.host) && |seeds| > 0 ==> r.1.Done?
    ensures Connected(m.host) && 0 < |seeds| < m.host.NumVerts() ==> Union(r.1.rings) == AllVerts(m.host)
    ensures r.1.Stuck? ==> r.0.vertIt == LastIdOr(r.1.rings[|r.1.rings| - 1], m.vertIt)
    ensures r.1.Done? && |r.1.rings| == 1 ==> r.0.vertIt == m.vertIt
    ensures r.1.Done? && |r.1.rings| >= 2 ==> r.0.vertIt == LastIdOr(r.1.rings[|r.1.rings| - 2], m.vertIt)
  {
    var h := m.host;
    var it, rings, found, stuck := MarchLoop(m, seeds);
    MarchRings(h, seeds, rings, found);
    if stuck {
      StuckMeansDisconnected(h, seeds, rings, found);
      return (m.(vertIt := it), Stuck(rings));
    }
    SubsetCard(h, found);
    return (m.(vertIt := it), Done(rings));
  }

  /** The loop of `march_vert_array`: the rings so far, the vertices found,
      where the loop left the vertex iterator, and whether a pass found
      nothing new before every vertex was found. */
  method MarchLoop(m: Mesh, seeds: seq<nat>)
    returns (it: nat, rings: seq<seq<nat>>, found: set<nat>, stuck: bool)
    requires Coherent(m)
    requires forall k :: 0 <= k < |seeds| ==> seeds[k] < m.host.NumVerts()
    ensures it <= m.host.NumVerts()
    ensures MarchInvariant(m.host, seeds, rings, found)
    ensures |seeds| >= m.host.NumVerts() ==> !stuck && it == m.vertIt && rings == [seeds]
    ensures stuck ==> Nbrs(m.host, found) <= found && |found| < m.host.NumVerts()
    ensures stuck ==> it == LastIdOr(rings[|rings| - 1], m.vertIt)
    ensures !stuck ==> |found| == m.host.NumVerts() || (|rings| == 1 && |seeds| >= m.host.NumVerts())
    ensures !stuck && |rings| == 1 ==> it == m.vertIt
    ensures !stuck && |rings| >= 2 ==> it == LastIdOr(rings[|rings| - 2], m.vertIt)
  {
    var h := m.host;
    var n := h.NumVerts();
    rings := [seeds];
    found := Elems(seeds);
    StartMarch(h, seeds);
    var count := |seeds|;
    it := m.vertIt;
    while count < n
      invariant it <= n
      invariant MarchInvariant(h, seeds, rings, found)
      invariant count == if |rings| == 1 then |seeds| else |found|
      invariant |found| <= n
      invariant |seeds| >= n ==> rings == [seeds]
      invariant IteratorAfter(rings, it, m.vertIt)
      invariant |rings| == 1 ==> |found| <= |seeds|
      decreases n - |found|
    {
      var step := MarchStep(m, it, seeds, rings, found);
      var next := step.1;
      IteratorStep(rings, next, it, step.0.vertIt, m.vertIt);
      if next == [] {
        return step.0.vertIt, rings, found, true;
      }
      AdvanceMarch(h, seeds, rings, found, next);
      rings := rings + [next];
      found := found + Elems(next);
      count := |found|;
      it := step.0.vertIt;
    }
    stuck := false;
  }

  /** Before the loop: the seeds are ring 0 and everything found. */
  lemma StartMarch(h: Host, seeds: seq<nat>)
    requires h.Valid() && forall k :: 0 <= k < |seeds| ==> seeds[k] < h.NumVerts()
    ensures MarchInvariant(h, seeds, [seeds], Elems(seeds))
    ensures |Elems(seeds)| <= |seeds| && |Elems(seeds)| <= h.NumVerts()
  {
    var rings := [seeds];
    assert Union(rings) == Elems(seeds) by { assert rings[..0] == []; }
    ElemsCard(seeds);
    SubsetCard(h, Elems(seeds));
  }

  lemma MarchRings(h: Host, seeds: seq<nat>, rings: seq<seq<nat>>, found: set<nat>)
    requires MarchInvariant(h, seeds, rings, found)
    ensures |rings| >= 1 && rings[0] == seeds
    ensures forall k :: 1 <= k < |rings| ==> RingStep(h, rings, k)
    ensures Union(rings) == found && found <= AllVerts(h)
  {
  }

  /** Moving the vertex iterator of a coherent mesh keeps it coherent. */
  lemma CoherentAtIterator(m: Mesh, it: nat)
    requires Coherent(m) && it <= m.host.NumVerts()
    ensures Coherent(m.(vertIt := it))
  {
  }

  /** On a connected mesh the region a march has found is closed under
      adjacency only once it is the whole mesh, so `Stuck` cannot happen from
      a non-empty seed list. */
  lemma ConnectedMarchNeverStuck(h: Host, found: set<nat>, seeds: seq<nat>)
    requires Connected(h) && |seeds| > 0 && Elems(seeds) <= found && found <= AllVerts(h)
    requires Nbrs(h, found) <= found
    ensures |found| == h.NumVerts()
  {
    assert seeds[0] in found;
  }

  /** A march that stops with fewer vertices found than the mesh has, its
      region closed under adjacency, started on a disconnected mesh or from
      no seeds. */
  lemma StuckMeansDisconnected(h: Host, seeds: seq<nat>, rings: seq<seq<nat>>, found: set<nat>)
    requires MarchInvariant(h, seeds, rings, found)
    requires Nbrs(h, found) <= found && |found| < h.NumVerts()
    ensures !Connected(h) || |seeds| == 0
  {
    UnionHasRing(rings, 0);
    if Connected(h) && |seeds| > 0 {
      ConnectedMarchNeverStuck(h, found, seeds);
    }
  }
}

=== FILE: mesh_uv.dfy ===
/** The UV queries of `apiMesh.Mesh`: the cached per-vertex UVs, their
    bounds and UDIM tile, the Delaunay lookup of `get_closest_at_uv` and the
    closest-point lookup of `point_on_mesh`. scipy's triangulation and Maya's
    `MMeshIntersector` are parameters: the model takes whatever they return,
    under the constraints stated on them. */
module MeshUV {
  import opened Wrappers
  import opened Strings
  import opened Geometry
  import opened MeshHost
  import opened ApiMesh

  // ---------------------------------------------------------------- vertex UVs

  /** `get_vert_uvs(uv_set)`: filled once by walking the vertex iterator
      (which it resets and leaves at the end); later calls return the cached
      list whatever set they name. Reading a set the mesh does not have
      fails at the first vertex, so on a mesh without vertices the walk
      reads nothing and caches the empty list. */
  function GetVertUVs(m: Mesh, uvSet: UVSetName): (r: Result<(Mesh, seq<UV>), MeshError>)
    requires Coherent(m)
    ensures r.Failure? <==> m.cache.vertUVs.None? && uvSet !in m.host.uvSets && m.host.NumVerts() > 0
    ensures r.Failure? ==> r.error == UnknownUVSet
    ensures r.Success? ==>
      var (m1, uvs) := r.value;
      Coherent(m1) && m1.host == m.host && m1.cache.vertUVs == Some(uvs)
      && |uvs| == m.host.NumVerts()
      && (m.cache.vertUVs.None? ==> m1.vertIt == m.host.NumVerts())
      && (m.cache.vertUVs.None? && uvSet in m.host.uvSets ==> uvs == m.host.uvSets[uvSet])
      && (m.cache.vertUVs.Some? ==> m1 == m)
      && m1.cache.(vertUVs := m.cache.vertUVs) == m.cache
  {
    if m.cache.vertUVs.Some? then Success((m, m.cache.vertUVs.value))
    else if uvSet !in m.host.uvSets && m.host.NumVerts() > 0 then Failure(UnknownUVSet)
    else
      var uvs := if uvSet in m.host.uvSets then m.host.uvSets[uvSet] else [];
      Success((m.(cache := m.cache.(vertUVs := Some(uvs)), vertIt := m.host.NumVerts()), uvs))
  }

  /** Once a set's UVs are cached, asking for another set returns the first
      set's UVs. */
  lemma VertUVsSticky(m: Mesh, first: UVSetName, second: UVSetName)
    requires Coherent(m) && m.cache.vertUVs.None? && first in m.host.uvSets
    ensures var m1 := GetVertUVs(m, first).value.0;
      GetVertUVs(m1, second) == Success((m1, m.host.uvSets[first]))
  {
  }

  /** The UV list survives `clear_cache`. */
  lemma VertUVsSurviveClear(m: Mesh, uvSet: UVSetName)
    requires Coherent(m) && m.cache.vertUVs.Some?
    ensures GetVertUVs(ClearCache(m), uvSet).Success?
    ensures GetVertUVs(ClearCache(m), uvSet).value.1 == GetVertUVs(m, uvSet).value.1
  {
  }

  function Us(uvs: seq<UV>): (r: seq<real>)
    ensures |r| == |uvs| && forall k :: 0 <= k < |uvs| ==> r[k] == uvs[k].u
  {
    seq(|uvs|, k requires 0 <= k < |uvs| => uvs[k].u)
  }

  function Vs(uvs: seq<UV>): (r: seq<real>)
    ensures |r| == |uvs| && forall k :: 0 <= k < |uvs| ==> r[k] == uvs[k].v
  {
    seq(|uvs|, k requires 0 <= k < |uvs| => uvs[k].v)
  }

  /** `np.amin` of one column. */
  function MinOf(xs: seq<real>): (r: real)
    requires |xs| > 0
    ensures r in xs && forall k :: 0 <= k < |xs| ==> r <= xs[k]
  {
    if |xs| == 1 then xs[0]
    else
      var m := MinOf(xs[1..]);
      assert forall k :: 1 <= k < |xs| ==> xs[k] == xs[1..][k - 1];
      if xs[0] <= m then xs[0] else m
  }

  /** `np.amax` of one column. */
  function MaxOf(xs: seq<real>): (r: real)
    requires |xs| > 0
    ensures r in xs && forall k :: 0 <= k < |xs| ==> xs[k] <= r
  {
    if |xs| == 1 then xs[0]
    else
      var m := MaxOf(xs[1..]);
      assert forall k :: 1 <= k < |xs| ==> xs[k] == xs[1..][k - 1];
      if xs[0] >= m then xs[0] else m
  }

  datatype Bound = MinU | MaxU | MinV | MaxV

  /** `min_u`, `max_u`, `min_v`, `max_v`: a bound of the cached UVs; numpy
      raises on an empty mesh. */
  function UVBound(m: Mesh, uvSet: UVSetName, b: Bound): (r: Result<(Mesh, real), MeshError>)
    requires Coherent(m)
    ensures r.Success? ==> GetVertUVs(m, uvSet).Success? && r.value.0 == GetVertUVs(m, uvSet).value.0
    ensures r.Success? ==>
      var uvs := GetVertUVs(m, uvSet).value.1;
      var x := r.value.1;
      match b
      case MinU => x in Us(uvs) && forall k :: 0 <= k < |uvs| ==> x <= uvs[k].u
      case MaxU => x in Us(uvs) && forall k :: 0 <= k < |uvs| ==> uvs[k].u <= x
      case MinV => x in Vs(uvs) && forall k :: 0 <= k < |uvs| ==> x <= uvs[k].v
      case MaxV => x in Vs(uvs) && forall k :: 0 <= k < |uvs| ==> uvs[k].v <= x
    ensures r.Failure? <==> GetVertUVs(m, uvSet).Failure? || m.host.NumVerts() == 0
  {
    var (m1, uvs) :- GetVertUVs(m, uvSet);
    if |uvs| == 0 then Failure(EmptyUVs)
    else
      var x := match b
        case MinU => MinOf(Us(uvs))
        case MaxU => MaxOf(Us(uvs))
        case MinV => MinOf(Vs(uvs))
        case MaxV => MaxOf(Vs(uvs));
      Success((m1, x))
  }

  // ---------------------------------------------------------------- UDIM tile

  /** Python's `int()` on a float: truncation toward zero. */
  function Trunc(x: real): int {
    if x >= 0.0 then x.Floor else -((-x).Floor)
  }

  lemma TruncMonotone(x: real, y: real)
    requires x <= y
    ensures Trunc(x) <= Trunc(y)
  {
    if x < 0.0 && y < 0.0 {
      assert (-y).Floor <= (-x).Floor;
    }
  }

  /** The tile `get_uv_udim` reports for a non-empty UV list, as written: the
      v test compares `int(max_v)` with itself, so only the u axis is
      checked. */
  function UdimAsWritten(uvs: seq<UV>): (r: Option<(int, int)>)
    requires |uvs| > 0
    ensures r.Some? <==> Trunc(MinOf(Us(uvs))) == Trunc(MaxOf(Us(uvs)))
  {
    var minU, maxU := MinOf(Us(uvs)), MaxOf(Us(uvs));
    var minV, maxV := MinOf(Vs(uvs)), MaxOf(Vs(uvs));
    if Trunc(minU) == Trunc(maxU) && Trunc(maxV) == Trunc(maxV) then Some((Trunc(minU), Trunc(minV)))
    else None
  }

  /** The same test checking both axes. */
  function Udim(uvs: seq<UV>): Option<(int, int)>
    requires |uvs| > 0
  {
    var minU, maxU := MinOf(Us(uvs)), MaxOf(Us(uvs));
    var minV, maxV := MinOf(Vs(uvs)), MaxOf(Vs(uvs));
    if Trunc(minU) == Trunc(maxU) && Trunc(minV) == Trunc(maxV) then Some((Trunc(minU), Trunc(minV)))
    else None
  }

  /** Every UV lies in tile `t` (tiles as `int()` numbers them). */
  predicate AllInTile(uvs: seq<UV>, t: (int, int)) {
    forall k :: 0 <= k < |uvs| ==> Trunc(uvs[k].u) == t.0 && Trunc(uvs[k].v) == t.1
  }

  /** The corrected test reports a tile exactly when all UVs share one, and
      reports that tile. */
  lemma UdimIffSharedTile(uvs: seq<UV>, t: (int, int))
    requires |uvs| > 0
    ensures Udim(uvs) == Some(t) <==> AllInTile(uvs, t)
  {
    AxisTile(Us(uvs), t.0);
    AxisTile(Vs(uvs), t.1);
    assert AllInTile(uvs, t) <==> (AllTrunc(Us(uvs), t.0) && AllTrunc(Vs(uvs), t.1));
  }

  /** Every value of `xs` truncates to `t`. */
  predicate AllTrunc(xs: seq<real>, t: int) {
    forall k :: 0 <= k < |xs| ==> Trunc(xs[k]) == t
  }

  /** One axis: the least and the greatest value truncate to `t` exactly when
      every value does, since truncation is monotone. */
  lemma AxisTile(xs: seq<real>, t: int)
    requires |xs| > 0
    ensures Trunc(MinOf(xs)) == t && Trunc(MaxOf(xs)) == t <==> AllTrunc(xs, t)
  {
    var lo, hi := MinOf(xs), MaxOf(xs);
    if Trunc(lo) == t && Trunc(hi) == t {
      forall k | 0 <= k < |xs| ensures Trunc(xs[k]) == t {
        TruncMonotone(lo, xs[k]);
        TruncMonotone(xs[k], hi);
      }
    }
  }

  /** The as-written test accepts UVs that span two v tiles: (0.5, 0.5) and
      (0.5, 1.5) are reported as tile (0, 0), and the corrected test rejects
      them. */
  lemma UdimAsWrittenMissesV()
    ensures UdimAsWritten([UV(0.5, 0.5), UV(0.5, 1.5)]) == Some((0, 0))
    ensures Udim([UV(0.5, 0.5), UV(0.5, 1.5)]) == None
    ensures !AllInTile([UV(0.5, 0.5), UV(0.5, 1.5)], (0, 0))
  {
    var uvs := [UV(0.5, 0.5), UV(0.5, 1.5)];
    assert Us(uvs) == [0.5, 0.5];
    assert Vs(uvs) == [0.5, 1.5];
    assert Trunc(1.5) == 1;
  }

  /** `get_uv_udim(uv_set)` on the mesh: the UV list's tile as the code
      computes it; numpy raises on a mesh without vertices. */
  function GetUvUdim(m: Mesh, uvSet: UVSetName): (r: Result<(Mesh, Option<(int, int)>), MeshError>)
    requires Coherent(m)
    ensures r.Failure? <==> GetVertUVs(m, uvSet).Failure? || m.host.NumVerts() == 0
    ensures r.Success? ==>
      var uvs := GetVertUVs(m, uvSet).value.1;
      r.value.0 == GetVertUVs(m, uvSet).value.0
      && (r.value.1.Some? <==> Trunc(MinOf(Us(uvs))) == Trunc(MaxOf(Us(uvs))))
      && (r.value.1.Some? ==> r.value.1.value == (Trunc(MinOf(Us(uvs))), Trunc(MinOf(Vs(uvs)))))
  {
    var (m1, uvs) :- GetVertUVs(m, uvSet);
    if |uvs| == 0 then Failure(EmptyUVs)
    else Success((m1, UdimAsWritten(uvs)))
  }

  // ---------------------------------------------------------------- closest point at a UV

  /** `uv_triangulation(uv_set)`: the Delaunay triangulation of the vertex
      UVs, computed once by `delaunay`; it fails when the UVs cannot be
      read or qhull raises, as it does for fewer than three vertices. */
  function UvTriangulation(m: Mesh, uvSet: UVSetName, delaunay: seq<UV> -> Option<Triangulation>)
    : (r: Result<(Mesh, Triangulation), MeshError>)
    requires Coherent(m) && ValidDelaunay(delaunay)
    ensures r.Failure? <==>
      m.cache.uvTriangulation.None?
      && (GetVertUVs(m, uvSet).Failure? || delaunay(GetVertUVs(m, uvSet).value.1).None?)
    ensures m.cache.uvTriangulation.None? && m.host.NumVerts() < 3 ==> r.Failure?
    ensures r.Success? ==>
      var (m1, tri) := r.value;
      Coherent(m1) && m1.host == m.host && m1.cache.uvTriangulation == Some(tri)
      && (m.cache.uvTriangulation.None? ==>
            m1.cache.vertUVs.Some? && delaunay(m1.cache.vertUVs.value) == Some(tri))
    ensures r.Success? && m.cache.uvTriangulation.Some? ==> r.value.0 == m
    ensures r.Success? ==>
      var m1 := r.value.0;
      && m1.cache.(vertUVs := m.cache.vertUVs, uvTriangulation := m.cache.uvTriangulation) == m.cache
      && m1.vertIt == (if m.cache.uvTriangulation.None? && m.cache.vertUVs.None? then m.host.NumVerts() else m.vertIt)
  {
    if m.cache.uvTriangulation.Some? then Success((m, m.cache.uvTriangulation.value))
    else
      var (m1, uvs) :- GetVertUVs(m, uvSet);
      match delaunay(uvs)
      case None => Failure(QhullFailed)
      case Some(tri) => Success((m1.(cache := m1.cache.(uvTriangulation := Some(tri))), tri))
  }

  /** What `get_closest_at_uv` returns on a hit. */
  datatype Closest = Closest(point: Vec3, triIds: Tri, bary: Weights)

  /** `get_closest_at_uv(u, v, uv_set)`: finds the simplex holding `p` with
      `findSimplex` (-1 when none does), and on a hit weights the world-space
      positions of its corners by the barycentric coordinates. Fetching the
      points replaces the cached points with world-space ones. */
  function GetClosestAtUV(m: Mesh, p: UV, uvSet: UVSetName,
                          delaunay: seq<UV> -> Option<Triangulation>, findSimplex: (Triangulation, UV) -> int)
    : (r: Result<(Mesh, Option<Closest>), MeshError>)
    requires Coherent(m)
    requires ValidDelaunay(delaunay)
    requires forall t, q :: -1 <= findSimplex(t, q) < |t.simplices|
    ensures r.Failure? <==> UvTriangulation(m, uvSet, delaunay).Failure?
    ensures r.Success? ==>
      var tri := UvTriangulation(m, uvSet, delaunay).value.1;
      var (m1, hit) := r.value;
      Coherent(m1)
      && (hit.None? <==> findSimplex(tri, p) == -1)
      && (hit.Some? ==>
            var s := findSimplex(tri, p);
            var c := hit.value;
            var w := m.host.worldPoints;
            c.triIds == tri.simplices[s]
            && c.bary.w0 + c.bary.w1 + c.bary.w2 == 1.0
            && c.bary == Barycentric(tri.transforms[s], p)
            && c.point == Interpolate(w[c.triIds.v0], w[c.triIds.v1], w[c.triIds.v2], c.bary)
            && m1.cache.points == Some(w))
    ensures r.Success? ==>
      var m0 := UvTriangulation(m, uvSet, delaunay).value.0;
      r.value.0 == if r.value.1.None? then m0 else m0.(cache := m0.cache.(points := Some(m.host.worldPoints)))
  {
    var (m1, tri) :- UvTriangulation(m, uvSet, delaunay);
    var s := findSimplex(tri, p);
    if s > -1 then
      var corners := tri.simplices[s];
      var b := Barycentric(tri.transforms[s], p);
      var (m2, points) := Points(m1, WorldSpace);
      var point := Interpolate(points[corners.v0], points[corners.v1], points[corners.v2], b);
      Success((m2, Some(Closest(point, corners, b))))
    else Success((m1, None))
  }

  /** On an object whose UVs were never read, `get_closest_at_uv` walks the
      vertex iterator to the end through `get_vert_uvs` and touches no other
      cache than the UV list, the triangulation and the points. */
  lemma ClosestAtUVExhaustsIterator(m: Mesh, p: UV, uvSet: UVSetName,
                                    delaunay: seq<UV> -> Option<Triangulation>, findSimplex: (Triangulation, UV) -> int)
    requires Coherent(m) && m.cache.uvTriangulation.None? && m.cache.vertUVs.None?
    requires ValidDelaunay(delaunay)
    requires forall t, q :: -1 <= findSimplex(t, q) < |t.simplices|
    requires GetClosestAtUV(m, p, uvSet, delaunay, findSimplex).Success?
    ensures var m1 := GetClosestAtUV(m, p, uvSet, delaunay, findSimplex).value.0;
      && m1.vertIt == m.host.NumVerts()
      && m1.cache.(vertUVs := None, uvTriangulation := None, points := m.cache.points) == m.cache
  {
  }

  /** When the triangulation's transform is the exact barycentric transform
      of the simplex's UV triangle, interpolating the corners' UVs with the
      returned weights gives back the queried UV. */
  lemma ClosestAtUVInverse(m: Mesh, p: UV, uvSet: UVSetName,
                           delaunay: seq<UV> -> Option<Triangulation>, findSimplex: (Triangulation, UV) -> int)
    requires Coherent(m)
    requires ValidDelaunay(delaunay)
    requires forall t, q :: -1 <= findSimplex(t, q) < |t.simplices|
    requires UvTriangulation(m, uvSet, delaunay).Success?
    requires var (m1, tri) := UvTriangulation(m, uvSet, delaunay).value;
      var s := findSimplex(tri, p);
      s > -1 && m1.cache.vertUVs.Some? &&
      var uvs := m1.cache.vertUVs.value;
      var c := tri.simplices[s];
      ExactTransform(tri.transforms[s], uvs[c.v0], uvs[c.v1], uvs[c.v2])
    ensures var hit := GetClosestAtUV(m, p, uvSet, delaunay, findSimplex).value.1;
      var uvs := UvTriangulation(m, uvSet, delaunay).value.0.cache.vertUVs.value;
      hit.Some? &&
      var c := hit.value;
      InterpolateScalar(uvs[c.triIds.v0].u, uvs[c.triIds.v1].u, uvs[c.triIds.v2].u, c.bary) == p.u
      && InterpolateScalar(uvs[c.triIds.v0].v, uvs[c.triIds.v1].v, uvs[c.triIds.v2].v, c.bary) == p.v
  {
    var (m1, tri) := UvTriangulation(m, uvSet, delaunay).value;
    var s := findSimplex(tri, p);
    var uvs := m1.cache.vertUVs.value;
    var c := tri.simplices[s];
    BarycentricInverse(tri.transforms[s], uvs[c.v0], uvs[c.v1], uvs[c.v2], p);
  }

  // ---------------------------------------------------------------- closest point on the mesh

  /** The argument of `point_on_mesh`: one point, or a list of them. */
  datatype PointsArg = OnePoint(p: Vec3) | PointList(ps: seq<Vec3>)

  /** `if not isinstance(points, list): points = [points]`. */
  function AsList(a: PointsArg): (r: seq<Vec3>)
    ensures a.OnePoint? ==> r == [a.p]
    ensures a.PointList? ==> r == a.ps
  {
    match a
    case OnePoint(p) => [p]
    case PointList(ps) => ps
  }

  /** What `MMeshIntersector.getClosestPoint` reports: the face, the
      triangle within the face, and two barycentric coordinates. */
  datatype PointInfo = PointInfo(face: nat, triangle: nat, bu: real, bv: real)

  /** One entry of the result: the intersector's answer and the UV there. */
  datatype Hit = Hit(info: PointInfo, u: real, v: real)

  ghost predicate ValidIntersector(h: Host, closest: Vec3 -> PointInfo) {
    forall q :: ValidFaceTriangle(h, closest(q).face, closest(q).triangle)
  }

  /** The UV `point_on_mesh` reports for one point: the closest triangle's
      corner UVs weighted by `(b_u, b_v, 1 - (b_u + b_v))`. */
  function HitAt(h: Host, uvs: seq<UV>, closest: Vec3 -> PointInfo, q: Vec3): (r: Hit)
    requires h.Valid() && |uvs| == h.NumVerts() && ValidIntersector(h, closest)
    ensures r.info == closest(q)
  {
    var info := closest(q);
    var w := Complete(info.bu, info.bv);
    var t := FaceTriangle(h, info.face, info.triangle);
    Hit(info,
        InterpolateScalar(uvs[t.v0].u, uvs[t.v1].u, uvs[t.v2].u, w),
        InterpolateScalar(uvs[t.v0].v, uvs[t.v1].v, uvs[t.v2].v, w))
  }

  /** When the point's triangle has one UV on all corners, that is the UV
      reported, whatever the barycentric coordinates. */
  lemma HitAtFlatTriangle(h: Host, uvs: seq<UV>, closest: Vec3 -> PointInfo, q: Vec3)
    requires h.Valid() && |uvs| == h.NumVerts() && ValidIntersector(h, closest)
    requires var info := closest(q);
      var t := FaceTriangle(h, info.face, info.triangle);
      uvs[t.v0] == uvs[t.v1] == uvs[t.v2]
    ensures var info := closest(q);
      var t := FaceTriangle(h, info.face, info.triangle);
      HitAt(h, uvs, closest, q).u == uvs[t.v0].u && HitAt(h, uvs, closest, q).v == uvs[t.v0].v
  {
    var info := closest(q);
    var t := FaceTriangle(h, info.face, info.triangle);
    InterpolateScalarConstant(uvs[t.v0].u, Complete(info.bu, info.bv));
    InterpolateScalarConstant(uvs[t.v0].v, Complete(info.bu, info.bv));
  }

  /** `point_on_mesh(points, uv_set)`: one entry per input point, in order.
      Reading UVs of a set the mesh does not have fails as soon as there is
      a point to look up. The vertex iterator is left on the last corner it
      visited. */
  method PointOnMesh(m: Mesh, points: PointsArg, uvSet: UVSetName, closest: Vec3 -> PointInfo)
    returns (r: Result<(Mesh, seq<Hit>), MeshError>)
    requires Coherent(m) && ValidIntersector(m.host, closest)
    ensures r.Failure? <==> |AsList(points)| > 0 && uvSet !in m.host.uvSets
    ensures r.Success? ==>
      var (m1, hits) := r.value;
      var ps := AsList(points);
      Coherent(m1) && m1.host == m.host && m1.cache == m.cache
      && |hits| == |ps|
      && forall k :: 0 <= k < |ps| ==> hits[k] == HitAt(m.host, m.host.uvSets[uvSet], closest, ps[k])
    ensures r.Success? && |AsList(points)| == 0 ==> r.value.0 == m
    ensures r.Success? && |AsList(points)| > 0 ==>
      var q := AsList(points)[|AsList(points)| - 1];
      r.value.0.vertIt == FaceTriangle(m.host, closest(q).face, closest(q).triangle).v2
  {
    var ps := AsList(points);
    if |ps| == 0 {
      return Success((m, []));
    }
    if uvSet !in m.host.uvSets {
      return Failure(UnknownUVSet);
    }
    var uvs := m.host.uvSets[uvSet];
    var hits: seq<Hit> := [];
    var i := 0;
    while i < |ps|
      invariant 0 <= i <= |ps|
      invariant |hits| == i
      invariant forall k :: 0 <= k < i ==> hits[k] == HitAt(m.host, uvs, closest, ps[k])
    {
      hits := hits + [HitAt(m.host, uvs, closest, ps[i])];
      i := i + 1;
    }
    // Each lookup leaves the iterator on the third corner of its triangle,
    // so after the loop it rests on the last point's.
    var last := closest(ps[|ps| - 1]);
    var t := FaceTriangle(m.host, last.face, last.triangle);
    return Success((m.(vertIt := t.v2), hits));
  }
}

=== FILE: pipe_info_platform.dfy ===
/** The pipeline's `PipeInfoPlatform`: the same asset folder layout as the
    shelf's, but recording the folder it was given as the projects path. */
module PipeInfoPlatform {
  import opened Wrappers
  import opened Strings
  import opened AssetFolders
  import ShelfInfo

  /** The module constant `projectsPath`. */
  const ProjectsPath: String := "E:/Files/3D/"

  /** The object: the projects path the constructor records and, once
      `get_paths` has run, the folders. */
  datatype Platform = Platform(projectsPath: String, folders: Option<Folders>)

  /** `PipeInfoPlatform()`: records the projects root, no folders yet. */
  function New(): (p: Platform)
    ensures p.projectsPath == ProjectsPath && p.folders.None?
  {
    Platform(ProjectsPath, None)
  }

  /** `get_paths(all_projects_path)`: the argument is both the recorded
      path and the folder the layout hangs under. */
  function GetPaths(p: Platform, allProjectsPath: String): (r: Platform)
    ensures r.projectsPath == p.projectsPath && r.folders.Some?
    ensures r.folders.value.allProjectsPath == allProjectsPath
    ensures r.folders.value.streamsNames == ["proxy", "anim", "render", "blendshape"]
    ensures forall f :: f in FolderList(r.folders.value) ==>
      StartsWith(f, allProjectsPath) && EndsWith(f, "/")
  {
    LayoutRelative(allProjectsPath, allProjectsPath);
    p.(folders := Some(Layout(allProjectsPath, allProjectsPath)))
  }

  /** The shelf and the pipeline lay out the same folders for the same asset
      folder; only the recorded projects path differs. */
  lemma SameFoldersAsShelf(p: Platform, folder: String)
    ensures GetPaths(p, folder).folders.value == ShelfInfo.GetPaths(folder).(allProjectsPath := folder)
    ensures FolderList(GetPaths(p, folder).folders.value) == FolderList(ShelfInfo.GetPaths(folder))
  {
  }

  /** Calling `get_paths` again replaces the folders of the earlier call. */
  lemma GetPathsOverrides(p: Platform, a: String, b: String)
    ensures GetPaths(GetPaths(p, a), b) == GetPaths(p, b)
  {
  }
}

=== FILE: project_info.dfy ===
/** The project dictionary of the GUI: where an asset's scenes, publishes
    and data live for one pipeline step, under the fixed projects root. */
module ProjectInfo {
  import opened Wrappers
  import opened Strings

  /** `PROJECTS_FOLDER`, the root every project lives under. */
  const ProjectsFolder: String := "E:/Files/3D/"

  /** `get_project_path()`: the projects root, a folder path. */
  function GetProjectPath(): (r: String)
    ensures EndsWith(r, "/") && StartsWith(r, "E:/")
    ensures r == ProjectsFolder
  {
    ProjectsFolder
  }

  /** The rigging-only entries: the data sub-folders and the shared guide
      library. */
  datatype RiggingFolders = RiggingFolders(
    skinWeights: String, controlShapes: String, shaders: String,
    blendShapes: String, extraGeo: String, guides: String)

  /** An export folder and a scene folder, as the model and texture steps
      add them for their sculpting and painting tools. */
  datatype ToolFolders = ToolFolders(exports: String, scenes: String)

  /** The dictionary `project_info` returns; a key that is only set for
      some steps is an `Option`. */
  datatype ProjectDict = ProjectDict(
    project: String, asset: String, step: String,
    basePath: String, projectPath: String, assetPath: String,
    scene: String, publish: String, data: String,
    rigging: Option<RiggingFolders>,
    sculpt: Option<ToolFolders>,
    painter: Option<ToolFolders>)

  /** The step whose folder is used: guides are kept in the rigging folder. */
  function FolderStep(step: String): (r: String)
    ensures r != "guides"
    ensures step != "guides" ==> r == step
  {
    if step == "guides" then "rigging" else step
  }

  /** `project_info(project, asset, step)`. */
  function Info(project: String, asset: String, step: String): (d: ProjectDict)
    ensures d.step == step && d.project == project && d.asset == asset
    ensures d.basePath == GetProjectPath()
    ensures d.projectPath == d.basePath + project + "/"
    ensures d.assetPath == d.projectPath + asset + "/"
    ensures d.rigging.Some? <==> FolderStep(step) == "rigging"
    ensures d.sculpt.Some? <==> step == "model"
    ensures d.painter.Some? <==> step == "texture"
  {
    var folderStep := FolderStep(step);
    var base := ProjectsFolder;
    var projectsFolder := base + project + "/" + asset + "/";
    var data := projectsFolder + folderStep + "/work/data/";
    ProjectDict(
      project, asset, step,
      base, base + project + "/", base + project + "/" + asset + "/",
      projectsFolder + folderStep + "/work/scene/",
      projectsFolder + folderStep + "/publish/",
      data,
      if folderStep == "rigging" then
        Some(RiggingFolders(
          data + "skinweights/", data + "controlShapes/", data + "shaders/",
          data + "blendShapes/", data + "extraGeo/",
          base + "_Resources/Scripts/pup/assets/guides/"))
      else None,
      if folderStep == "model" then
        Some(ToolFolders(projectsFolder + folderStep + "/work/sculpt/export/",
                         projectsFolder + folderStep + "/work/sculpt/scene/"))
      else None,
      if folderStep == "texture" then
        Some(ToolFolders(projectsFolder + folderStep + "/work/painter/export/",
                         projectsFolder + folderStep + "/work/painter/scene/"))
      else None)
  }

  /** The step folders: scene, publish and data of the folder step, inside
      the asset folder. */
  lemma InfoStepFolders(project: String, asset: String, step: String)
    ensures var d := Info(project, asset, step);
      && d.scene == d.assetPath + FolderStep(step) + "/work/scene/"
      && d.publish == d.assetPath + FolderStep(step) + "/publish/"
      && d.data == d.assetPath + FolderStep(step) + "/work/data/"
  {
  }

  /** The rigging entries: five data sub-folders and the guide library under
      the projects root. */
  lemma InfoRiggingFolders(project: String, asset: String)
    ensures var d := Info(project, asset, "rigging");
      && d.rigging.Some?
      && d.rigging.value.skinWeights == d.data + "skinweights/"
      && d.rigging.value.controlShapes == d.data + "controlShapes/"
      && d.rigging.value.shaders == d.data + "shaders/"
      && d.rigging.value.blendShapes == d.data + "blendShapes/"
      && d.rigging.value.extraGeo == d.data + "extraGeo/"
      && d.rigging.value.guides == GetProjectPath() + "_Resources/Scripts/pup/assets/guides/"
  {
  }

  /** The tool folders of the model and texture steps sit in that step's
      work folder, inside the asset folder. */
  lemma InfoToolFolders(project: String, asset: String, step: String)
    ensures var d := Info(project, asset, step);
      && (d.sculpt.Some? ==>
            d.sculpt.value == ToolFolders(d.assetPath + "model" + "/work/sculpt/export/",
                                          d.assetPath + "model" + "/work/sculpt/scene/"))
      && (d.painter.Some? ==>
            d.painter.value == ToolFolders(d.assetPath + "texture" + "/work/painter/export/",
                                           d.assetPath + "texture" + "/work/painter/scene/"))
  {
  }

  /** Every path in the dictionary names a folder: it ends with "/". */
  predicate AllFolders(d: ProjectDict) {
    && EndsWith(d.basePath, "/") && EndsWith(d.projectPath, "/") && EndsWith(d.assetPath, "/")
    && EndsWith(d.scene, "/") && EndsWith(d.publish, "/") && EndsWith(d.data, "/")
    && (d.rigging.Some? ==>
          var r := d.rigging.value;
          && EndsWith(r.skinWeights, "/") && EndsWith(r.controlShapes, "/") && EndsWith(r.shaders, "/")
          && EndsWith(r.blendShapes, "/") && EndsWith(r.extraGeo, "/") && EndsWith(r.guides, "/"))
    && (d.sculpt.Some? ==> EndsWith(d.sculpt.value.exports, "/") && EndsWith(d.sculpt.value.scenes, "/"))
    && (d.painter.Some? ==> EndsWith(d.painter.value.exports, "/") && EndsWith(d.painter.value.scenes, "/"))
  }

  lemma EndsWithSlash(a: String, b: String)
    requires |b| > 0 && b[|b| - 1] == '/'
    ensures EndsWith(a + b, "/")
  {
    assert (a + b)[|a + b| - 1] == '/';
  }

  lemma InfoPathsAreFolders(project: String, asset: String, step: String)
    ensures AllFolders(Info(project, asset, step))
  {
    var d := Info(project, asset, step);
    var base := ProjectsFolder;
    var p := base + project + "/" + asset + "/" + FolderStep(step);
    EndsWithSlash([], base);
    EndsWithSlash(base + project, "/");
    EndsWithSlash(base + project + "/" + asset, "/");
    EndsWithSlash(p, "/work/scene/");
    EndsWithSlash(p, "/publish/");
    EndsWithSlash(p, "/work/data/");
    if d.rigging.Some? {
      EndsWithSlash(d.data, "skinweights/");
      EndsWithSlash(d.data, "controlShapes/");
      EndsWithSlash(d.data, "shaders/");
      EndsWithSlash(d.data, "blendShapes/");
      EndsWithSlash(d.data, "extraGeo/");
      EndsWithSlash(base, "_Resources/Scripts/pup/assets/guides/");
    }
    EndsWithSlash(p, "/work/sculpt/export/");
    EndsWithSlash(p, "/work/sculpt/scene/");
    EndsWithSlash(p, "/work/painter/export/");
    EndsWithSlash(p, "/work/painter/scene/");
  }

  /** The guides step reads and writes the rigging folders: its dictionary
      is the rigging one except for the step name it reports. */
  lemma GuidesUseRigging(project: String, asset: String)
    ensures Info(project, asset, "guides") == Info(project, asset, "rigging").(step := "guides")
  {
  }
}

=== FILE: shelf_info.dfy ===
/** The shelf's `scene_info`: finds the asset name and asset folder, from a
    path the user picked or from the open scene's file name, and lays out the
    asset's folders under it. The open scene's path is an input. */
module ShelfInfo {
  import opened Wrappers
  import opened Strings
  import opened UtilsLib
  import opened AssetFolders

  /** The module constant `projectsPath`. */
  const ProjectsPath: String := "E:/Files/3D/"

  /** What `project_load` and `project_from_scene` leave on the object. */
  datatype SceneInfo = SceneInfo(assetName: String, folderProject: String, folders: Folders)

  datatype InfoError =
    | EmptySeparator   // `str.split("")` raises ValueError

  /** `get_paths(folder_project)`: the layout of the given asset folder; the
      projects path it records is always the module constant. */
  function GetPaths(folderProject: String): (f: Folders)
    ensures f.allProjectsPath == ProjectsPath
    ensures f.streamsNames == ["proxy", "anim", "render", "blendshape"]
    ensures forall p :: p in FolderList(f) ==> StartsWith(p, folderProject) && EndsWith(p, "/")
  {
    LayoutRelative(ProjectsPath, folderProject);
    Layout(ProjectsPath, folderProject)
  }

  /** `project_load(path)`: the asset name is the last path segment (empty
      when the path ends with "/"), and the asset folder is the path with a
      "/" added only when missing. */
  function ProjectLoad(path: String): (r: SceneInfo)
    ensures '/' !in r.assetName && EndsWith(path, r.assetName)
    ensures r.assetName == path || path[|path| - |r.assetName| - 1] == '/'
    ensures EndsWith(r.folderProject, "/") && StartsWith(r.folderProject, path)
    ensures |r.folderProject| <= |path| + 1
    ensures r.folders == GetPaths(r.folderProject)
  {
    var folder := WithSlash(path);
    SceneInfo(AfterLast(path, '/'), folder, GetPaths(folder))
  }

  /** Loading a path that ends with "/" reads no asset name, and loading it
      again from the folder it produced changes nothing. */
  lemma ProjectLoadFolder(path: String)
    ensures var r := ProjectLoad(path);
      (EndsWith(path, "/") ==> r.assetName == "" && r.folderProject == path)
      && ProjectLoad(r.folderProject) == r.(assetName := "")
  {
    var r := ProjectLoad(path);
    var f := r.folderProject;
    assert f[|f| - 1] == '/';
    AfterLastUnique(f, '/', "");
    if EndsWith(path, "/") {
      assert path[|path| - 1] == '/';
      AfterLastUnique(path, '/', "");
    }
  }

  /** Loading `dir + name` for a folder `dir` and a name without "/" gives
      that name and the folder `dir + name + "/"`. */
  lemma ProjectLoadAsset(dir: String, name: String)
    requires EndsWith(dir, "/") && '/' !in name && name != ""
    ensures ProjectLoad(dir + name).assetName == name
    ensures ProjectLoad(dir + name).folderProject == dir + name + "/"
  {
    BumpKeepsFolderName(dir, name);
    LastOfName(dir, name);
    WithSlashAppends(dir + name);
  }

  lemma LastOfName(dir: String, name: String)
    requires '/' !in name && name != ""
    ensures (dir + name)[|dir + name| - 1] != '/'
  {
    assert (dir + name)[|dir + name| - 1] == name[|name| - 1];
  }

  lemma WithSlashAppends(p: String)
    requires |p| > 0 && p[|p| - 1] != '/'
    ensures WithSlash(p) == p + "/"
  {
    assert !EndsWith(p, "/");
  }

  /** The asset name `project_from_scene` reads: the scene's file name up to
      its first "_". */
  function SceneAssetName(scene: String): (r: String)
    ensures '/' !in r && '_' !in r
  {
    var r := BeforeFirst(AfterLast(scene, '/'), '_');
    assert forall i :: 0 <= i < |r| ==> r[i] == AfterLast(scene, '/')[i];
    r
  }

  /** `project_from_scene()` for the open scene's path: the asset folder is
      the path up to the first occurrence of the asset name, then the name
      and "/". An empty asset name makes `split` raise. */
  function ProjectFromScene(scene: String): (r: Result<SceneInfo, InfoError>)
    ensures r.Failure? <==> SceneAssetName(scene) == ""
    ensures r.Success? ==>
      var asset := SceneAssetName(scene);
      && r.value.assetName == asset
      && EndsWith(r.value.folderProject, asset + "/")
      && StartsWith(scene, r.value.folderProject[..|r.value.folderProject| - |asset| - 1])
      && r.value.folders == GetPaths(r.value.folderProject)
  {
    var asset := SceneAssetName(scene);
    if asset == "" then Failure(EmptySeparator)
    else
      var before := BeforeOccurrence(scene, asset);
      var folder := before + asset + "/";
      AssetFolderParts(before, asset);
      Success(SceneInfo(asset, folder, GetPaths(folder)))
  }

  lemma AssetFolderParts(before: String, asset: String)
    ensures var folder := before + asset + "/";
      folder[..|folder| - |asset| - 1] == before && EndsWith(folder, asset + "/")
  {
    var folder := before + asset + "/";
    assert folder == before + (asset + "/");
    assert folder[|folder| - |asset + "/"|..] == asset + "/";
  }

  /** For a scene saved as `root + asset + "/" + sub + asset + "_" + rest`,
      with the asset name nowhere in `root`, the scene reads back the asset
      and its folder `root + asset + "/"`. */
  lemma ProjectFromSceneFindsAsset(root: String, asset: String, sub: String, rest: String)
    requires asset != "" && '/' !in asset && '_' !in asset && '/' !in rest
    requires EndsWith(root, "/") && !Occurs(root, asset)
    requires sub == "" || EndsWith(sub, "/")
    ensures var scene := root + asset + "/" + sub + asset + "_" + rest;
      && ProjectFromScene(scene).Success?
      && ProjectFromScene(scene).value.assetName == asset
      && ProjectFromScene(scene).value.folderProject == root + asset + "/"
  {
    var scene := root + asset + "/" + sub + asset + "_" + rest;
    SceneAssetNameIn(root + asset + "/", sub, asset, rest);
    FirstOccurrenceAfterRoot(root, asset, sub, rest);
    BeforeOccurrenceUnique(scene, asset, root);
    ProjectFromSceneFolder(scene);
  }

  lemma ProjectFromSceneFolder(scene: String)
    requires SceneAssetName(scene) != ""
    ensures var asset := SceneAssetName(scene);
      ProjectFromScene(scene).value.folderProject == BeforeOccurrence(scene, asset) + asset + "/"
  {
  }

  lemma SceneAssetNameIn(top: String, sub: String, asset: String, rest: String)
    requires '/' !in asset && '_' !in asset && '/' !in rest
    requires |top| > 0 && top[|top| - 1] == '/'
    requires sub == "" || EndsWith(sub, "/")
    ensures SceneAssetName(top + sub + asset + "_" + rest) == asset
  {
    var dir := top + sub;
    assert top + sub + asset + "_" + rest == dir + (asset + "_" + rest);
    assert dir[|dir| - 1] == '/' by {
      if sub == "" { assert dir == top; }
      else { assert dir[|dir| - 1] == sub[|sub| - 1]; }
    }
    FileAssetName(dir, asset, rest);
  }

  /** The asset name of a scene file `asset + "_" + rest` in a folder. */
  lemma FileAssetName(dir: String, asset: String, rest: String)
    requires '/' !in asset && '_' !in asset && '/' !in rest
    requires |dir| > 0 && dir[|dir| - 1] == '/'
    ensures SceneAssetName(dir + (asset + "_" + rest)) == asset
  {
    var file := asset + "_" + rest;
    assert '/' !in file;
    assert EndsWith(dir, "/");
    BumpKeepsFolderName(dir, file);
    assert file[|asset|] == '_' && StartsWith(file, asset);
    BeforeFirstUnique(file, '_', asset);
  }

  /** The first occurrence of `asset` in a path that continues `root` with
      `asset` is right after `root`, when `root` ends with "/" and holds no
      copy of `asset`. */
  lemma FirstOccurrenceAfterRoot(root: String, asset: String, sub: String, rest: String)
    requires asset != "" && '/' !in asset
    requires EndsWith(root, "/") && !Occurs(root, asset)
    ensures var scene := root + asset + "/" + sub + asset + "_" + rest;
      && StartsWith(scene, root) && OccursAt(scene, asset, |root|)
      && forall i :: 0 <= i < |root| ==> !OccursAt(scene, asset, i)
  {
    var scene := root + asset + "/" + sub + asset + "_" + rest;
    assert scene[..|root|] == root;
    assert scene[|root|..|root| + |asset|] == asset;
    forall i | 0 <= i < |root| ensures !OccursAt(scene, asset, i) {
      if i + |asset| <= |root| {
        assert root[i..i + |asset|] == scene[i..i + |asset|];
        assert !OccursAt(root, asset, i);
      } else if i + |asset| <= |scene| {
        assert scene[i..i + |asset|][|root| - 1 - i] == root[|root| - 1] == '/';
      }
    }
  }
}

=== FILE: strings.dfy ===
/** The parts of Python's `str` that the pipeline helpers rely on, written
    out explicitly: `split`/`join` on one character, `startswith`/`endswith`,
    `replace`, `count`, `zfill`, `str(int)`, `int(str)`, `isalnum` and the
    ordering `sorted` uses. Characters are compared by code point, as Python 2
    compares the bytes of a `str`. */
module Strings {
  import opened Wrappers

  type String = seq<char>

  // ---------------------------------------------------------------- characters

  predicate IsDigit(c: char) {
    '0' <= c <= '9'
  }

  /** `str.isalnum` on one character of an ASCII string. */
  predicate IsAlnum(c: char) {
    IsDigit(c) || ('a' <= c <= 'z') || ('A' <= c <= 'Z')
  }

  /** The characters `str.strip()` and `int()` treat as white space. */
  predicate IsSpace(c: char) {
    c == ' ' || c == '\t' || c == '\n' || c == '\r' || c == '\U{B}' || c == '\U{C}'
  }

  predicate AllDigits(s: String) {
    forall i :: 0 <= i < |s| ==> IsDigit(s[i])
  }

  // ---------------------------------------------------------------- prefixes and suffixes

  predicate StartsWith(s: String, p: String) {
    |p| <= |s| && s[..|p|] == p
  }

  predicate EndsWith(s: String, p: String) {
    |p| <= |s| && s[|s| - |p|..] == p
  }

  /** `pat` occurs in `s` starting at index `i`. */
  predicate OccursAt(s: String, pat: String, i: int) {
    0 <= i && i + |pat| <= |s| && s[i..i + |pat|] == pat
  }

  predicate Occurs(s: String, pat: String) {
    exists i | 0 <= i <= |s| :: OccursAt(s, pat, i)
  }

  function Repeat(c: char, n: nat): (r: String)
    ensures |r| == n
    ensures forall i :: 0 <= i < n ==> r[i] == c
  {
    seq(n, _ => c)
  }

  // ---------------------------------------------------------------- split and join

  /** `sep.join(parts)`. */
  function Join(parts: seq<String>, sep: String): String
  {
    if |parts| == 0 then []
    else if |parts| == 1 then parts[0]
    else parts[0] + sep + Join(parts[1..], sep)
  }

  /** Index of the first `c` in `s` (`str.index`). */
  function IndexOf(s: String, c: char): (i: nat)
    requires c in s
    ensures i < |s| && s[i] == c && c !in s[..i]
  {
    if s[0] == c then 0
    else
      var j := IndexOf(s[1..], c);
      assert s[..j + 1] == [s[0]] + s[1..][..j];
      j + 1
  }

  /** `s.split(sep)` for a one-character separator: the maximal pieces free
      of `sep`, one more than there are separators. */
  function Split(s: String, sep: char): (parts: seq<String>)
    ensures |parts| == multiset(s)[sep] + 1
    ensures forall k :: 0 <= k < |parts| ==> sep !in parts[k]
    ensures Join(parts, [sep]) == s
    decreases |s|
  {
    if sep !in s then
      assert multiset(s)[sep] == 0;
      [s]
    else
      var i := IndexOf(s, sep);
      var rest := Split(s[i + 1..], sep);
      assert s == s[..i] + [sep] + s[i + 1..];
      assert multiset(s) == multiset(s[..i]) + multiset([sep]) + multiset(s[i + 1..]);
      assert ([s[..i]] + rest)[1..] == rest;
      [s[..i]] + rest
  }

  /** Splitting a join of pieces free of the separator gives the pieces
      back. */
  lemma {:induction false} SplitJoin(parts: seq<String>, sep: char)
    requires |parts| >= 1
    requires forall k :: 0 <= k < |parts| ==> sep !in parts[k]
    ensures Split(Join(parts, [sep]), sep) == parts
    decreases |parts|
  {
    if |parts| > 1 {
      var tail := Join(parts[1..], [sep]);
      SplitAtFirst(parts[0], sep, tail);
      SplitJoin(parts[1..], sep);
      assert parts == [parts[0]] + parts[1..];
    }
  }

  /** Splitting at the first separator: the piece before it, then the
      pieces of the rest. */
  lemma SplitAtFirst(p0: String, sep: char, tail: String)
    requires sep !in p0
    ensures Split(p0 + [sep] + tail, sep) == [p0] + Split(tail, sep)
  {
    var s := p0 + [sep] + tail;
    assert s[|p0|] == sep;
    var i := IndexOf(s, sep);
    assert s[..|p0|] == p0;
    assert i == |p0|;
    assert s[i + 1..] == tail;
  }

  /** Joining all pieces but the last and then the last piece gives back `s`. */
  lemma {:induction false} JoinInit(parts: seq<String>, sep: String)
    requires |parts| >= 2
    ensures Join(parts[..|parts| - 1], sep) + sep + parts[|parts| - 1] == Join(parts, sep)
    decreases |parts|
  {
    if |parts| == 2 {
      assert parts[..1] == [parts[0]];
      assert parts[1..] == [parts[1]];
    } else {
      var init := parts[..|parts| - 1];
      JoinInit(parts[1..], sep);
      assert init[1..] == parts[1..][..|parts[1..]| - 1];
      assert parts[1..][|parts[1..]| - 1] == parts[|parts| - 1];
    }
  }

  /** The last piece of a join is a suffix of the join, preceded by the
      separator when there is more than one piece. */
  lemma {:induction false} JoinLast(parts: seq<String>, sep: char)
    requires |parts| >= 1
    ensures EndsWith(Join(parts, [sep]), parts[|parts| - 1])
    ensures |parts| >= 2 ==>
      var s := Join(parts, [sep]);
      |parts[|parts| - 1]| < |s| && s[|s| - |parts[|parts| - 1]| - 1] == sep
  {
    if |parts| >= 2 {
      JoinInit(parts, [sep]);
      var s := Join(parts, [sep]);
      var last := parts[|parts| - 1];
      var front := Join(parts[..|parts| - 1], [sep]) + [sep];
      assert s == front + last;
      assert s[|s| - |last|..] == last;
      assert s[|s| - |last| - 1] == front[|front| - 1] == sep;
    }
  }

  /** `s.split(sep)[0]`: the text before the first separator, or all of `s`. */
  function BeforeFirst(s: String, sep: char): (r: String)
    ensures sep !in r
    ensures StartsWith(s, r)
    ensures r == s || (|r| < |s| && s[|r|] == sep)
  {
    var parts := Split(s, sep);
    assert |parts| >= 2 ==> parts[1..] != [];
    parts[0]
  }

  /** `s.split(sep)[-1]`: the text after the last separator, or all of `s`. */
  function AfterLast(s: String, sep: char): (r: String)
    ensures sep !in r
    ensures EndsWith(s, r)
    ensures r == s || (|r| < |s| && s[|s| - |r| - 1] == sep)
  {
    var parts := Split(s, sep);
    JoinLast(parts, sep);
    assert |parts| == 1 ==> Join(parts, [sep]) == parts[0];
    parts[|parts| - 1]
  }

  /** `sep.join(s.split(sep)[:-1])`: the text before the last separator
      (empty when `s` has none). */
  function BeforeLast(s: String, sep: char): String
  {
    var parts := Split(s, sep);
    Join(parts[..|parts| - 1], [sep])
  }

  /** When `s` has a separator, the text before the last one, the separator
      and the text after it make up `s`. */
  lemma BeforeLastAfterLast(s: String, sep: char)
    requires sep in s
    ensures BeforeLast(s, sep) + [sep] + AfterLast(s, sep) == s
  {
    var parts := Split(s, sep);
    assert multiset(s)[sep] > 0;
    JoinInit(parts, [sep]);
  }

  /** The last piece is the longest suffix free of the separator: any suffix
      free of `sep` and preceded by `sep` is it. */
  lemma AfterLastUnique(s: String, sep: char, r: String)
    requires sep !in r && EndsWith(s, r)
    requires |r| < |s| && s[|s| - |r| - 1] == sep
    ensures AfterLast(s, sep) == r
  {
    var a := AfterLast(s, sep);
    assert |a| == |r|;
  }

  /** The first piece is the longest prefix free of the separator: any
      prefix free of `sep` and followed by `sep` is it. */
  lemma BeforeFirstUnique(s: String, sep: char, r: String)
    requires sep !in r && StartsWith(s, r)
    requires |r| < |s| && s[|r|] == sep
    ensures BeforeFirst(s, sep) == r
  {
    var a := BeforeFirst(s, sep);
    assert a == s[..|a|] && r == s[..|r|];
  }

  /** A suffix of a suffix is a suffix. */
  lemma EndsWithTransitive(a: String, b: String, c: String)
    requires EndsWith(a, b) && EndsWith(b, c)
    ensures EndsWith(a, c)
  {
    assert a[|a| - |c|..] == a[|a| - |b|..][|b| - |c|..];
  }

  /** A character absent from a string is absent from each of its suffixes. */
  lemma EndsWithAbsent(a: String, b: String, c: char)
    requires EndsWith(a, b) && c !in a
    ensures c !in b
  {
    forall i | 0 <= i < |b| ensures b[i] != c {
      assert b[i] == a[|a| - |b| + i];
    }
  }

  // ---------------------------------------------------------------- replace

  /** `s.replace(pat, repl)`: every non-overlapping occurrence of `pat`,
      scanned left to right, is replaced by `repl`. */
  function Replace(s: String, pat: String, repl: String): String
    requires |pat| > 0
    decreases |s|
  {
    if |s| < |pat| then s
    else if s[..|pat|] == pat then repl + Replace(s[|pat|..], pat, repl)
    else [s[0]] + Replace(s[1..], pat, repl)
  }

  /** `s.split(pat)[0]` for a non-empty `pat`: the text before the first
      occurrence of `pat`, or all of `s` when there is none. */
  function BeforeOccurrence(s: String, pat: String): (r: String)
    requires |pat| > 0
    ensures StartsWith(s, r)
    ensures forall i :: 0 <= i < |r| ==> !OccursAt(s, pat, i)
    ensures r == s || OccursAt(s, pat, |r|)
    decreases |s|
  {
    if |s| < |pat| then s
    else if s[..|pat|] == pat then []
    else
      var rest := BeforeOccurrence(s[1..], pat);
      BeforeOccurrenceStep(s, pat, rest);
      [s[0]] + rest
  }

  /** The text before the first occurrence in `s[1..]`, with `s[0]` in front,
      is the text before the first occurrence in `s`, when `s` does not
      start with an occurrence. */
  lemma BeforeOccurrenceStep(s: String, pat: String, rest: String)
    requires |pat| > 0 && |s| >= |pat| && s[..|pat|] != pat
    requires StartsWith(s[1..], rest)
    requires forall i :: 0 <= i < |rest| ==> !OccursAt(s[1..], pat, i)
    requires rest == s[1..] || OccursAt(s[1..], pat, |rest|)
    ensures StartsWith(s, [s[0]] + rest)
    ensures forall i :: 0 <= i <= |rest| ==> !OccursAt(s, pat, i)
    ensures [s[0]] + rest == s || OccursAt(s, pat, |rest| + 1)
  {
    forall i | 1 <= i <= |rest| ensures !OccursAt(s, pat, i) {
      assert !OccursAt(s[1..], pat, i - 1);
      if i + |pat| <= |s| {
        assert s[1..][i - 1..i - 1 + |pat|] == s[i..i + |pat|];
      }
    }
    if rest != s[1..] {
      assert s[1..][|rest|..|rest| + |pat|] == s[|rest| + 1..|rest| + 1 + |pat|];
    }
    assert ([s[0]] + rest) == s[..|rest| + 1];
  }

  /** The text before the first occurrence is the prefix followed by `pat`
      with no earlier occurrence. */
  lemma BeforeOccurrenceUnique(s: String, pat: String, r: String)
    requires |pat| > 0 && StartsWith(s, r) && OccursAt(s, pat, |r|)
    requires forall i :: 0 <= i < |r| ==> !OccursAt(s, pat, i)
    ensures BeforeOccurrence(s, pat) == r
  {
    var b := BeforeOccurrence(s, pat);
    assert |b| == |r|;
    assert b == s[..|b|] && r == s[..|r|];
  }

  /** Replacing a string that does not occur leaves `s` unchanged. */
  lemma {:induction false} ReplaceAbsent(s: String, pat: String, repl: String)
    requires |pat| > 0 && !Occurs(s, pat)
    ensures Replace(s, pat, repl) == s
    decreases |s|
  {
    if |s| >= |pat| {
      assert !OccursAt(s, pat, 0);
      assert s[..|pat|] != pat;
      forall i | OccursAt(s[1..], pat, i) ensures false {
        assert s[1..][i..i + |pat|] == s[i + 1..i + 1 + |pat|];
        assert OccursAt(s, pat, i + 1);
      }
      ReplaceAbsent(s[1..], pat, repl);
    }
  }

  /** Replacing a string by itself leaves `s` unchanged. */
  lemma {:induction false} ReplaceSelf(s: String, x: String)
    requires |x| > 0
    ensures Replace(s, x, x) == s
    decreases |s|
  {
    if |s| >= |x| {
      if s[..|x|] == x {
        ReplaceSelf(s[|x|..], x);
        assert s == s[..|x|] + s[|x|..];
      } else {
        ReplaceSelf(s[1..], x);
        assert s == [s[0]] + s[1..];
      }
    }
  }

  /** Replacing one character by nothing removes every copy of it and
      keeps every other character, in order. */
  lemma {:induction false} ReplaceDeletes(s: String, c: char)
    ensures c !in Replace(s, [c], [])
    ensures Subsequence(Replace(s, [c], []), s)
    ensures multiset(Replace(s, [c], [])) == multiset(s)[c := 0]
    decreases |s|
  {
    if |s| >= 1 {
      var rest := Replace(s[1..], [c], []);
      ReplaceDeletes(s[1..], c);
      assert s == [s[0]] + s[1..];
      assert multiset(s) == multiset{s[0]} + multiset(s[1..]);
      if s[..1] == [c] {
        assert Replace(s, [c], []) == rest;
        SubsequenceSkip(s[0], rest, s[1..]);
      } else {
        assert s[0] != c;
        assert Replace(s, [c], []) == [s[0]] + rest;
        SubsequenceCons(s[0], rest, s[1..]);
        assert multiset([s[0]] + rest) == multiset{s[0]} + multiset(rest);
      }
    }
  }

  /** In `a + run + b`, where `run` is a non-empty block of `c` and `c` occurs
      nowhere else, replacing `run` rewrites that block only. */
  lemma {:induction false} ReplaceUniqueBlock(a: String, run: String, b: String, c: char, repl: String)
    requires |run| > 0 && run == Repeat(c, |run|)
    requires c !in a && c !in b
    ensures Replace(a + run + b, run, repl) == a + repl + b
    decreases |a|
  {
    var s := a + run + b;
    if |a| == 0 {
      assert s == run + b;
      assert s[..|run|] == run;
      assert s[|run|..] == b;
      forall i | 0 <= i <= |b| ensures !OccursAt(b, run, i) {
        if i + |run| <= |b| {
          assert b[i] != c;
          assert b[i..i + |run|][0] == b[i];
        }
      }
      ReplaceAbsent(b, run, repl);
    } else {
      assert s[0] == a[0] != c;
      assert s[..|run|] != run by {
        assert s[..|run|][0] != run[0];
      }
      assert s[1..] == a[1..] + run + b;
      ReplaceUniqueBlock(a[1..], run, b, c, repl);
      assert a == [a[0]] + a[1..];
    }
  }

  // ---------------------------------------------------------------- numbers

  function DigitChar(d: nat): (c: char)
    requires d < 10
    ensures IsDigit(c)
  {
    ('0' as int + d) as char
  }

  function DigitValue(c: char): (d: nat)
    requires IsDigit(c)
    ensures d < 10 && DigitChar(d) == c
  {
    c as int - '0' as int
  }

  /** Decimal digits of `n`, most significant first, without leading zeros. */
  function Decimal(n: nat): (r: String)
    ensures |r| >= 1 && AllDigits(r)
    ensures |r| > 1 ==> r[0] != '0'
    decreases n
  {
    if n < 10 then [DigitChar(n)] else Decimal(n / 10) + [DigitChar(n % 10)]
  }

  /** The number a string of decimal digits denotes. */
  function DigitsValue(s: String): nat
    requires AllDigits(s)
  {
    if |s| == 0 then 0 else 10 * DigitsValue(s[..|s| - 1]) + DigitValue(s[|s| - 1])
  }

  /** `str(n)` for a Python integer. */
  function PyStr(n: int): String
  {
    if n < 0 then "-" + Decimal(-n) else Decimal(n)
  }

  /** `s.zfill(width)`: pad with zeros on the left (after a sign) to `width`. */
  function ZFill(s: String, width: nat): (r: String)
    ensures |r| == if |s| >= width then |s| else width
  {
    if |s| >= width then s
    else if |s| > 0 && (s[0] == '+' || s[0] == '-') then [s[0]] + Repeat('0', width - |s|) + s[1..]
    else Repeat('0', width - |s|) + s
  }

  /** `str.strip()` of white space. */
  function Strip(s: String): (r: String)
    ensures |r| <= |s|
    ensures |r| > 0 ==> !IsSpace(r[0]) && !IsSpace(r[|r| - 1])
    decreases |s|
  {
    if |s| > 0 && IsSpace(s[0]) then Strip(s[1..])
    else if |s| > 0 && IsSpace(s[|s| - 1]) then Strip(s[..|s| - 1])
    else s
  }

  /** `int(s)` for a base-ten string: `None` where Python raises ValueError. */
  function ParseInt(s: String): Option<int>
  {
    var t := Strip(s);
    if |t| > 1 && (t[0] == '+' || t[0] == '-') && AllDigits(t[1..]) then
      var v: int := DigitsValue(t[1..]);
      Some(if t[0] == '-' then -v else v)
    else if |t| > 0 && AllDigits(t) then Some(DigitsValue(t))
    else None
  }

  lemma {:induction false} DigitsValueDecimal(n: nat)
    ensures DigitsValue(Decimal(n)) == n
    decreases n
  {
    if n >= 10 {
      DigitsValueDecimal(n / 10);
      var r := Decimal(n);
      assert r[..|r| - 1] == Decimal(n / 10);
    }
  }

  /** Leading zeros do not change the value of a digit string. */
  lemma {:induction false} DigitsValueLeadingZeros(k: nat, d: String)
    requires AllDigits(d)
    ensures AllDigits(Repeat('0', k) + d)
    ensures DigitsValue(Repeat('0', k) + d) == DigitsValue(d)
    decreases |d|
  {
    var z := Repeat('0', k);
    if |d| == 0 {
      assert z + d == z;
      ZerosValue(k);
    } else {
      var s := z + d;
      assert s[..|s| - 1] == z + d[..|d| - 1];
      DigitsValueLeadingZeros(k, d[..|d| - 1]);
    }
  }

  lemma {:induction false} ZerosValue(k: nat)
    ensures DigitsValue(Repeat('0', k)) == 0
    decreases k
  {
    if k > 0 {
      assert Repeat('0', k)[..k - 1] == Repeat('0', k - 1);
      ZerosValue(k - 1);
    }
  }

  /** A string with no white space at either end is its own strip. */
  lemma StripNoSpace(s: String)
    requires |s| > 0 ==> !IsSpace(s[0]) && !IsSpace(s[|s| - 1])
    ensures Strip(s) == s
  {
  }

  /** `int(str(n).zfill(w)) == n`: padding a rendered integer keeps its value. */
  lemma ParseZFill(n: int, w: nat)
    ensures ParseInt(ZFill(PyStr(n), w)) == Some(n)
  {
    if n < 0 {
      ParseZFillNegative(n, w);
    } else {
      ParseZFillNatural(n, w);
    }
  }

  lemma ParseZFillNatural(n: nat, w: nat)
    ensures ParseInt(ZFill(PyStr(n), w)) == Some(n)
  {
    var d := Decimal(n);
    DigitsValueDecimal(n);
    var k := if |d| >= w then 0 else w - |d|;
    assert ZFill(d, w) == Repeat('0', k) + d by {
      if |d| >= w {
        assert Repeat('0', 0) + d == d;
      }
    }
    DigitsValueLeadingZeros(k, d);
    ParseUnsigned(Repeat('0', k) + d);
  }

  lemma ParseZFillNegative(n: int, w: nat)
    requires n < 0
    ensures ParseInt(ZFill(PyStr(n), w)) == Some(n)
  {
    var m: nat := -n;
    var d := Decimal(m);
    var k := if 1 + |d| >= w then 0 else w - 1 - |d|;
    var t := Repeat('0', k) + d;
    ZFillNegativeParts(n, w, k);
    DigitsValueLeadingZeros(k, d);
    DigitsValueDecimal(m);
    ParseMinusDigits(ZFill(PyStr(n), w), t, m);
  }

  lemma ZFillNegativeParts(n: int, w: nat, k: nat)
    requires n < 0
    requires k == if 1 + |Decimal(-n)| >= w then 0 else w - 1 - |Decimal(-n)|
    ensures ZFill(PyStr(n), w) == "-" + (Repeat('0', k) + Decimal(-n))
  {
    ZFillSigned(Decimal(-n), w);
  }

  lemma ParseMinusDigits(z: String, t: String, m: nat)
    requires z == "-" + t && |t| > 0 && AllDigits(t) && DigitsValue(t) == m
    ensures ParseInt(z) == Some(-(m as int))
  {
    ParseSigned(t);
  }

  /** A padded number holds only digits and a minus sign. */
  lemma ZFillNumberChars(n: int, w: nat)
    ensures forall c :: c in ZFill(PyStr(n), w) ==> IsDigit(c) || c == '-'
  {
    var s := PyStr(n);
    assert forall c :: c in s ==> IsDigit(c) || c == '-';
    assert forall c :: c in Repeat('0', w) ==> IsDigit(c);
  }

  lemma ZFillSigned(d: String, w: nat)
    ensures ZFill("-" + d, w) == "-" + (Repeat('0', if 1 + |d| >= w then 0 else w - 1 - |d|) + d)
  {
    var s := "-" + d;
    assert s[1..] == d;
    if 1 + |d| >= w {
      assert Repeat('0', 0) + d == d;
    } else {
      var z := Repeat('0', w - |s|);
      assert [s[0]] + z + s[1..] == "-" + (z + d);
    }
  }

  /** `int` of a plain digit string is its value. */
  lemma ParseUnsigned(t: String)
    requires |t| > 0 && AllDigits(t)
    ensures ParseInt(t) == Some(DigitsValue(t))
  {
    assert !IsSpace(t[0]) && !IsSpace(t[|t| - 1]);
    StripNoSpace(t);
  }

  /** `int` of a minus sign and a digit string is the negated value. */
  lemma ParseSigned(t: String)
    requires |t| > 0 && AllDigits(t)
    ensures ParseInt("-" + t) == Some(-(DigitsValue(t) as int))
  {
    var r := "-" + t;
    assert r[|r| - 1] == t[|t| - 1];
    StripNoSpace(r);
    assert r[1..] == t;
  }

  /** `str` is injective on integers. */
  lemma PyStrInjective(a: int, b: int)
    requires PyStr(a) == PyStr(b)
    ensures a == b
  {
    ParseZFill(a, 0);
    ParseZFill(b, 0);
  }

  /** Re-rendering the value of a digit run at the run's own width gives the
      run back: `str(int(d)).zfill(len(d)) == d`. */
  lemma ZFillOwnWidth(d: String)
    requires |d| >= 1 && AllDigits(d)
    ensures ZFill(PyStr(DigitsValue(d)), |d|) == d
  {
    var v := DigitsValue(d);
    PaddedDecimal(d);
    ZFillDigits(Decimal(v), |d|);
  }

  /** `zfill` of an unsigned digit string pads it with zeros. */
  lemma ZFillDigits(t: String, w: nat)
    requires |t| >= 1 && AllDigits(t) && |t| <= w
    ensures ZFill(t, w) == Repeat('0', w - |t|) + t
  {
    if |t| == w {
      assert Repeat('0', 0) + t == t;
    } else {
      assert IsDigit(t[0]);
    }
  }

  /** A digit run is its value's decimal digits after some zeros. */
  predicate PaddedDecimalOf(d: String)
    requires AllDigits(d)
  {
    var t := Decimal(DigitsValue(d));
    |t| <= |d| && d == Repeat('0', |d| - |t|) + t
  }

  lemma {:induction false} PaddedDecimal(d: String)
    requires |d| >= 1 && AllDigits(d)
    ensures PaddedDecimalOf(d)
    decreases |d|
  {
    if |d| == 1 {
      PaddedOne(d);
    } else {
      var d' := d[..|d| - 1];
      PaddedDecimal(d');
      if DigitsValue(d') == 0 {
        PaddedZeroStep(d);
      } else {
        PaddedStep(d);
      }
    }
  }

  lemma PaddedOne(d: String)
    requires |d| == 1 && AllDigits(d)
    ensures PaddedDecimalOf(d)
  {
    assert d[..0] == [];
    assert Decimal(DigitsValue(d)) == [DigitChar(DigitValue(d[0]))];
    assert Repeat('0', 0) + d == d;
  }

  lemma PaddedZeroStep(d: String)
    requires |d| >= 2 && AllDigits(d)
    requires DigitsValue(d[..|d| - 1]) == 0 && PaddedDecimalOf(d[..|d| - 1])
    ensures PaddedDecimalOf(d)
  {
    var d', c := d[..|d| - 1], d[|d| - 1];
    assert DigitsValue(d) == DigitValue(c);
    assert Decimal(DigitValue(c)) == [DigitChar(DigitValue(c))];
    assert Decimal(0) == ['0'];
    forall i | 0 <= i < |d| - 1 ensures d[i] == '0' {
      assert d[i] == d'[i];
      if i < |d'| - 1 {
        assert d'[i] == Repeat('0', |d'| - 1)[i];
      } else {
        assert d'[i] == Decimal(0)[0];
      }
    }
    assert d == Repeat('0', |d| - 1) + [c];
  }

  lemma PaddedStep(d: String)
    requires |d| >= 2 && AllDigits(d)
    requires DigitsValue(d[..|d| - 1]) > 0 && PaddedDecimalOf(d[..|d| - 1])
    ensures PaddedDecimalOf(d)
  {
    var d', c := d[..|d| - 1], d[|d| - 1];
    var v := DigitsValue(d);
    var t' := Decimal(DigitsValue(d'));
    var z := Repeat('0', |d'| - |t'|);
    assert v >= 10 && v / 10 == DigitsValue(d') && v % 10 == DigitValue(c);
    assert Decimal(v) == t' + [c];
    assert d == d' + [c] == z + t' + [c];
    assert z + t' + [c] == z + (t' + [c]);
  }

  // ---------------------------------------------------------------- ordering

  /** Python's `<=` on strings: lexicographic by code point, a prefix first. */
  predicate LexLe(a: String, b: String)
    decreases |a|
  {
    |a| == 0 || (|b| > 0 && (a[0] < b[0] || (a[0] == b[0] && LexLe(a[1..], b[1..]))))
  }

  lemma {:induction false} LexLeTotal(a: String, b: String)
    ensures LexLe(a, b) || LexLe(b, a)
    decreases |a|
  {
    if |a| > 0 && |b| > 0 && a[0] == b[0] {
      LexLeTotal(a[1..], b[1..]);
    }
  }

  lemma {:induction false} LexLeTransitive(a: String, b: String, c: String)
    requires LexLe(a, b) && LexLe(b, c)
    ensures LexLe(a, c)
    decreases |a|
  {
    if |a| > 0 && a[0] == b[0] && b[0] == c[0] {
      LexLeTransitive(a[1..], b[1..], c[1..]);
    }
  }

  lemma {:induction false} LexLeAntisymmetric(a: String, b: String)
    requires LexLe(a, b) && LexLe(b, a)
    ensures a == b
    decreases |a|
  {
    if |a| > 0 {
      LexLeAntisymmetric(a[1..], b[1..]);
      assert a == [a[0]] + a[1..];
      assert b == [b[0]] + b[1..];
    }
  }

  /** `sorted(xs)[-1]`: the greatest string of a non-empty list. */
  function Greatest(xs: seq<String>): (r: String)
    requires |xs| > 0
    ensures r in xs
    ensures forall i :: 0 <= i < |xs| ==> LexLe(xs[i], r)
  {
    if |xs| == 1 then
      LexLeReflexive(xs[0]);
      xs[0]
    else
      var m := Greatest(xs[..|xs| - 1]);
      var x := xs[|xs| - 1];
      LexLeTotal(m, x);
      LexLeReflexive(x);
      LexLeReflexive(m);
      if LexLe(m, x) then
        GreatestStep(xs[..|xs| - 1], m, x);
        assert xs == xs[..|xs| - 1] + [x];
        x
      else
        assert xs == xs[..|xs| - 1] + [x];
        m
  }

  lemma {:induction false} LexLeReflexive(a: String)
    ensures LexLe(a, a)
    decreases |a|
  {
    if |a| > 0 {
      LexLeReflexive(a[1..]);
    }
  }

  lemma GreatestStep(xs: seq<String>, m: String, x: String)
    requires forall i :: 0 <= i < |xs| ==> LexLe(xs[i], m)
    requires LexLe(m, x)
    ensures forall i :: 0 <= i < |xs| ==> LexLe(xs[i], x)
  {
    forall i | 0 <= i < |xs| ensures LexLe(xs[i], x) {
      LexLeTransitive(xs[i], m, x);
    }
  }

  /** The greatest element is the only one every element is below. */
  lemma GreatestUnique(xs: seq<String>, y: String)
    requires |xs| > 0 && y in xs
    requires forall i :: 0 <= i < |xs| ==> LexLe(xs[i], y)
    ensures y == Greatest(xs)
  {
    var g := Greatest(xs);
    var i :| 0 <= i < |xs| && xs[i] == g;
    var j :| 0 <= j < |xs| && xs[j] == y;
    LexLeAntisymmetric(g, y);
  }

  // ---------------------------------------------------------------- filtering

  /** `a` is `b` with some elements left out, the rest in order. */
  predicate Subsequence<T(==)>(a: seq<T>, b: seq<T>)
    decreases |b|
  {
    |a| == 0 || (|b| > 0 && ((a[0] == b[0] && Subsequence(a[1..], b[1..])) || Subsequence(a, b[1..])))
  }

  lemma SubsequenceCons<T>(x: T, a: seq<T>, b: seq<T>)
    requires Subsequence(a, b)
    ensures Subsequence([x] + a, [x] + b)
  {
    assert ([x] + a)[1..] == a;
    assert ([x] + b)[1..] == b;
  }

  lemma SubsequenceSkip<T>(x: T, a: seq<T>, b: seq<T>)
    requires Subsequence(a, b)
    ensures Subsequence(a, [x] + b)
  {
    assert ([x] + b)[1..] == b;
  }
}

=== FILE: transform_lib.dfy ===
/** The offset groups of the transform library: `null_grps` names a stack
    of empty groups and parents a node under them, and `top_parent` walks up
    the hierarchy. The Maya scene is modelled as a parent map; only the
    hierarchy is modelled, not the transforms `match` and `freeze` change. */
module TransformLib {
  import opened Wrappers
  import opened Strings

  // ---------------------------------------------------------------- group names

  /** A Python string argument that is set and not empty (`if name:`). */
  predicate Truthy(s: Option<String>) {
    s.Some? && s.value != ""
  }

  /** `name.count("#")`. */
  function HashCount(name: String): nat {
    multiset(name)['#']
  }

  /** The name of offset group `itr`:
      - a name with "#" has the block of all its "#" replaced by the number,
        zero-padded to the count of "#";
      - a name without "#" gets the number appended;
      - with only a node, the first group is the node plus "_GRP" and the
        others are numbered offsets of the node without its "_GRP";
      - with neither, a numbered "null" group. */
  function GroupName(node: Option<String>, name: Option<String>, itr: nat): String {
    var num := PyStr(itr + 1);
    if Truthy(name) then
      var n := name.value;
      if '#' in n then
        var count := HashCount(n);
        Replace(n, Repeat('#', count), ZFill(num, count))
      else n + num
    else if Truthy(node) then
      var v := node.value;
      if itr == 0 && !EndsWith(v, "_GRP") then v + "_GRP"
      else if EndsWith(v, "_GRP") then v[..|v| - 4] + "_offset" + num + "_GRP"
      else v + "_offset" + num + "_GRP"
    else "null_" + num + "_GRP"
  }

  lemma {:induction false} RepeatCount(c: char, n: nat)
    ensures multiset(Repeat(c, n))[c] == n
  {
    if n > 0 {
      RepeatCount(c, n - 1);
      assert Repeat(c, n) == Repeat(c, n - 1) + [c];
    }
  }

  lemma MiddleCancel(a: String, x: String, y: String, b: String)
    requires a + x + b == a + y + b
    ensures x == y
  {
    assert |x| == |y|;
    assert x == (a + x + b)[|a|..|a| + |x|];
    assert y == (a + y + b)[|a|..|a| + |y|];
  }

  /** A name whose "#" form one block: the block becomes the group number
      at the block's width (`my_###_GRP` gives `my_001_GRP`, ...). */
  lemma HashBlockName(node: Option<String>, a: String, count: nat, b: String, itr: nat)
    requires count > 0 && '#' !in a && '#' !in b
    ensures GroupName(node, Some(a + Repeat('#', count) + b), itr) == a + ZFill(PyStr(itr + 1), count) + b
  {
    var n := a + Repeat('#', count) + b;
    RepeatCount('#', count);
    assert multiset(a)['#'] == 0 && multiset(b)['#'] == 0;
    assert multiset(n) == multiset(a) + multiset(Repeat('#', count)) + multiset(b);
    assert n[|a|] == '#';
    ReplaceUniqueBlock(a, Repeat('#', count), b, '#', ZFill(PyStr(itr + 1), count));
  }

  /** A name whose "#" are scattered has no block of all of them, so it is
      used unchanged for every group. */
  lemma HashScatteredName(node: Option<String>, n: String, itr: nat)
    requires '#' in n && !Occurs(n, Repeat('#', HashCount(n)))
    ensures GroupName(node, Some(n), itr) == n
  {
    ReplaceAbsent(n, Repeat('#', HashCount(n)), ZFill(PyStr(itr + 1), HashCount(n)));
  }

  /** The groups of one call get different names, except when the "#" of
      the name are scattered. */
  lemma GroupNamesDistinct(node: Option<String>, name: Option<String>, i: nat, j: nat)
    requires i != j
    requires Truthy(name) && '#' in name.value ==>
      exists a, count, b :: count > 0 && '#' !in a && '#' !in b && name.value == a + Repeat('#', count) + b
    ensures GroupName(node, name, i) != GroupName(node, name, j)
  {
    if Truthy(name) && '#' in name.value {
      var a, count, b :| count > 0 && '#' !in a && '#' !in b && name.value == a + Repeat('#', count) + b;
      HashNamesDistinct(node, a, count, b, i, j);
    } else {
      OtherNamesDistinct(node, name, i, j);
    }
  }

  lemma HashNamesDistinct(node: Option<String>, a: String, count: nat, b: String, i: nat, j: nat)
    requires i != j && count > 0 && '#' !in a && '#' !in b
    ensures var name := Some(a + Repeat('#', count) + b);
      GroupName(node, name, i) != GroupName(node, name, j)
  {
    var zi, zj := ZFill(PyStr(i + 1), count), ZFill(PyStr(j + 1), count);
    HashBlockName(node, a, count, b, i);
    HashBlockName(node, a, count, b, j);
    ZFillDistinct(i + 1, j + 1, count);
    if a + zi + b == a + zj + b {
      MiddleCancel(a, zi, zj, b);
    }
  }

  lemma ZFillDistinct(m: int, n: int, w: nat)
    requires m != n
    ensures ZFill(PyStr(m), w) != ZFill(PyStr(n), w)
  {
    ParseZFill(m, w);
    ParseZFill(n, w);
  }

  lemma OtherNamesDistinct(node: Option<String>, name: Option<String>, i: nat, j: nat)
    requires i != j && !(Truthy(name) && '#' in name.value)
    ensures GroupName(node, name, i) != GroupName(node, name, j)
  {
    var pi, pj := PyStr(i + 1), PyStr(j + 1);
    if pi == pj {
      PyStrInjective(i + 1, j + 1);
    }
    if Truthy(name) {
      var n := name.value;
      if n + pi == n + pj {
        MiddleCancel(n, pi, pj, []);
      }
    } else if Truthy(node) {
      var v := node.value;
      var base := if EndsWith(v, "_GRP") then v[..|v| - 4] else v;
      if (i == 0 || j == 0) && !EndsWith(v, "_GRP") {
        assert |GroupName(node, name, i)| != |GroupName(node, name, j)|;
      } else if base + "_offset" + pi + "_GRP" == base + "_offset" + pj + "_GRP" {
        MiddleCancel(base + "_offset", pi, pj, "_GRP");
      }
    } else if "null_" + pi + "_GRP" == "null_" + pj + "_GRP" {
      MiddleCancel("null_", pi, pj, "_GRP");
    }
  }

  // ---------------------------------------------------------------- the hierarchy

  /** A node of the scene: one that existed before, or the `k`-th group a
      call created. */
  datatype NodeId = Existing(name: String) | NewGroup(k: nat)

  /** The scene as a parent map: a node without an entry sits at the top. */
  type Scene = map<NodeId, NodeId>

  /** A scene before the call: it holds no group of the call yet. */
  predicate Before(scene: Scene) {
    forall n :: n in scene ==> n.Existing? && scene[n].Existing?
  }

  /** `parents` steps up from `n`; `None` when the top is passed. */
  function Up(scene: Scene, n: NodeId, steps: nat): Option<NodeId>
    decreases steps
  {
    if steps == 0 then Some(n)
    else if n in scene then Up(scene, scene[n], steps - 1)
    else None
  }

  /** The groups parented in a chain, group `k` under group `k + 1`. */
  function Chain(scene: Scene, amount: nat): (r: Scene)
    requires Before(scene)
    ensures forall n :: n in r <==> n in scene || (n.NewGroup? && n.k + 1 < amount)
    ensures forall n :: n in scene ==> r[n] == scene[n]
    ensures forall k: nat :: k + 1 < amount ==> r[NewGroup(k)] == NewGroup(k + 1)
  {
    if amount <= 1 then scene
    else Chain(scene, amount - 1)[NewGroup(amount - 2) := NewGroup(amount - 1)]
  }

  datatype Grouping = Grouping(names: seq<String>, scene: Scene)

  datatype TransformError =
    | NoGroups        // `grps[-1]` of an empty list raises IndexError
    | NoMatchTarget   // `match(..., str(None))` queries a node "None" that does not exist

  /** The groups and the hierarchy after the call, for at least one group:
      `amount` groups named by `GroupName`, chained, the outermost given the
      node's former parent and the node put under the innermost unless
      `empty`. */
  function Grouped(scene: Scene, node: Option<String>, name: Option<String>, empty: bool, amount: nat)
    : (g: Grouping)
    requires Before(scene) && amount > 0
    ensures |g.names| == amount
    ensures forall k :: 0 <= k < amount ==> g.names[k] == GroupName(node, name, k)
  {
    var names := seq(amount, k requires 0 <= k => GroupName(node, name, k));
    var chained := Chain(scene, amount);
    var top := NewGroup(amount - 1);
    var placed :=
      if Truthy(node) && Existing(node.value) in scene then chained[top := scene[Existing(node.value)]]
      else chained;
    var moved := if Truthy(node) && !empty then placed[Existing(node.value) := NewGroup(0)] else placed;
    Grouping(names, moved)
  }

  /** `null_grps(node, referenceNode, name, empty=empty, amount=amount)` as
      written: the outermost group is matched to `referenceNode` when it is
      given and to `str(node)` otherwise, so without either the match
      target is the string "None" and the call raises. Zero groups raise
      first, at `grps[-1]`. */
  function NullGrps(scene: Scene, node: Option<String>, referenceNode: Option<String>,
                    name: Option<String>, empty: bool, amount: nat)
    : (r: Result<Grouping, TransformError>)
    requires Before(scene)
    ensures r.Failure? <==> amount == 0 || (!Truthy(referenceNode) && !Truthy(node))
    ensures r.Failure? ==> r.error == if amount == 0 then NoGroups else NoMatchTarget
    ensures r.Success? ==>
      && |r.value.names| == amount
      && forall k :: 0 <= k < amount ==> r.value.names[k] == GroupName(node, name, k)
  {
    if amount == 0 then Failure(NoGroups)
    else if !Truthy(referenceNode) && !Truthy(node) then Failure(NoMatchTarget)
    else Success(Grouped(scene, node, name, empty, amount))
  }

  /** `null_grps` with the match skipped when there is nothing to match,
      as the `null_#_GRP` names for a call without a node suggest: it fails
      only for zero groups. */
  function NullGrpsIntended(scene: Scene, node: Option<String>, name: Option<String>, empty: bool, amount: nat)
    : (r: Result<Grouping, TransformError>)
    requires Before(scene)
    ensures r.Failure? <==> amount == 0
    ensures r.Success? ==>
      && |r.value.names| == amount
      && forall k :: 0 <= k < amount ==> r.value.names[k] == GroupName(node, name, k)
  {
    if amount == 0 then Failure(NoGroups) else Success(Grouped(scene, node, name, empty, amount))
  }

  /** Where the call as written succeeds it agrees with the intended one;
      it fails besides exactly when there is no match target. */
  lemma NullGrpsAgree(scene: Scene, node: Option<String>, referenceNode: Option<String>,
                      name: Option<String>, empty: bool, amount: nat)
    requires Before(scene)
    ensures NullGrps(scene, node, referenceNode, name, empty, amount).Success? ==>
      NullGrps(scene, node, referenceNode, name, empty, amount) == NullGrpsIntended(scene, node, name, empty, amount)
    ensures NullGrps(scene, node, referenceNode, name, empty, amount).Success? <==>
      NullGrpsIntended(scene, node, name, empty, amount).Success? && (Truthy(referenceNode) || Truthy(node))
  {
  }

  /** A call with neither a node nor a reference node raises as written,
      although the intended call names its groups `null_1_GRP`, ... */
  lemma NullGrpsWithoutTarget(scene: Scene, amount: nat)
    requires Before(scene) && amount > 0
    ensures NullGrps(scene, None, None, None, true, amount) == Failure(NoMatchTarget)
    ensures NullGrpsIntended(scene, None, None, true, amount).Success?
    ensures NullGrpsIntended(scene, None, None, true, amount).value.names[0] == "null_1_GRP"
  {
  }

  /** Every other node keeps its parent. */
  lemma NullGrpsKeepsOthers(scene: Scene, node: Option<String>, name: Option<String>, empty: bool,
                            amount: nat, n: NodeId)
    requires Before(scene) && amount > 0 && n.Existing?
    requires !(Truthy(node) && !empty && n == Existing(node.value))
    ensures var after := NullGrpsIntended(scene, node, name, empty, amount).value.scene;
      (n in after <==> n in scene) && (n in scene ==> after[n] == scene[n])
  {
  }

  /** Walking up from group `j` of the chain passes the later groups. */
  lemma ChainUp(scene: Scene, node: Option<String>, name: Option<String>, empty: bool,
                amount: nat, j: nat, steps: nat)
    requires Before(scene) && j + steps < amount
    ensures Up(NullGrpsIntended(scene, node, name, empty, amount).value.scene, NewGroup(j), steps) == Some(NewGroup(j + steps))
  {
    NullGrpsChain(scene, node, name, empty, amount);
    ChainWalk(NullGrpsIntended(scene, node, name, empty, amount).value.scene, amount, j, steps);
  }

  /** After the call, group `k` sits under group `k + 1`. */
  lemma NullGrpsChain(scene: Scene, node: Option<String>, name: Option<String>, empty: bool, amount: nat)
    requires Before(scene) && amount > 0
    ensures var after := NullGrpsIntended(scene, node, name, empty, amount).value.scene;
      forall k: nat :: k + 1 < amount ==> NewGroup(k) in after && after[NewGroup(k)] == NewGroup(k + 1)
  {
  }

  lemma {:induction false} ChainWalk(after: Scene, amount: nat, j: nat, steps: nat)
    requires forall k: nat :: k + 1 < amount ==> NewGroup(k) in after && after[NewGroup(k)] == NewGroup(k + 1)
    requires j + steps < amount
    ensures Up(after, NewGroup(j), steps) == Some(NewGroup(j + steps))
    decreases steps
  {
    if steps > 0 {
      ChainWalk(after, amount, j + 1, steps - 1);
    }
  }

  /** Walking `a + b` steps is walking `a` steps and then `b`. */
  lemma {:induction false} UpCompose(scene: Scene, n: NodeId, a: nat, b: nat)
    ensures Up(scene, n, a + b) == if Up(scene, n, a).Some? then Up(scene, Up(scene, n, a).value, b) else None
    decreases a
  {
    if a > 0 && n in scene {
      UpCompose(scene, scene[n], a - 1, b);
    }
  }

  /** Above a node that is put in its groups come the groups, innermost
      first, and then the node's former parent, if it had one. */
  lemma NullGrpsStack(scene: Scene, node: String, name: Option<String>, amount: nat)
    requires Before(scene) && node != "" && amount > 0
    ensures var after := NullGrpsIntended(scene, Some(node), name, false, amount).value.scene;
      && (forall k: nat :: 1 <= k <= amount ==> Up(after, Existing(node), k) == Some(NewGroup(k - 1)))
      && Up(after, Existing(node), amount + 1) ==
           (if Existing(node) in scene then Some(scene[Existing(node)]) else None)
  {
    var after := NullGrpsIntended(scene, Some(node), name, false, amount).value.scene;
    forall k: nat | 1 <= k <= amount ensures Up(after, Existing(node), k) == Some(NewGroup(k - 1)) {
      ChainUp(scene, Some(node), name, false, amount, 0, k - 1);
    }
    ChainUp(scene, Some(node), name, false, amount, 0, amount - 1);
    UpCompose(after, Existing(node), amount, 1);
    assert Up(after, NewGroup(amount - 1), 1) ==
      (if Existing(node) in scene then Some(scene[Existing(node)]) else None);
  }

  // ---------------------------------------------------------------- top parent

  /** `top_parent(node)`: follows parent links until a node has none. A
      visited node is dropped from the map, so on a cycle (which a Maya
      hierarchy cannot hold) the walk stops instead of looping. */
  function TopParent(scene: Scene, n: NodeId): (r: NodeId)
    ensures r == n || r in scene.Values
    decreases |scene.Keys|
  {
    if n in scene then
      var p := scene[n];
      var rest := scene - {n};
      assert |rest.Keys| < |scene.Keys| by {
        assert rest.Keys < scene.Keys;
      }
      var r := TopParent(rest, p);
      assert r == p || r in scene.Values;
      r
    else n
  }

  /** A hierarchy without cycles: every parent is strictly shallower. */
  ghost predicate Layered(scene: Scene, depth: NodeId -> nat) {
    forall n :: n in scene ==> depth(scene[n]) < depth(n)
  }

  /** The root above `n`, by induction on depth. */
  ghost function Root(scene: Scene, depth: NodeId -> nat, n: NodeId): NodeId
    requires Layered(scene, depth)
    decreases depth(n)
  {
    if n in scene then Root(scene, depth, scene[n]) else n
  }

  /** The root has no parent and the root of a parentless node is itself. */
  lemma {:induction false} RootIsTop(scene: Scene, depth: NodeId -> nat, n: NodeId)
    requires Layered(scene, depth)
    ensures Root(scene, depth, n) !in scene
    ensures n !in scene ==> Root(scene, depth, n) == n
    ensures n in scene ==> Root(scene, depth, n) == Root(scene, depth, scene[n])
    decreases depth(n)
  {
    if n in scene {
      RootIsTop(scene, depth, scene[n]);
    }
  }

  /** On a hierarchy without cycles `top_parent` finds the root. */
  lemma TopParentIsRoot(scene: Scene, depth: NodeId -> nat, n: NodeId)
    requires Layered(scene, depth)
    ensures TopParent(scene, n) == Root(scene, depth, n)
    ensures TopParent(scene, n) !in scene
  {
    TopParentOfPart(scene, scene, depth, n);
    RootIsTop(scene, depth, n);
  }

  /** The walk on what is left of the map after dropping visited nodes, all
      deeper than the current one, still finds the root. */
  lemma {:induction false} TopParentOfPart(scene: Scene, part: Scene, depth: NodeId -> nat, m: NodeId)
    requires Layered(scene, depth)
    requires forall k :: k in part ==> k in scene && part[k] == scene[k]
    requires forall k :: k in scene && k !in part ==> depth(k) > depth(m)
    ensures TopParent(part, m) == Root(scene, depth, m)
    decreases |part.Keys|
  {
    if m in part {
      var p := scene[m];
      var rest := part - {m};
      assert rest.Keys < part.Keys;
      TopParentOfPart(scene, rest, depth, p);
    }
  }
}

=== FILE: utils_lib.dfy ===
/** The pure helpers of the pipeline's utility library: picking the latest
    file of a folder, bumping the version number in its name, reading guide
    namespaces, merging dictionaries and filtering names. The file system is
    not modelled: the list a glob returned is an input. */
module UtilsLib {
  import opened Wrappers
  import opened Strings

  // ---------------------------------------------------------------- latest file

  /** The folder with a trailing "/" added when it is missing. */
  function WithSlash(folder: String): (r: String)
    ensures EndsWith(r, "/")
    ensures StartsWith(r, folder) && |r| <= |folder| + 1
    ensures EndsWith(folder, "/") ==> r == folder
  {
    if EndsWith(folder, "/") then folder else folder + "/"
  }

  /** The file name taken from a glob result: the text after the last "/",
      and then after the last "\\" when a Windows separator is left. */
  function BaseName(path: String): (r: String)
    ensures '/' !in r && '\\' !in r
    ensures EndsWith(path, r)
    ensures r == path || path[|path| - |r| - 1] == '/' || path[|path| - |r| - 1] == '\\'
  {
    var v := AfterLast(path, '/');
    var w := if v != "" && '\\' in v then AfterLast(v, '\\') else v;
    BaseNameParts(path, v, w);
    w
  }

  lemma BaseNameParts(path: String, v: String, w: String)
    requires v == AfterLast(path, '/')
    requires w == if v != "" && '\\' in v then AfterLast(v, '\\') else v
    ensures '/' !in w && '\\' !in w && EndsWith(path, w)
    ensures w == path || path[|path| - |w| - 1] == '/' || path[|path| - |w| - 1] == '\\'
  {
    if w != v {
      EndsWithAbsent(v, w, '/');
      EndsWithTransitive(path, v, w);
      assert path[|path| - |w| - 1] == v[|v| - |w| - 1];
    }
  }

  /** `files[i]` is a greatest element of `files`, the one `sorted(files)[-1]` picks. */
  predicate IsLatest(files: seq<String>, i: int)
  {
    0 <= i < |files| && forall j :: 0 <= j < |files| ==> LexLe(files[j], files[i])
  }

  /** `import_latest(folder, wildcard)`, where `files` is what the glob of
      the folder and wildcard returned. With no match the source catches the
      IndexError and returns None. */
  function ImportLatest(folder: String, files: seq<String>): (r: Option<String>)
    ensures r.None? <==> |files| == 0
    ensures r.Some? ==> exists i :: IsLatest(files, i) && r.value == WithSlash(folder) + BaseName(files[i])
  {
    if |files| == 0 then None
    else
      var latest := Greatest(files);
      var i :| 0 <= i < |files| && files[i] == latest;
      assert IsLatest(files, i);
      Some(WithSlash(folder) + BaseName(latest))
  }

  /** Every latest file has the same base name, so the choice is well defined. */
  lemma LatestIsUnique(files: seq<String>, i: int, j: int)
    requires IsLatest(files, i) && IsLatest(files, j)
    ensures files[i] == files[j]
  {
    LexLeAntisymmetric(files[i], files[j]);
  }

  // ---------------------------------------------------------------- version numbers

  datatype VersionError =
    | NoMatchingFile     // nothing matched: the source prints an error and returns None
    | NoDigitsInName     // `re.findall(r'\d+', name)[0]` raises IndexError

  /** The first maximal run of digits of `s` starts at `i` and is `run`. */
  predicate IsFirstDigitRun(s: String, run: String, i: int)
  {
    && |run| > 0 && AllDigits(run) && OccursAt(s, run, i)
    && (forall k :: 0 <= k < i ==> !IsDigit(s[k]))
    && (i + |run| == |s| || !IsDigit(s[i + |run|]))
  }

  function SkipNonDigits(s: String, i: nat): (j: nat)
    requires i <= |s|
    ensures i <= j <= |s|
    ensures forall k :: i <= k < j ==> !IsDigit(s[k])
    ensures j < |s| ==> IsDigit(s[j])
    decreases |s| - i
  {
    if i == |s| || IsDigit(s[i]) then i else SkipNonDigits(s, i + 1)
  }

  function SkipDigits(s: String, i: nat): (j: nat)
    requires i <= |s|
    ensures i <= j <= |s|
    ensures forall k :: i <= k < j ==> IsDigit(s[k])
    ensures j < |s| ==> !IsDigit(s[j])
    decreases |s| - i
  {
    if i == |s| || !IsDigit(s[i]) then i else SkipDigits(s, i + 1)
  }

  /** `re.findall(r'\d+', s)[0]`, or None where the source raises. */
  function FirstDigitRun(s: String): (r: Option<String>)
    ensures r.None? <==> forall k :: 0 <= k < |s| ==> !IsDigit(s[k])
    ensures r.Some? ==> exists i :: IsFirstDigitRun(s, r.value, i)
  {
    var i := SkipNonDigits(s, 0);
    if i == |s| then None
    else
      var j := SkipDigits(s, i);
      assert IsFirstDigitRun(s, s[i..j], i);
      Some(s[i..j])
  }

  /** `str(int(run) + offset).zfill(len(run))`. */
  function NewNumber(run: String, offset: int): String
    requires AllDigits(run)
  {
    ZFill(PyStr(DigitsValue(run) + offset), |run|)
  }

  /** The new number reads back as the old one plus the offset, and keeps the
      old width unless it needs more digits. */
  lemma NewNumberValue(run: String, offset: int)
    requires AllDigits(run)
    ensures ParseInt(NewNumber(run, offset)) == Some(DigitsValue(run) + offset)
    ensures |NewNumber(run, offset)| == if |PyStr(DigitsValue(run) + offset)| >= |run| then |PyStr(DigitsValue(run) + offset)| else |run|
  {
    var n := DigitsValue(run) + offset;
    assert NewNumber(run, offset) == ZFill(PyStr(n), |run|);
    ParseZFill(n, |run|);
  }

  /** Adding zero reproduces the run itself. */
  lemma NewNumberZero(run: String)
    requires |run| > 0 && AllDigits(run)
    ensures NewNumber(run, 0) == run
  {
    ZFillOwnWidth(run);
  }

  /** The name of the latest file with every copy of its first digit run
      replaced by the bumped number, in the latest file's directory. */
  function Bump(path: String, offset: int): Result<String, VersionError>
  {
    var name := AfterLast(path, '/');
    var dir := BeforeLast(path, '/') + "/";
    match FirstDigitRun(name)
    case None => Failure(NoDigitsInName)
    case Some(run) => Success(dir + Replace(name, run, NewNumber(run, offset)))
  }

  /** `version_up_path(folder, wildcard)`: the latest file's name with its
      first number incremented. */
  function VersionUpPath(folder: String, files: seq<String>): (r: Result<String, VersionError>)
    ensures r == Failure(NoMatchingFile) <==> |files| == 0
  {
    match ImportLatest(folder, files)
    case None => Failure(NoMatchingFile)
    case Some(sceneFile) => Bump(sceneFile, 1)
  }

  /** `version_by_integer(folder, wildcard, integer)`: the same, moving the
      number by an arbitrary offset. */
  function VersionByInteger(folder: String, files: seq<String>, offset: int): (r: Result<String, VersionError>)
    ensures r == Failure(NoMatchingFile) <==> |files| == 0
  {
    match ImportLatest(WithSlash(folder), files)
    case None => Failure(NoMatchingFile)
    case Some(sceneFile) => Bump(sceneFile, offset)
  }

  /** Versioning up is moving the version by one. */
  lemma VersionUpIsByOne(folder: String, files: seq<String>)
    ensures VersionUpPath(folder, files) == VersionByInteger(folder, files, 1)
  {
  }

  /** The path `Bump` returns sits in the latest file's folder, and its name
      is the latest name with the run replaced. */
  lemma BumpKeepsFolder(dir: String, name: String, offset: int, run: String)
    requires EndsWith(dir, "/") && '/' !in name
    requires FirstDigitRun(name) == Some(run)
    ensures Bump(dir + name, offset) == Success(dir + Replace(name, run, NewNumber(run, offset)))
  {
    var path := dir + name;
    assert path[|path| - |name| - 1] == dir[|dir| - 1] == '/';
    assert EndsWith(path, name);
    AfterLastUnique(path, '/', name);
    assert '/' in path;
    BeforeLastAfterLast(path, '/');
    var front := BeforeLast(path, '/') + "/";
    assert front + name == dir + name;
    assert front == (front + name)[..|front|];
  }

  /** A version offset of zero gives back the latest file's own path. */
  lemma VersionByZeroIsLatest(folder: String, files: seq<String>, latest: String)
    requires ImportLatest(WithSlash(folder), files) == Some(latest)
    requires exists k :: 0 <= k < |AfterLast(latest, '/')| && IsDigit(AfterLast(latest, '/')[k])
    ensures VersionByInteger(folder, files, 0) == Success(latest)
  {
    var i :| IsLatest(files, i) && latest == WithSlash(WithSlash(folder)) + BaseName(files[i]);
    var dir := WithSlash(WithSlash(folder));
    var name := BaseName(files[i]);
    assert AfterLast(latest, '/') == name by {
      BumpKeepsFolderName(dir, name);
    }
    var run := FirstDigitRun(name).value;
    BumpKeepsFolder(dir, name, 0, run);
    NewNumberZero(run);
    ReplaceSelf(name, run);
  }

  lemma BumpKeepsFolderName(dir: String, name: String)
    requires EndsWith(dir, "/") && '/' !in name
    ensures AfterLast(dir + name, '/') == name
  {
    var path := dir + name;
    assert path[|path| - |name| - 1] == dir[|dir| - 1] == '/';
    assert EndsWith(path, name);
    AfterLastUnique(path, '/', name);
  }

  /** Version up of a folder whose latest file has digits in its name: the
      result is in the folder, and its name is the latest name with every
      copy of the first digit run replaced by the next number. */
  lemma VersionUpPathShape(folder: String, files: seq<String>)
    requires |files| > 0
    requires forall i :: IsLatest(files, i) ==> FirstDigitRun(BaseName(files[i])).Some?
    ensures VersionUpPath(folder, files).Success?
    ensures exists i :: (IsLatest(files, i) &&
      var name := BaseName(files[i]);
      var run := FirstDigitRun(name).value;
      VersionUpPath(folder, files) == Success(WithSlash(folder) + Replace(name, run, NewNumber(run, 1))))
  {
    var r := ImportLatest(folder, files);
    assert r.Some?;
    var i :| IsLatest(files, i) && r.value == WithSlash(folder) + BaseName(files[i]);
    var name := BaseName(files[i]);
    var run := FirstDigitRun(name).value;
    BumpKeepsFolder(WithSlash(folder), name, 1, run);
  }

  /** Bumping 999 widens the number to four digits. */
  lemma NewNumberWidens()
    ensures NewNumber("999", 1) == "1000"
  {
    assert "999"[..2] == "99" && "99"[..1] == "9" && "9"[..0] == "";
    assert DigitsValue("999") == 999;
    assert Decimal(1000) == "1000" by {
      assert Decimal(1) == "1";
      assert Decimal(10) == "10";
      assert Decimal(100) == "100";
    }
  }

  // ---------------------------------------------------------------- guide namespaces

  /** A namespace `guide_namespaces` reports has exactly two underscores. */
  predicate IsGuideNamespace(ns: String)
  {
    multiset(ns)['_'] == 2
  }

  /** Prefix and part put back together with the "_" between them. */
  function Rejoin(prefixes: seq<String>, parts: seq<String>): (r: seq<String>)
    requires |prefixes| == |parts|
    ensures |r| == |prefixes|
  {
    seq(|prefixes|, k requires 0 <= k < |prefixes| => prefixes[k] + "_" + parts[k])
  }

  /** What `guide_namespaces` promises about its two lists for the given
      namespaces: each prefix and part come from splitting a guide namespace
      at its last "_", in order, and every guide namespace is there as often
      as in the input. */
  ghost predicate GuideResult(r: (seq<String>, seq<String>), namespaces: seq<String>)
  {
    && |r.0| == |r.1|
    && SplitPairs(r.0, r.1)
    && Subsequence(Rejoin(r.0, r.1), namespaces)
    && forall x :: multiset(Rejoin(r.0, r.1))[x] == if IsGuideNamespace(x) then multiset(namespaces)[x] else 0
  }

  /** `guide_namespaces()` given the scene's namespaces: for each with two
      underscores, the text before the last "_" and the text after it. */
  function GuideNamespaces(namespaces: seq<String>): (r: (seq<String>, seq<String>))
    ensures |r.0| == |r.1|
    ensures SplitPairs(r.0, r.1)
    ensures Subsequence(Rejoin(r.0, r.1), namespaces)
    ensures forall x :: multiset(Rejoin(r.0, r.1))[x] == if IsGuideNamespace(x) then multiset(namespaces)[x] else 0
  {
    if |namespaces| == 0 then ([], [])
    else
      var rest := GuideNamespaces(namespaces[1..]);
      GuideStep(namespaces[0], namespaces[1..], rest);
      assert namespaces == [namespaces[0]] + namespaces[1..];
      GuideCons(namespaces[0], rest)
  }

  /** One namespace more in front: split it when it is a guide namespace. */
  function GuideCons(ns: String, rest: (seq<String>, seq<String>)): (seq<String>, seq<String>)
  {
    if IsGuideNamespace(ns) then ([BeforeLast(ns, '_')] + rest.0, [AfterLast(ns, '_')] + rest.1)
    else rest
  }

  lemma GuideStep(ns: String, tail: seq<String>, rest: (seq<String>, seq<String>))
    requires GuideResult(rest, tail)
    ensures GuideResult(GuideCons(ns, rest), [ns] + tail)
  {
    if IsGuideNamespace(ns) {
      GuideKeep(ns, tail, rest);
    } else {
      GuideCount(ns, Rejoin(rest.0, rest.1), tail);
      SubsequenceSkip(ns, Rejoin(rest.0, rest.1), tail);
    }
  }

  lemma GuideKeep(ns: String, tail: seq<String>, rest: (seq<String>, seq<String>))
    requires GuideResult(rest, tail) && IsGuideNamespace(ns)
    ensures GuideResult(([BeforeLast(ns, '_')] + rest.0, [AfterLast(ns, '_')] + rest.1), [ns] + tail)
  {
    var prefix := BeforeLast(ns, '_');
    var part := AfterLast(ns, '_');
    GuideNamespaceSplit(ns);
    RejoinCons(prefix, part, rest.0, rest.1);
    assert Rejoin([prefix] + rest.0, [part] + rest.1) == [ns] + Rejoin(rest.0, rest.1);
    GuideCount(ns, Rejoin(rest.0, rest.1), tail);
    SplitPairsCons(prefix, part, rest.0, rest.1);
    SubsequenceCons(ns, Rejoin(rest.0, rest.1), tail);
  }

  /** Counting guide namespaces one namespace further: a guide namespace
      is kept, any other dropped. */
  lemma GuideCount(ns: String, kept: seq<String>, tail: seq<String>)
    requires forall x :: multiset(kept)[x] == if IsGuideNamespace(x) then multiset(tail)[x] else 0
    ensures IsGuideNamespace(ns) ==>
      forall x :: multiset([ns] + kept)[x] == if IsGuideNamespace(x) then multiset([ns] + tail)[x] else 0
    ensures !IsGuideNamespace(ns) ==>
      forall x :: multiset(kept)[x] == if IsGuideNamespace(x) then multiset([ns] + tail)[x] else 0
  {
    assert multiset([ns] + kept) == multiset{ns} + multiset(kept);
    assert multiset([ns] + tail) == multiset{ns} + multiset(tail);
  }

  /** A guide namespace splits at its last "_" into a prefix holding the
      other underscore and a part holding none. */
  lemma GuideNamespaceSplit(ns: String)
    requires IsGuideNamespace(ns)
    ensures BeforeLast(ns, '_') + "_" + AfterLast(ns, '_') == ns
    ensures multiset(BeforeLast(ns, '_'))['_'] == 1 && '_' !in AfterLast(ns, '_')
  {
    var prefix := BeforeLast(ns, '_');
    var part := AfterLast(ns, '_');
    assert '_' in multiset(ns);
    BeforeLastAfterLast(ns, '_');
    assert multiset(ns) == multiset(prefix) + multiset(['_']) + multiset(part);
  }

  /** Each prefix holds one "_" and each part none. */
  predicate SplitPairs(prefixes: seq<String>, parts: seq<String>)
    requires |prefixes| == |parts|
  {
    forall k :: 0 <= k < |prefixes| ==> multiset(prefixes[k])['_'] == 1 && '_' !in parts[k]
  }

  lemma SplitPairsCons(p: String, q: String, ps: seq<String>, qs: seq<String>)
    requires |ps| == |qs| && SplitPairs(ps, qs)
    requires multiset(p)['_'] == 1 && '_' !in q
    ensures SplitPairs([p] + ps, [q] + qs)
  {
    forall k | 0 <= k < |ps| + 1
      ensures multiset(([p] + ps)[k])['_'] == 1 && '_' !in ([q] + qs)[k]
    {
      if k > 0 {
        assert ([p] + ps)[k] == ps[k - 1];
        assert ([q] + qs)[k] == qs[k - 1];
      }
    }
  }

  lemma RejoinCons(p: String, q: String, ps: seq<String>, qs: seq<String>)
    requires |ps| == |qs|
    ensures Rejoin([p] + ps, [q] + qs) == [p + "_" + q] + Rejoin(ps, qs)
  {
  }

  // ---------------------------------------------------------------- dictionaries and lists

  /** `merge_two_dicts(x, y)`: a new dictionary with the keys of both, the
      value from `y` where both have a key. The inputs are values, so `x` is
      left as it was. */
  function MergeTwoDicts<K, V>(x: map<K, V>, y: map<K, V>): (z: map<K, V>)
    ensures z.Keys == x.Keys + y.Keys
    ensures forall k :: k in y ==> z[k] == y[k]
    ensures forall k :: k in x && k !in y ==> z[k] == x[k]
  {
    x + y
  }

  predicate AllAlnum(s: String)
  {
    forall i :: 0 <= i < |s| ==> IsAlnum(s[i])
  }

  /** `remove_items_with(list)`: the items made only of letters and digits,
      in their original order (the empty string among them). */
  function RemoveItemsWith(items: seq<String>): (r: seq<String>)
    ensures Subsequence(r, items)
    ensures forall x :: multiset(r)[x] == if AllAlnum(x) then multiset(items)[x] else 0
  {
    if |items| == 0 then []
    else
      var rest := RemoveItemsWith(items[1..]);
      assert items == [items[0]] + items[1..];
      if AllAlnum(items[0]) then
        assert ([items[0]] + rest)[1..] == rest;
        [items[0]] + rest
      else
        rest
  }
}

=== FILE: wrappers.dfy ===
/** Failure-compatible wrappers used throughout the model: `Option` stands for
    Python's `None`-or-value returns, `Result` for an operation that either
    returns a value or raises. */
module Wrappers {

  datatype Option<+T> = None | Some(value: T) {

    predicate IsFailure() {
      None?
    }

    function PropagateFailure<U>(): Option<U>
      requires None?
    {
      None
    }

    function Extract(): T
      requires Some?
    {
      value
    }
  }

  datatype Result<+R, +E> = Success(value: R) | Failure(error: E) {

    predicate IsFailure() {
      Failure?
    }

    function PropagateFailure<U>(): Result<U, E>
      requires Failure?
    {
      Failure(error)
    }

    function Extract(): R
      requires Success?
    {
      value
    }
  }
}
